=== FILE: README.md ===
# BotFinanceiroTelegram in Dafny

A model of the core of a Telegram bot that keeps a personal ledger in a Google
Sheet, with proofs about that model. The model covers five parts of the bot:

- **The conversation state machine** (`code/conversation.js`). It keeps a map
  from chat to `{flow, step, data}` and runs three flows:
  - `add_transaction`: value, category, account, description, then a
    confirmation step.
  - `add_recurring`: description, value, type, category, account, then the day
    of the month, after which the entry is saved.
  - `edit_transaction`: one text overwrites one cell.
- **The router** (`code/handlers.js`). It decides whether a message or a button
  press goes to the active conversation, to a command, to a main-menu action or
  to the quick free-text parse.
- **The inline keyboards** (`code/ui.js`). Items are laid out two buttons to a
  row, the category list is chosen by transaction type, and there are three
  fixed keyboards.
- **The legacy free-text front end** (`code/parser.js`). It reads the first
  number of a message, decides income or expense from keywords, picks the first
  category and account named in the text, and routes `/` commands.
- **The row layouts of the spreadsheet layer** (`code/sheets.js`):
  - what is appended for a transaction and for a recurring entry;
  - how rows are read back, with the header dropped and each row numbered;
  - how currency cells are cleaned and read;
  - how budgets, categories and accounts are filtered;
  - which range a cell update and a row deletion address.

Every operation is a pure function. A conversation step takes the state and the
event and returns the next state (or none, when the state is cleared) together
with the effects it performs, in order. Effects are data: messages with their
keyboards, keyboard removal, callback acknowledgements, and the calls into the
spreadsheet layer.

JavaScript's `undefined` is `None`, and `String(undefined)` is the text
`"undefined"`. `parseFloat`, `parseInt(s, 10)` and `Number(s)` are modelled over
exact decimals: a digit grammar with an optional sign and fraction. `NaN` is
`None`.

Modules follow the source files:

| module | covers |
|---|---|
| `Wrappers` | `Option` |
| `Text` | the JavaScript string operations used: `trim`, `toLowerCase` (folded for ASCII and Latin-1 capitals only), `split`, `join`, `replace` of the first occurrence, `includes` |
| `Numbers` | `parseFloat`, `parseInt`, `Number`, and the default count of 5 for `ultimos` |
| `Records` | the objects passed between files |
| `Effects` | the effect trace |
| `Ui` | `ui.js` |
| `Conversation` | `conversation.js` |
| `Handlers` | `handlers.js` |
| `Parser` | `parser.js` |
| `Sheets` | `sheets.js` |

Some behaviour the code appears to intend is not what it does. The model
follows what the code does:

- The last step of `add_transaction` shows the draft with a confirm and a
  cancel button (code/conversation.js:77-80, code/ui.js:66-80). No case of
  `handleAddTransaction` handles `awaiting_confirmation`
  (code/conversation.js:51-82), so pressing either button changes nothing, and
  the flow never writes. `Conversation.TransactionSessionsNeverWrite` proves
  this for any sequence of events.
- Category and account buttons carry the item's original text as their payload
  (code/ui.js:35-38, 50-53). The step input of a button press is the second
  `:`-separated token of the payload (code/conversation.js:49, 86). These
  payloads have no `:`, so the step records `undefined`.
  `Conversation.ButtonWithoutColonGivesUndefined` and
  `Conversation.ExpenseAnswers` prove this.
- `handlers.js` starts conversations under the flow names `Despesa` and
  `Receita`, which `handleResponse` does not dispatch, so such a conversation
  ignores every later event (`Handlers.MenuStartedConversationIsInert`).
  `handlers.js` also keeps its own `userStates` object and passes it where
  `conversation.js` expects `initialData` and `isCallback`. That wiring is not
  modelled. The router sees an abstract `hasState` flag, and the conversation
  sees the kind of event.

## Model

| member | source | states |
|---|---|---|
| `Conversation.Start` | code/conversation.js:7-18 | the chat's entry is replaced and no other chat changes; `data` is exactly the initial data; the first step is `awaiting_description` for `add_recurring`, `awaiting_new_value` for `edit_transaction`, and `awaiting_value` for any other flow name |
| `Conversation.StartReplaces` | code/conversation.js:7-18 | a second `start` for the same chat leaves no trace of the first |
| `Conversation.GetState` | code/conversation.js:20-22 | there is a state exactly when the chat has an entry, and it is that entry |
| `Conversation.ClearState` | code/conversation.js:24-26 | exactly that chat's entry is removed; the others keep their values |
| `Conversation.ClearAbsentIsNoOp` | code/conversation.js:24-26 | clearing an absent chat changes nothing; clearing twice is clearing once; after clearing there is no state |
| `Conversation.AmountOf` | code/conversation.js:53-54 | the value gate accepts only a number above zero |
| `Conversation.DayOf` | code/conversation.js:122-123 | the day gate accepts only an integer in 1..31 |
| `Conversation.TransactionAnswer` | code/conversation.js:48-83 | never clears the state, never writes, never changes the type; a bad amount changes nothing and sends one error; a good amount is recorded and the category keyboard for the draft's type is sent; category and account record the button input and retract the pressed keyboard; `-` as description copies the category; the confirmation step and every unlisted step change nothing and send nothing |
| `Conversation.TransactionStepAdvances` | code/conversation.js:51-82 | every answer either changes nothing or moves one step along value, category, account, description, confirmation, recording only that step's field |
| `Conversation.TransactionAnswerAdvances` | code/conversation.js:51-82 | the same, whatever the value gate's result |
| `Conversation.RecurringAnswer` | code/conversation.js:85-133 | the state is cleared exactly when a valid day is given and the save succeeds, and otherwise keeps its flow; bad amount and bad day change nothing and send one error; description, value, type, category and account each record their field, move one step and send that step's prompt, the button steps retracting the pressed keyboard; the chosen type selects the category list offered; a valid day records `diaDoMes` and makes exactly one `addRecurringEntry` call, with the whole draft, as the first effect; no other step writes |
| `Conversation.RecurringStepAdvances` | code/conversation.js:88-131 | every answer either changes nothing, moves one step along description, value, type, category, account, day recording only that field, or keeps the day step with the day recorded when the save failed |
| `Conversation.RecurringValueAdvances` | code/conversation.js:93-102 | at the value step the state stays or moves to the type step recording only the amount |
| `Conversation.RecurringDayStays` | code/conversation.js:121-131 | at the day step the state, when kept, is unchanged or differs only by the recorded day |
| `Conversation.RecurringAnswerAdvances` | code/conversation.js:88-120 | before the day step, with the gates applied to the input, every answer changes nothing or moves one step recording only that step's field |
| `Conversation.RecurringButtonsAdvance` | code/conversation.js:88-120 | at the description, type, category and account steps the state moves one step recording only that step's field |
| `Conversation.EditStep` | code/conversation.js:135-143 | `updateRow(rowNumber, column, text)` is called once, first, with the message text; the state is cleared exactly when that call succeeds |
| `Conversation.Dispatch` | code/conversation.js:33-43 | a handler is chosen exactly for the three known flows, and a kept state keeps its flow; the transaction flow keeps a state and never writes; the recurring flow ends exactly on a valid day that was saved; the edit flow first calls `updateRow` with the message's text |
| `Conversation.StepInput` | code/conversation.js:49 | a message gives its text; a button press gives a value exactly when its payload has a `:`, and that value is the text after the first `:` up to the next one, so it holds no `:` |
| `Conversation.HandleResponse` | code/conversation.js:28-44 | without a state, or with an unknown flow name, nothing changes and nothing is sent; otherwise only the event's chat can change, no chat is added, and the chat keeps its flow unless it is cleared |
| `Conversation.TransactionEventNeverWrites` | code/conversation.js:28-83 | one event against chats that are all in `add_transaction` clears none of them and writes nothing |
| `Conversation.TransactionSessionsNeverWrite` | code/conversation.js:28-83 | any sequence of events against chats that are all in `add_transaction` keeps them all in it and never writes to the spreadsheet |
| `Conversation.TypedAmountNormalised` | code/conversation.js:53 | an amount typed with `.` or `,` before its fraction reads, after the comma is replaced, as the same amount written with a point |
| `Conversation.AmountOfRendered` | code/conversation.js:53-56 | an amount typed with `.` or `,` before its fraction, whatever non-numeric text follows, is accepted exactly when it is positive and not negative, with its exact value |
| `Conversation.CommaBecomesPoint` | code/conversation.js:53 | digits, a comma and digits become the same number written with a point |
| `Conversation.AmountWithComma` | code/conversation.js:53-59 | digits, a comma and digits are read with the comma as the decimal point, and accepted exactly when positive |
| `Conversation.AmountWhole` | code/conversation.js:53-59 | a whole number typed as digits is accepted exactly when positive |
| `Conversation.DayOfRendered` | code/conversation.js:122-123 | a day typed as an integer, whatever non-digit text follows it (`15abc`, `2.5`), is accepted exactly when it lies in 1..31 |
| `Conversation.GatesRefuseDigitless` | code/conversation.js:53-56 | text without a digit, and `undefined`, are refused by both the value gate and the day gate |
| `Conversation.ButtonWithoutColonGivesUndefined` | code/conversation.js:49 | a button payload without `:` gives `undefined` as the input |
| `Conversation.DataButtonGivesKind` | code/conversation.js:86 | the payload `data:<kind>` gives the kind as the input |
| `Conversation.TypeButtonsCarryLabel` | code/conversation.js:101 | each type button's payload is `data:` followed by its label |
| `Conversation.UnknownFlowIsInert` | code/conversation.js:31-43 | a conversation started under an unknown flow name ignores every event |
| `Conversation.ExpenseAnswers` | code/conversation.js:51-82 | an amount with a comma, a category button, an account button and `-` end at the confirmation step with the amount read with a point and category, account and description `undefined`; the confirm press then changes nothing and sends nothing |
| `Conversation.RecurringOpeningAnswers` | code/conversation.js:88-108 | a description, a whole amount and a `data:` type button fill exactly those three fields and reach the category step |
| `Conversation.DescriptionAnswer` | code/conversation.js:88-92 | a typed description is recorded and the value step follows |
| `Conversation.WholeAmountAnswer` | code/conversation.js:93-102 | a positive whole amount is recorded and the type step follows |
| `Conversation.TypeAnswer` | code/conversation.js:101-108 | a `data:<kind>` button records the kind as the type and the category step follows |
| `Conversation.RecurringClosingAnswers` | code/conversation.js:109-131 | category and account buttons without `:` record `undefined`; a valid day then saves the draft once, with the day, and clears the state |
| `Handlers.Command` | code/handlers.js:19 | the command has no space and is a prefix of the matched text when there is a match, and of the message text otherwise |
| `Handlers.Args` | code/handlers.js:20 | without a match there are no arguments; each argument is free of spaces |
| `Handlers.CommandArgsRejoin` | code/handlers.js:19-20 | the command and the arguments joined with spaces give back the matched text |
| `Handlers.CommandIsFirstWord` | code/handlers.js:19 | only the text before the first space is the command |
| `Handlers.HandleMessage` | code/handlers.js:8-55 | with an active conversation the message is only forwarded; otherwise the chat gets exactly one reply, as the last effect; only the quick parse writes, and only the transaction it produced |
| `Handlers.LatestCount` | code/handlers.js:40 | `ultimos n` asks for n entries when n is positive, and for 5 when n is 0 |
| `Handlers.LatestCountDefault` | code/handlers.js:40 | `ultimos` without an argument asks for 5 |
| `Handlers.LatestRoute` | code/handlers.js:39-41 | the `ultimos` command asks for the count that its first argument gives |
| `Handlers.UnknownTextGetsMenu` | code/handlers.js:19-52 | any text whose command has no case, matched or not: when the quick parse finds nothing it gets only the not-recognised reply with the main menu, and otherwise the parsed transaction is written and confirmed |
| `Handlers.KnownCommandRoutes` | code/handlers.js:23-38 | `start` and `ajuda` send the help text with the main menu; `gasto` and `receita` start the `Despesa` and `Receita` flows and ask for the amount as a forced reply; `resumo` sends the summary; nothing else is sent and the quick parse is not consulted |
| `Handlers.KnownCommandIgnoresQuickParse` | code/handlers.js:22-42 | a text whose command has a case never reaches the quick parse and writes nothing |
| `Handlers.UnknownWordGetsMenu` | code/handlers.js:19-52 | a first word that is no command, followed by any text, gets the not-recognised reply when the quick parse finds nothing |
| `Handlers.MenuAction` | code/handlers.js:73-90 | the leading token selects an action exactly when it is one of the four menu tokens: `start_gasto` starts the `Despesa` flow and asks for the expense amount, `start_receita` starts the `Receita` flow and asks for the income amount (both without a forced reply), `show_resumo` sends the summary and `show_ultimos` asks for the last 5 entries; no action writes |
| `Handlers.HandleCallback` | code/handlers.js:57-91 | the press is acknowledged first and only once; with an active conversation the whole press is forwarded unsplit; otherwise only the payload's leading `:`-token selects the action; nothing writes |
| `Handlers.CallbackReadsLeadingToken` | code/handlers.js:71 | text after the first `:` of a payload does not change the outcome |
| `Handlers.MainMenuButtonsAreRouted` | code/handlers.js:71-90 | every main-menu payload selects an action |
| `Handlers.MenuStartedConversationIsInert` | code/handlers.js:74-81 | a conversation started from the menu, under `Despesa` or `Receita`, ignores every later event |
| `Ui.Buttons` | code/ui.js:35-38 | one button per item, with label and payload both the item's original text |
| `Ui.Rows` | code/ui.js:41-44 | there are ceil(n/2) rows; row i holds the buttons from 2i; every row holds one or two buttons and all but the last hold two; the rows read in order give back the buttons |
| `Ui.CategoriesKeyboard` | code/ui.js:31-46 | the keyboard lists the expense categories exactly when the type is `Despesa`, and the income categories otherwise, two to a row: ceil(n/2) rows, every row but the last holding two, exactly the rows `Rows` lays out |
| `Ui.AccountsKeyboard` | code/ui.js:48-60 | the keyboard lists the accounts in order, two to a row: ceil(n/2) rows, every row but the last holding two, exactly the rows `Rows` lays out |
| `Ui.SkipKeyboard` | code/ui.js:62-64 | a single button whose payload is `skip_` followed by the step |
| `Ui.SkipPayloadNamesStep` | code/ui.js:63 | the step can be read back from the skip payload |
| `Ui.ConfirmationKeyboard` | code/ui.js:66-75 | one row with exactly the payloads `confirm` and `cancel` |
| `Ui.MainMenuKeyboard` | code/ui.js:3-16 | two rows of two buttons, with exactly the payloads `start_gasto`, `start_receita`, `show_resumo`, `show_ultimos` in that order |
| `Parser.Normalize` | code/parser.js:5-7 | agrees with `sheets.js`'s `normalize` on non-empty text; empty text is handed to `removeAccents` as it is |
| `Parser.NormalizeIdempotent` | code/parser.js:5-7 | with no accents to remove, normalising a normalised text changes nothing |
| `Parser.NumberMatch` | code/parser.js:10 | there is a match exactly when the text has a digit; it starts at the text's first digit and is the text there |
| `Parser.NumberAt` | code/parser.js:10 | the match is a prefix made of the leading digits, then possibly a separator and digits; it is the longest such prefix |
| `Parser.ParseValue` | code/parser.js:9-12 | there is a value exactly when the text has a digit, and it is never negative |
| `Parser.NumberAtReads` | code/parser.js:10-11 | a match that starts at a digit always reads as a number |
| `Parser.MatchReads` | code/parser.js:10-11 | each shape of the match (digits; digits with `.` or `,`; digits with `.` or `,` and more digits) reads as its digits over the length of its fraction |
| `Parser.PointNormalised` | code/parser.js:11 | the comma in the match becomes a point |
| `Parser.PointedReads` | code/parser.js:10-11 | digits, `.` or `,`, and digits read as the decimal number with that fraction |
| `Parser.ParseValueFirstNumber` | code/parser.js:9-12 | text without digits, then a number with `.` or `,`, then anything not starting with a digit: the value is that number, and later numbers are ignored |
| `Parser.MatchOfPointed` | code/parser.js:10 | the match is the first number, its separator and its fraction digits |
| `Parser.MatchSkipsPrefix` | code/parser.js:10 | text without digits before the number does not change the match |
| `Parser.MatchOfPointedDigits` | code/parser.js:10 | a number with a separator that starts the text matches up to its last fraction digit |
| `Parser.MatchOfWhole` | code/parser.js:10 | a whole number not followed by `.` or `,` is the whole match |
| `Parser.MatchOfWholeDigits` | code/parser.js:10 | digits at the start of the text, not followed by `.` or `,`, are the whole match |
| `Parser.ValueOfMatch` | code/parser.js:10-11 | text with a digit always has a match, and the value is `parseFloat` of it with the comma read as a point |
| `Parser.ParseValueFirstWhole` | code/parser.js:9-12 | text without digits, then a whole number: the value is that number, whatever follows |
| `Parser.Find` | code/parser.js:74-75 | there is no position exactly when no item's normalised name occurs in the text; otherwise it is the first item that occurs |
| `Parser.FirstMentionUnique` | code/parser.js:74-75 | there is at most one first mention |
| `Parser.Pick` | code/parser.js:74-75 | the original text of the first item named in the text, or the fallback when none is |
| `Parser.ParseTransaction` | code/parser.js:61-86 | no digit, a zero value or no keyword gives no transaction, and otherwise there is one; the amount is the first number; the type is income whenever an income keyword occurs; category and account are the first named, else `Outros` and `Não Informado`; the date is the one given, the description is the text and the note is `''` |
| `Parser.ZeroIsNoTransaction` | code/parser.js:62-63 | a first number of 0 gives no transaction, whatever the keywords |
| `Parser.CommandLineRejoin` | code/parser.js:15 | the command word, then the arguments joined with spaces, give back the text |
| `Parser.HandleCommand` | code/parser.js:14-39 | unknown exactly when the first word is not one of the ten commands; the menu exactly for `/ajuda` and `/start`; the name commands take the rest of the text as the name; `/gastos` and `/receitas` pass the arguments, which rejoin to the text; the `/ultimos` count is never 0 |
| `Parser.CommandOf` | code/parser.js:16-38 | each command word selects its own case and nothing else does; the name commands take the arguments joined with spaces; `/gastos` and `/receitas` pass the arguments; the `/ultimos` count is never 0 |
| `Parser.CommandThenText` | code/parser.js:15 | for a command word, a space and any text, the word is the command and the text is the arguments |
| `Parser.NameCommandTakesRest` | code/parser.js:21-28 | the category and account commands take the whole rest of the text, spaces included, as the name, and each command calls its own helper |
| `Parser.LatestCommand` | code/parser.js:19-20 | `/ultimos n` asks for n entries when n is positive, and for 5 when n is 0 |
| `Parser.LatestRoute` | code/parser.js:19-20 | `/ultimos` asks for the count that its first argument gives |
| `Parser.HandleMessage` | code/parser.js:88-104 | a message without text is ignored; normalised text starting with `/` goes only to the command handler; other text is written exactly when it parses as a transaction, which has a positive amount and the normalised text as description; otherwise the menu is returned |
| `Sheets.Normalize` | code/sheets.js:15-18 | falsy input gives `''` |
| `Sheets.NormalizedInputIsStable` | code/sheets.js:17 | the text handed to `removeAccents` is already trimmed and lower-cased |
| `Sheets.NormalizeIdempotent` | code/sheets.js:15-18 | with no accents to remove, normalising a normalised text changes nothing |
| `Sheets.EntryAmount` | code/sheets.js:127 | an empty or missing cell reads as 0; a cell whose cleaned text reads as a non-zero number gives exactly that number, and a non-zero amount comes only from such a cell; `NaN` and zero give exactly 0 |
| `Sheets.RecurringAmount` | code/sheets.js:154 | a missing cell reads as 0; a cell whose cleaned text reads as a non-zero number gives exactly that number, and a non-zero amount comes only from such a cell; `NaN` and zero give exactly 0 |
| `Sheets.CleanedPlain` | code/sheets.js:127 | text without `R$`, `.` or `,` is unchanged by the clean-up |
| `Sheets.ZeroTextIsZero` | code/sheets.js:127 | `'0'`, the stand-in for an empty entry amount, reads as 0 |
| `Sheets.DigitlessIsZero` | code/sheets.js:127 | text without digits or separators reads as 0 |
| `Sheets.UndefinedTextIsZero` | code/sheets.js:154 | `'undefined'`, the text of a missing recurring amount, reads as 0 |
| `Sheets.BrazilianAmount` | code/sheets.js:127 | `R$1.234,56` reads as 1234.56: the currency sign and the thousands point go, and the comma is the decimal point |
| `Sheets.BrazilianDecodedAmount` | code/sheets.js:127 | an amount cell holding `R$1.234,56` is decoded by either sheet as 1234.56, and one showing zero as 0 |
| `Sheets.BrazilianCleaned` | code/sheets.js:127 | the clean-up turns `R$1.234,56` into `1234.56` |
| `Sheets.StripCurrency` | code/sheets.js:127 | a leading `R$` is removed |
| `Sheets.DropFirstPoint` | code/sheets.js:127 | only the first point is removed |
| `Sheets.PlainBrazilianAmount` | code/sheets.js:127 | `R$` and digits with a decimal comma and no thousands point read as that number |
| `Sheets.WriteToSheet` | code/sheets.js:38-53 | eight cells with the amount fourth and the new id eighth; the value returned is the transaction with the new id |
| `Sheets.DecodedEntry` | code/sheets.js:123-133 | cell k of the row is field k, `undefined` past the end of the row; the amount is the fourth cell's number when that cell is non-empty and reads as a non-zero number, and exactly 0 otherwise |
| `Sheets.GetAllEntries` | code/sheets.js:120-134 | the header is dropped only when there are rows; the entry from the sheet's 1-based row r is that row decoded and numbered r |
| `Sheets.EntryRoundTrip` | code/sheets.js:46-49 | a written row, whose last cell is a non-empty id, reads back whole and column for column: date, description, category, type, account, note and id as written, and the amount as its displayed text reads |
| `Sheets.AppendedEntryIsLast` | code/sheets.js:38-53 | a row appended below the header reads back as the last entry, with its id, description and sheet row number, and the earlier entries are unchanged |
| `Sheets.AddRecurringEntry` | code/sheets.js:163-175 | six cells, with the amount second and the day of the month sixth |
| `Sheets.GetAllRecurringEntries` | code/sheets.js:149-161 | the header is dropped only when there are rows; the entry from the sheet's 1-based row r is that row decoded and numbered r |
| `Sheets.DecodedRecurring` | code/sheets.js:152-160 | the text fields are cells 0, 2, 3 and 4, `undefined` past the end of the row; the amount is the second cell's number when that cell reads as a non-zero number, and exactly 0 otherwise; the day is `NaN` unless the sixth cell holds a digit |
| `Sheets.RecurringRoundTrip` | code/sheets.js:152-172 | a written recurring row reads back column for column: an `undefined` text comes back as `''`, or as `undefined` when the sheet dropped it as a trailing empty cell; the day of the month comes back exactly; a row written with its day comes back whole |
| `Sheets.RecurringTextsReadBack` | code/sheets.js:153-157 | the text cells read back as written, up to dropped trailing empty cells |
| `Sheets.RecurringDayReadsBack` | code/sheets.js:158 | the day cell reads back as the day written, even when the sheet dropped it as empty |
| `Sheets.RecurringAmountReadsBack` | code/sheets.js:154 | the amount reads back as its displayed text reads |
| `Sheets.StrOrShown` | code/sheets.js:171 | an optional text reads back as itself, and `undefined` as `''` |
| `Sheets.DayCellReadsBack` | code/sheets.js:158 | the day of the month reads back as written, `undefined` included |
| `Sheets.GetBudgets` | code/sheets.js:136-147 | below the header, the categories with a budget are exactly those of rows with both cells non-empty, and each one's budget is read from the last such row for it |
| `Sheets.BudgetKeys` | code/sheets.js:140-145 | the categories with a budget are exactly those of rows whose two cells are non-empty |
| `Sheets.BudgetTextKeys` | code/sheets.js:140-145 | the same, for the amount texts before they are read as numbers |
| `Sheets.BudgetFromLastRow` | code/sheets.js:140-145 | each category's budget is read from the last counting row for it |
| `Sheets.BudgetTextFromLastRow` | code/sheets.js:140-145 | each category's amount text comes from the last counting row for it |
| `Sheets.LaterBudgetWins` | code/sheets.js:143 | a later counting row overwrites the budget of its category, and only that one |
| `Sheets.MapValuesUpdate` | code/sheets.js:142-143 | setting one category's text and then reading every text is reading every text and then setting that category |
| `Sheets.Items` | code/sheets.js:182-183 | only non-empty cells become items, each with its normalised form |
| `Sheets.Originals` | code/sheets.js:182 | the original texts of the items, in order |
| `Sheets.ItemsAreNonEmptyCells` | code/sheets.js:181-184 | the items are exactly the non-empty cells |
| `Sheets.ItemsKeepNonEmpty` | code/sheets.js:181-184 | the item texts are the non-empty cells in sheet order |
| `Sheets.NonEmptyMembers` | code/sheets.js:191 | a text is among the non-empty cells exactly when it is a non-empty cell |
| `Sheets.ItemsAppend` | code/sheets.js:181-184 | the items of two runs of cells are those of the first, then those of the second |
| `Sheets.ColumnCells` | code/sheets.js:182-183 | a non-empty text is in a column exactly when some row has it in that cell |
| `Sheets.ListCategorias` | code/sheets.js:177-186 | below the header, the expense categories are exactly the non-empty column-A cells and the income categories exactly the non-empty column-B cells |
| `Sheets.CategoriesKeepOrder` | code/sheets.js:181-184 | a row added at the bottom adds its non-empty cells at the end of each list |
| `Sheets.FlatCells` | code/sheets.js:191 | a cell is in the flattened rows exactly when it is in one of them |
| `Sheets.ListContas` | code/sheets.js:188-192 | below the header, the accounts are exactly the non-empty cells |
| `Sheets.UpdateRange` | code/sheets.js:57 | the range is on the transactions sheet and is the column followed by the row number; a missing column or row is written `undefined` |
| `Sheets.UpdateRangeInjective` | code/sheets.js:57 | different cells give different ranges: column and row can be read back from the range |
| `Sheets.DeleteSpan` | code/sheets.js:81-82 | the 1-based row r is the one-row span that ends at r |
| `Sheets.DeleteEntryRow` | code/sheets.js:69-88 | deleting an entry's row removes exactly the row it was read from; the entries read afterwards are the others, in order, with those below it moved up one row |
| `Sheets.EntriesShifted` | code/sheets.js:120-134 | after one row is removed, the earlier entries are unchanged and the later ones are renumbered one less |
| `Sheets.EntryMovedUp` | code/sheets.js:132 | the entry of a row that moved up is the same entry, numbered one less |
| `Sheets.EntryAt` | code/sheets.js:123-133 | entry j is body row j decoded |
| `Sheets.RemoveShifts` | code/sheets.js:81-82 | removing one row keeps the rows above it and shifts the rows below it up by one |
| `Sheets.DeleteRecurringRow` | code/sheets.js:90-108 | deleting a recurring entry's row removes exactly that row; the entries below it move up one row |
| `Sheets.RecurringShifted` | code/sheets.js:149-161 | after one row is removed, the earlier recurring entries are unchanged and the later ones are renumbered one less |
| `Sheets.RecurringMovedUp` | code/sheets.js:159 | the recurring entry of a row that moved up is the same entry, numbered one less |
| `Sheets.RecurringAt` | code/sheets.js:152-160 | recurring entry j is body row j decoded |
| `Sheets.Renumbered` | code/sheets.js:159 | a row decodes the same whatever its number, apart from the number |

## Left out

- Transport: sending messages, removing keyboards and answering callbacks are effects recorded in a trace. The message wording, Markdown and `toFixed(2)` formatting are not modelled.
- The Google Sheets client, authentication, `readSheet` and `getSheetIdByName` (code/sheets.js:20-36, 111-117) are remote I/O. A read is the rows the sheet returns. A write is the row of typed cells appended.
- How the sheet stores a number appended with `USER_ENTERED`: an amount cell reads back as a text given as a parameter (`amountText`). The sheet API drops a row's trailing empty cells, which `Sheets.DropTrailingBlanks` models; what else it does to the cells written is not modelled.
- `moment()` dates, `uuidv4()` ids and `removeAccents` are parameters.
- `getResumo`, `getUltimos`, `parseLegacyTransaction`, `addCategoria`, `remCategoria`, `addConta`, `remConta`, `handleGastos` and `handleReceitas` are not part of this model. Their calls are results or effects, and their outcome is a parameter where it matters (`legacy`).
- `code/index.js`: credentials, polling and the daily job.
- Concurrency: events are handled one at a time.
- Floating point: `parseFloat`, `parseInt` and `Number` are exact over decimal digits. Exponents, `Infinity`, rounding and the prefixed literals `Number` accepts (hexadecimal `0x1f`, binary `0b11` and octal `0o7`, which read as 31, 3 and 7) are not modelled: the model's `Number` reads such text as `NaN`, so `/ultimos 0b11` asks for 5. (`parseInt(s, 10)` reads them as 0 in JavaScript too, and so does the model.)
- `handlers.js` indexes `match[1]` whenever `match` is truthy. The model takes the matched text as an option and does not model a match without a group.
- The wiring between `handlers.js` and `conversation.js`: the separate `userStates`, and the arguments passed in the `initialData` and `isCallback` positions. The router sees `hasState`, and the conversation sees the event kind.
- `parseTransaction` calls `listCategorias()`, which returns an object with two lists, and then calls `.find` on that object. The model takes the category list and the account list as plain lists. As written, that object has no `find`, so `parseTransaction` throws a `TypeError` on every text that passes the keyword test (code/parser.js:65-67, code/parser.js:74): it never returns a transaction, and `handleMessage` never writes one (code/parser.js:96-99). `Parser.ParseTransaction` and `Parser.HandleMessage` model the behaviour the code is evidently written for, with lists as parameters, not that exception.
- A failed spreadsheet call is a `writeOk` flag. The exception it raises is not modelled beyond keeping the state.
- `getHelpMessage`, `getConfirmationText` and `menu` are presentation.
- Conversation.Event: a button press is modelled with its chat and message id at the top level, like a message. Telegram's `callbackQuery` has them only under `callbackQuery.message` (code/handlers.js:58), and the press is forwarded as it is (code/handlers.js:66), so `handleResponse` reading `msg.chat.id` (code/conversation.js:29) would throw on a forwarded press. The model does not model that exception.
- Text.Lower: folds only ASCII `A`-`Z` and Latin-1 `À`-`Þ` (except `×`). Other capitals, such as `Ÿ`, Latin Extended, Greek or Cyrillic, are left as they are, while `toLowerCase` folds them, and `İ` even becomes two characters. `Sheets.Normalize`, `Parser.Normalize`, and through them the item and keyword matching, inherit this.
- Sheets.Normalize: states only the falsy case, because `removeAccents` is a parameter whose effect is not modelled. `Sheets.NormalizedInputIsStable` and `Sheets.NormalizeIdempotent` state what holds of the text handed to it.
- Sheets.BrazilianAmount: covers one thousands point. The clean-up removes only the first `.`, so `R$1.234.567,89` is not read as 1234567.89.

=== FILE: conversation.dfy ===
/**
 * The per-chat conversation state machine of `conversation.js`.
 *
 * `userStates` maps a chat to `{flow, step, data}`. Three flows are known:
 * `add_transaction` (value, category, account, description, then a confirmation
 * step that nothing handles), `add_recurring` (description, value, type,
 * category, account, day, then the entry is saved) and `edit_transaction` (one
 * text overwrites one cell). Every handler is a pure step from the state and the
 * event to the next state and the effects it performs, in order. The outcome of
 * a spreadsheet write is a parameter: when it fails, the source has already
 * changed `data` and the exception stops the handler before the state is cleared.
 */
module Conversation {
  import opened Wrappers
  import opened Text
  import opened Numbers
  import opened Records
  import opened Effects
  import Ui

  const AddTransaction: string := "add_transaction"
  const AddRecurring: string := "add_recurring"
  const EditTransaction: string := "edit_transaction"

  datatype Step =
    | AwaitingValue
    | AwaitingCategory
    | AwaitingAccount
    | AwaitingDescription
    | AwaitingConfirmation
    | AwaitingType
    | AwaitingDay
    | AwaitingNewValue

  /** One chat's conversation: `{flow, step, data}`. Any flow name can be started. */
  datatype State = State(flow: string, step: Step, data: Draft)

  /** `userStates`. */
  type Store = map<int, State>

  /** What reaches `handleResponse`: a text message or a button press, with the message it came from. */
  datatype Event =
    | Message(chat: int, messageId: int, text: Option<string>)
    | ButtonPress(chat: int, messageId: int, payload: string)

  // ---------------------------------------------------------------- the store

  function EntryStep(flow: string): Step
  {
    if flow == AddRecurring then AwaitingDescription
    else if flow == EditTransaction then AwaitingNewValue
    else AwaitingValue
  }

  /** `start(chatId, flow, initialData)`: the chat's state is replaced, whatever it was. */
  function Start(store: Store, chat: int, flow: string, initialData: Draft): (r: Store)
    ensures r.Keys == store.Keys + {chat}
    ensures r[chat].flow == flow && r[chat].data == initialData
    ensures flow == AddRecurring ==> r[chat].step == AwaitingDescription
    ensures flow == EditTransaction ==> r[chat].step == AwaitingNewValue
    ensures flow != AddRecurring && flow != EditTransaction ==> r[chat].step == AwaitingValue
    ensures forall c :: c in store && c != chat ==> r[c] == store[c]
  {
    store[chat := State(flow, EntryStep(flow), initialData)]
  }

  /** `getState(chatId)`. */
  function GetState(store: Store, chat: int): (r: Option<State>)
    ensures r.Some? <==> chat in store
    ensures r.Some? ==> r.value == store[chat]
  {
    if chat in store then Some(store[chat]) else None
  }

  /** `clearState(chatId)`: only that chat's entry goes. */
  function ClearState(store: Store, chat: int): (r: Store)
    ensures r.Keys == store.Keys - {chat}
    ensures forall c :: c in r ==> r[c] == store[c]
  {
    store - {chat}
  }

  /** A second `start` leaves no trace of the first one. */
  lemma StartReplaces(store: Store, chat: int, flow1: string, data1: Draft, flow2: string, data2: Draft)
    ensures Start(Start(store, chat, flow1, data1), chat, flow2, data2) == Start(store, chat, flow2, data2)
  {
  }

  /** Clearing an absent chat changes nothing, so clearing twice is clearing once. */
  lemma ClearAbsentIsNoOp(store: Store, chat: int)
    ensures chat !in store ==> ClearState(store, chat) == store
    ensures ClearState(ClearState(store, chat), chat) == ClearState(store, chat)
    ensures GetState(ClearState(store, chat), chat) == None
  {
  }

  // ---------------------------------------------------------------- reading the input

  /** `msg.data.split(':')[1]` for a button press, `msg.text` for a message. */
  function StepInput(ev: Event): (r: Option<string>)
    ensures ev.Message? ==> r == ev.text
    ensures ev.ButtonPress? ==> (r.Some? <==> ':' in ev.payload)
    // the text after the first `:`, up to the next `:` or the end
    ensures ev.ButtonPress? && ':' in ev.payload ==>
      r == Some(Split(ev.payload[CharIndex(ev.payload, ':') + 1..], ':')[0])
    ensures ev.ButtonPress? && r.Some? ==> ':' !in r.value
  {
    match ev
    case ButtonPress(_, _, payload) =>
      SecondPiece(payload, ':');
      Piece(payload, ':', 1)
    case Message(_, _, text) => text
  }

  /** `msg.text`, which a button press does not have. */
  function TextOf(ev: Event): Option<string>
  {
    match ev
    case ButtonPress(_, _, _) => None
    case Message(_, _, text) => text
  }

  /** The value step's gate: `parseFloat(String(text).replace(',', '.'))`, kept when it is a number above zero. */
  function AmountOf(input: Option<string>): (r: Option<Dec>)
    ensures r.Some? ==> r.value.mant > 0
  {
    match ParseFloat(ReplaceFirst(JsString(input), ",", "."))
    case Some(v) => if v.mant > 0 then Some(v) else None
    case None => None
  }

  /** The day step's gate: `parseInt(text, 10)`, kept when it lies in 1..31. */
  function DayOf(input: Option<string>): (r: Option<int>)
    ensures r.Some? ==> 1 <= r.value <= 31
  {
    match ParseInt(JsString(input))
    case Some(d) => if 1 <= d <= 31 then Some(d) else None
    case None => None
  }

  // ---------------------------------------------------------------- draft fields

  datatype Field = Tipo | Valor | Categoria | Conta | Descricao | DiaDoMes

  /** `d` with field `f` taken from `e`. */
  function Overwrite(d: Draft, e: Draft, f: Field): Draft
  {
    match f
    case Tipo => d.(tipo := e.tipo)
    case Valor => d.(valor := e.valor)
    case Categoria => d.(categoria := e.categoria)
    case Conta => d.(conta := e.conta)
    case Descricao => d.(descricao := e.descricao)
    case DiaDoMes => d.(diaDoMes := e.diaDoMes)
  }

  /** `e` differs from `d` at most in field `f`. */
  predicate OnlyChanges(d: Draft, e: Draft, f: Field)
  {
    e == Overwrite(d, e, f)
  }

  /** The transaction flow's order: the step after each step, and the field its answer fills. */
  function TransactionSucc(step: Step): Option<(Step, Field)>
  {
    match step
    case AwaitingValue => Some((AwaitingCategory, Valor))
    case AwaitingCategory => Some((AwaitingAccount, Categoria))
    case AwaitingAccount => Some((AwaitingDescription, Conta))
    case AwaitingDescription => Some((AwaitingConfirmation, Descricao))
    case _ => None
  }

  /** The recurring flow's order, up to the day, which ends it. */
  function RecurringSucc(step: Step): Option<(Step, Field)>
  {
    match step
    case AwaitingDescription => Some((AwaitingValue, Descricao))
    case AwaitingValue => Some((AwaitingType, Valor))
    case AwaitingType => Some((AwaitingCategory, Tipo))
    case AwaitingCategory => Some((AwaitingAccount, Categoria))
    case AwaitingAccount => Some((AwaitingDay, Conta))
    case _ => None
  }

  /** `t` is `s` moved to the successor step `succ` names, having recorded only that step's field. */
  predicate Advance(succ: Option<(Step, Field)>, s: State, t: State)
  {
    && succ.Some?
    && t.flow == s.flow
    && t.step == succ.value.0
    && OnlyChanges(s.data, t.data, succ.value.1)
  }

  /** The result of one flow step: the next state (`None` when the state is cleared) and the effects, in order. */
  datatype Move = Move(next: Option<State>, effects: seq<Effect>)

  /** The type buttons of the recurring flow; their payloads carry the type after `data:`. */
  const TypeKeyboard: Keyboard := [[Button("Receita", "data:Receita"), Button("Despesa", "data:Despesa")]]

  // ---------------------------------------------------------------- add_transaction

  /** `handleAddTransaction`: the value gate reads the input, then the step answers. */
  function TransactionStep(s: State, chat: int, messageId: int, input: Option<string>, catalog: Catalog): Move
  {
    TransactionAnswer(s, chat, messageId, input, AmountOf(input), catalog)
  }

  /**
   * The transaction step once the value gate has read `amount` from the input
   * (`None` when it is not a number above zero). It never clears the state and
   * never writes to the spreadsheet (no case handles `awaiting_confirmation`);
   * the type chosen at the start is never touched.
   */
  function TransactionAnswer(s: State, chat: int, messageId: int, input: Option<string>, amount: Option<Dec>, catalog: Catalog): (m: Move)
    ensures m.next.Some?
    ensures m.next.value.flow == s.flow && m.next.value.data.tipo == s.data.tipo
    ensures forall e :: e in m.effects ==> !IsLedgerWrite(e)
    // the value gate: a bad amount changes nothing and sends one error
    ensures s.step == AwaitingValue && amount.None? ==>
      m == Move(Some(s), [Send(chat, InvalidAmount, Plain)])
    ensures s.step == AwaitingValue && amount.Some? ==>
      && m.next.value.step == AwaitingCategory && m.next.value.data.valor == amount
      && m.effects == [Send(chat, ChooseCategory, Inline(Ui.CategoriesKeyboard(s.data.tipo, catalog.categories)))]
    // the button steps record the input and retract the keyboard that was pressed
    ensures s.step == AwaitingCategory ==>
      && m.next.value.step == AwaitingAccount && m.next.value.data.categoria == input
      && m.effects == [StripKeyboard(chat, messageId), Send(chat, CategoryChosen(input), Inline(Ui.AccountsKeyboard(catalog.accounts)))]
    ensures s.step == AwaitingAccount ==>
      && m.next.value.step == AwaitingDescription && m.next.value.data.conta == input
      && m.effects == [StripKeyboard(chat, messageId), Send(chat, AccountChosen(input), Plain)]
    // `-` stands for "same as the category"
    ensures s.step == AwaitingDescription ==>
      && m.next.value.step == AwaitingConfirmation
      && m.next.value.data.descricao == (if input == Some("-") then s.data.categoria else input)
      && m.effects == [Send(chat, ConfirmDraft(m.next.value.data), Inline(Ui.ConfirmationKeyboard()))]
    // every other step is inert
    ensures s.step !in {AwaitingValue, AwaitingCategory, AwaitingAccount, AwaitingDescription} ==> m == Move(Some(s), [])
  {
    match s.step
    case AwaitingValue =>
      (match amount
       case None => Move(Some(s), [Send(chat, InvalidAmount, Plain)])
       case Some(v) =>
         var t := s.(step := AwaitingCategory, data := s.data.(valor := Some(v)));
         Move(Some(t), [Send(chat, ChooseCategory, Inline(Ui.CategoriesKeyboard(s.data.tipo, catalog.categories)))]))
    case AwaitingCategory =>
      var t := s.(step := AwaitingAccount, data := s.data.(categoria := input));
      Move(Some(t), [StripKeyboard(chat, messageId), Send(chat, CategoryChosen(input), Inline(Ui.AccountsKeyboard(catalog.accounts)))])
    case AwaitingAccount =>
      var t := s.(step := AwaitingDescription, data := s.data.(conta := input));
      Move(Some(t), [StripKeyboard(chat, messageId), Send(chat, AccountChosen(input), Plain)])
    case AwaitingDescription =>
      var d := s.data.(descricao := if input == Some("-") then s.data.categoria else input);
      var t := s.(step := AwaitingConfirmation, data := d);
      Move(Some(t), [Send(chat, ConfirmDraft(d), Inline(Ui.ConfirmationKeyboard()))])
    case _ =>
      Move(Some(s), [])
  }

  /**
   * Each answer in the transaction flow either changes nothing or moves the
   * state exactly one step along the order, recording only that step's field.
   */
  lemma TransactionStepAdvances(s: State, chat: int, messageId: int, input: Option<string>, catalog: Catalog)
    ensures var t := TransactionStep(s, chat, messageId, input, catalog).next.value;
      t == s || Advance(TransactionSucc(s.step), s, t)
  {
    TransactionAnswerAdvances(s, chat, messageId, input, AmountOf(input), catalog);
  }

  /** Whatever the value gate read, the answer moves at most one step along the order. */
  lemma TransactionAnswerAdvances(s: State, chat: int, messageId: int, input: Option<string>, amount: Option<Dec>, catalog: Catalog)
    ensures var m := TransactionAnswer(s, chat, messageId, input, amount, catalog);
      m.next.Some? && (m.next.value == s || Advance(TransactionSucc(s.step), s, m.next.value))
  {
  }

  // ---------------------------------------------------------------- add_recurring

  /** `handleAddRecurring`: the value and day gates read the input, then the step answers. */
  function RecurringStep(s: State, chat: int, messageId: int, input: Option<string>, catalog: Catalog, writeOk: bool): Move
  {
    RecurringAnswer(s, chat, messageId, input, AmountOf(input), DayOf(input), catalog, writeOk)
  }

  /**
   * The recurring step once the value gate has read `amount` and the day gate
   * `day` from the input (`None` for input the gate refuses). The answers are
   * taken in the order description, value, type, category, account, day. A valid
   * day records `diaDoMes` and calls `addRecurringEntry` once with the whole
   * draft; the state is cleared only when that call succeeds.
   */
  function RecurringAnswer(s: State, chat: int, messageId: int, input: Option<string>, amount: Option<Dec>, day: Option<int>, catalog: Catalog, writeOk: bool): (m: Move)
    ensures m.next.Some? ==> m.next.value.flow == s.flow
    ensures m.next.None? <==> s.step == AwaitingDay && day.Some? && writeOk
    // the value gate
    ensures s.step == AwaitingValue && amount.None? ==>
      m == Move(Some(s), [Send(chat, InvalidAmount, Plain)])
    ensures s.step == AwaitingValue && amount.Some? ==>
      && m.next.value.step == AwaitingType && m.next.value.data.valor == amount
      && m.effects == [Send(chat, ChooseType, Inline(TypeKeyboard))]
    // the description is typed; the type chosen decides the category list offered next
    ensures s.step == AwaitingDescription ==>
      && m.next.value.step == AwaitingValue && m.next.value.data.descricao == input
      && m.effects == [Send(chat, DescriptionRecorded, Plain)]
    ensures s.step == AwaitingType ==>
      && m.next.value.step == AwaitingCategory && m.next.value.data.tipo == input
      && m.effects == [StripKeyboard(chat, messageId), Send(chat, ChooseRecurringCategory, Inline(Ui.CategoriesKeyboard(input, catalog.categories)))]
    ensures s.step == AwaitingCategory ==>
      && m.next.value.step == AwaitingAccount && m.next.value.data.categoria == input
      && m.effects == [StripKeyboard(chat, messageId), Send(chat, ChooseRecurringAccount, Inline(Ui.AccountsKeyboard(catalog.accounts)))]
    ensures s.step == AwaitingAccount ==>
      && m.next.value.step == AwaitingDay && m.next.value.data.conta == input
      && m.effects == [StripKeyboard(chat, messageId), Send(chat, AskDay, Plain)]
    // the day gate
    ensures s.step == AwaitingDay && day.None? ==>
      m == Move(Some(s), [Send(chat, InvalidDay, Plain)])
    ensures s.step == AwaitingDay && day.Some? ==>
      && |m.effects| >= 1
      && m.effects[0] == AddRecurringEntry(s.data.(diaDoMes := day))
      && (forall k :: 1 <= k < |m.effects| ==> !IsLedgerWrite(m.effects[k]))
    // no other step writes
    ensures s.step != AwaitingDay ==> forall e :: e in m.effects ==> !IsLedgerWrite(e)
    ensures s.step == AwaitingConfirmation || s.step == AwaitingNewValue ==> m == Move(Some(s), [])
  {
    match s.step
    case AwaitingDescription =>
      var t := s.(step := AwaitingValue, data := s.data.(descricao := input));
      Move(Some(t), [Send(chat, DescriptionRecorded, Plain)])
    case AwaitingValue =>
      (match amount
       case None => Move(Some(s), [Send(chat, InvalidAmount, Plain)])
       case Some(v) =>
         var t := s.(step := AwaitingType, data := s.data.(valor := Some(v)));
         Move(Some(t), [Send(chat, ChooseType, Inline(TypeKeyboard))]))
    case AwaitingType =>
      var t := s.(step := AwaitingCategory, data := s.data.(tipo := input));
      Move(Some(t), [StripKeyboard(chat, messageId), Send(chat, ChooseRecurringCategory, Inline(Ui.CategoriesKeyboard(input, catalog.categories)))])
    case AwaitingCategory =>
      var t := s.(step := AwaitingAccount, data := s.data.(categoria := input));
      Move(Some(t), [StripKeyboard(chat, messageId), Send(chat, ChooseRecurringAccount, Inline(Ui.AccountsKeyboard(catalog.accounts)))])
    case AwaitingAccount =>
      var t := s.(step := AwaitingDay, data := s.data.(conta := input));
      Move(Some(t), [StripKeyboard(chat, messageId), Send(chat, AskDay, Plain)])
    case AwaitingDay =>
      (match day
       case None => Move(Some(s), [Send(chat, InvalidDay, Plain)])
       case Some(n) =>
         var d := s.data.(diaDoMes := Some(n));
         if writeOk then Move(None, [AddRecurringEntry(d), Send(chat, RecurringSaved, Plain)])
         else Move(Some(s.(data := d)), [AddRecurringEntry(d)]))
    case _ =>
      Move(Some(s), [])
  }

  /**
   * Each answer in the recurring flow either changes nothing, moves the state one
   * step along the order recording only that step's field, or (a valid day whose
   * save failed) keeps the step with the day recorded.
   */
  lemma RecurringStepAdvances(s: State, chat: int, messageId: int, input: Option<string>, catalog: Catalog, writeOk: bool)
    ensures var m := RecurringStep(s, chat, messageId, input, catalog, writeOk);
      m.next.Some? ==>
        || m.next.value == s
        || Advance(RecurringSucc(s.step), s, m.next.value)
        || (s.step == AwaitingDay && m.next.value == s.(data := s.data.(diaDoMes := DayOf(input))))
  {
    var amount, day := AmountOf(input), DayOf(input);
    if s.step == AwaitingValue {
      RecurringValueAdvances(s, chat, messageId, input, amount, day, catalog, writeOk);
    } else if s.step == AwaitingDay {
      RecurringDayStays(s, chat, messageId, input, amount, day, catalog, writeOk);
    } else {
      RecurringButtonsAdvance(s, chat, messageId, input, amount, day, catalog, writeOk);
    }
  }

  lemma RecurringValueAdvances(s: State, chat: int, messageId: int, input: Option<string>, amount: Option<Dec>, day: Option<int>, catalog: Catalog, writeOk: bool)
    requires s.step == AwaitingValue
    ensures var m := RecurringAnswer(s, chat, messageId, input, amount, day, catalog, writeOk);
      m.next.Some? && (m.next.value == s || Advance(RecurringSucc(s.step), s, m.next.value))
  {
  }

  lemma RecurringDayStays(s: State, chat: int, messageId: int, input: Option<string>, amount: Option<Dec>, day: Option<int>, catalog: Catalog, writeOk: bool)
    requires s.step == AwaitingDay
    ensures var m := RecurringAnswer(s, chat, messageId, input, amount, day, catalog, writeOk);
      m.next.Some? ==> m.next.value == s || m.next.value == s.(data := s.data.(diaDoMes := day))
  {
  }

  lemma RecurringButtonsAdvance(s: State, chat: int, messageId: int, input: Option<string>, amount: Option<Dec>, day: Option<int>, catalog: Catalog, writeOk: bool)
    requires s.step != AwaitingValue && s.step != AwaitingDay
    ensures var m := RecurringAnswer(s, chat, messageId, input, amount, day, catalog, writeOk);
      m.next.Some? && (m.next.value == s || Advance(RecurringSucc(s.step), s, m.next.value))
  {
  }

  // ---------------------------------------------------------------- edit_transaction

  /**
   * `handleEditTransaction`: whatever the step, `updateRow(rowNumber, column, text)`
   * is called once with the message text (`undefined` for a button press) and,
   * when it succeeds, the state is cleared.
   */
  function EditStep(s: State, chat: int, text: Option<string>, writeOk: bool): (m: Move)
    ensures |m.effects| >= 1 && m.effects[0] == UpdateRow(s.data.rowNumber, s.data.column, text)
    ensures forall k :: 1 <= k < |m.effects| ==> !IsLedgerWrite(m.effects[k])
    ensures m.next.None? <==> writeOk
    ensures m.next.Some? ==> m.next.value == s
  {
    if writeOk then
      Move(None, [UpdateRow(s.data.rowNumber, s.data.column, text), Send(chat, FieldUpdated(s.data.fieldName, text), Plain)])
    else
      Move(Some(s), [UpdateRow(s.data.rowNumber, s.data.column, text)])
  }

  // ---------------------------------------------------------------- dispatch

  /** The store after a handler and what the handler did. */
  datatype Reaction = Reaction(store: Store, effects: seq<Effect>)

  /** `handleResponse`'s choice of handler by the state's flow: `None` when no handler knows the flow. */
  function Dispatch(s: State, ev: Event, catalog: Catalog, writeOk: bool): (r: Option<Move>)
    ensures r.None? <==> s.flow !in {AddTransaction, AddRecurring, EditTransaction}
    ensures r.Some? && r.value.next.Some? ==> r.value.next.value.flow == s.flow
    // the transaction flow always keeps a state and never writes
    ensures s.flow == AddTransaction ==>
      r.value.next.Some? && forall e :: e in r.value.effects ==> !IsLedgerWrite(e)
    // the recurring flow ends only on a valid day that was saved
    ensures s.flow == AddRecurring ==>
      (r.value.next.None? <==> s.step == AwaitingDay && DayOf(StepInput(ev)).Some? && writeOk)
    // the edit flow writes the message's text, which a button press does not have
    ensures s.flow == EditTransaction ==>
      |r.value.effects| >= 1 && r.value.effects[0] == UpdateRow(s.data.rowNumber, s.data.column, TextOf(ev))
  {
    if s.flow == AddTransaction then Some(TransactionStep(s, ev.chat, ev.messageId, StepInput(ev), catalog))
    else if s.flow == AddRecurring then Some(RecurringStep(s, ev.chat, ev.messageId, StepInput(ev), catalog, writeOk))
    else if s.flow == EditTransaction then Some(EditStep(s, ev.chat, TextOf(ev), writeOk))
    else None
  }

  /**
   * `handleResponse`: without a state, or with a flow it does not know, nothing
   * happens; otherwise only the event's chat can change, and it keeps its flow
   * unless it is cleared.
   */
  function HandleResponse(store: Store, ev: Event, catalog: Catalog, writeOk: bool): (r: Reaction)
    ensures ev.chat !in store ==> r == Reaction(store, [])
    ensures ev.chat in store && store[ev.chat].flow !in {AddTransaction, AddRecurring, EditTransaction} ==>
      r == Reaction(store, [])
    ensures r.store.Keys <= store.Keys
    ensures forall c :: c in store && c != ev.chat ==> c in r.store && r.store[c] == store[c]
    ensures ev.chat in r.store ==> r.store[ev.chat].flow == store[ev.chat].flow
  {
    if ev.chat !in store then Reaction(store, [])
    else
      match Dispatch(store[ev.chat], ev, catalog, writeOk)
      case None => Reaction(store, [])
      case Some(m) =>
        match m.next
        case None => Reaction(ClearState(store, ev.chat), m.effects)
        case Some(t) => Reaction(store[ev.chat := t], m.effects)
  }

  /** The events of a session, handled one after the other; the effects are concatenated in order. */
  function Run(store: Store, events: seq<Event>, catalog: Catalog, writeOk: bool): Reaction
    decreases |events|
  {
    if events == [] then Reaction(store, [])
    else
      var first := HandleResponse(store, events[0], catalog, writeOk);
      var later := Run(first.store, events[1..], catalog, writeOk);
      Reaction(later.store, first.effects + later.effects)
  }

  predicate AllTransactions(store: Store)
  {
    forall c :: c in store ==> store[c].flow == AddTransaction
  }

  /** One event against transaction conversations: no chat is cleared and nothing is written. */
  lemma TransactionEventNeverWrites(store: Store, ev: Event, catalog: Catalog, writeOk: bool)
    requires AllTransactions(store)
    ensures var r := HandleResponse(store, ev, catalog, writeOk);
      && AllTransactions(r.store)
      && r.store.Keys == store.Keys
      && forall e :: e in r.effects ==> !IsLedgerWrite(e)
  {
  }

  /**
   * However many events arrive, chats that are in the transaction flow stay in
   * it and nothing reaches the spreadsheet: the confirmation step has no handler.
   */
  lemma {:induction false} TransactionSessionsNeverWrite(store: Store, events: seq<Event>, catalog: Catalog, writeOk: bool)
    requires AllTransactions(store)
    ensures var r := Run(store, events, catalog, writeOk);
      && AllTransactions(r.store)
      && r.store.Keys == store.Keys
      && forall e :: e in r.effects ==> !IsLedgerWrite(e)
    decreases |events|
  {
    if events != [] {
      var first := HandleResponse(store, events[0], catalog, writeOk);
      TransactionEventNeverWrites(store, events[0], catalog, writeOk);
      TransactionSessionsNeverWrite(first.store, events[1..], catalog, writeOk);
    }
  }

  // ---------------------------------------------------------------- the gates on concrete input

  /** What the value gate parses, for an amount typed with `.` or `,` before the fraction. */
  lemma TypedAmountNormalised(negative: bool, whole: string, sep: char, frac: string, rest: string)
    requires AllDigits(whole) && AllDigits(frac)
    requires sep == '.' || sep == ','
    requires ',' !in rest
    ensures var typed := (if negative then "-" else "") + whole + (if frac == [] then "" else [sep] + frac) + rest;
      ReplaceFirst(typed, ",", ".") == Render(negative, whole, frac) + rest
  {
    var sign := if negative then "-" else "";
    var typed := sign + whole + (if frac == [] then "" else [sep] + frac) + rest;
    DigitsExclude(whole, ',');
    DigitsExclude(frac, ',');
    if sep == ',' && frac != [] {
      assert typed == (sign + whole) + "," + (frac + rest);
      ReplaceFirstComma(sign + whole, frac + rest);
      assert (sign + whole) + "." + (frac + rest) == Render(negative, whole, frac) + rest;
    } else {
      assert typed == Render(negative, whole, frac) + rest;
      ReplaceCommaAbsent(typed);
    }
  }

  /**
   * The amount typed as digits with `.` or `,` before the fraction: the comma
   * reads as a decimal point, and the amount is accepted exactly when it is
   * positive and not signed negative.
   */
  lemma AmountOfRendered(negative: bool, whole: string, sep: char, frac: string, rest: string)
    requires AllDigits(whole) && AllDigits(frac) && |whole| + |frac| > 0
    requires sep == '.' || sep == ','
    requires ',' !in rest
    requires rest == [] || (!IsDigit(rest[0]) && rest[0] != '.')
    ensures var typed := (if negative then "-" else "") + whole + (if frac == [] then "" else [sep] + frac) + rest;
      AmountOf(Some(typed))
        == if !negative && DigitsValue(whole + frac) > 0 then Some(Dec(DigitsValue(whole + frac), |frac|)) else None
  {
    TypedAmountNormalised(negative, whole, sep, frac, rest);
    ParseFloatRender(negative, whole, frac, rest);
  }

  /** What the value gate parses for digits, a comma and more digits. */
  lemma CommaBecomesPoint(whole: string, frac: string)
    requires AllDigits(whole) && frac != []
    ensures ReplaceFirst(JsString(Some(whole + "," + frac)), ",", ".") == Render(false, whole, frac) + ""
  {
    DigitsExclude(whole, ',');
    ReplaceFirstComma(whole, frac);
    RenderUnsigned(whole, frac);
  }

  /** Digits, a comma and more digits: the comma is the decimal point. */
  lemma AmountWithComma(whole: string, frac: string)
    requires AllDigits(whole) && AllDigits(frac) && frac != []
    ensures AmountOf(Some(whole + "," + frac))
         == if DigitsValue(whole + frac) > 0 then Some(Dec(DigitsValue(whole + frac), |frac|)) else None
  {
    CommaBecomesPoint(whole, frac);
    ParseFloatRender(false, whole, frac, "");
  }

  /** Digits alone: the whole amount. */
  lemma AmountWhole(whole: string)
    requires AllDigits(whole) && whole != []
    ensures AmountOf(Some(whole)) == if DigitsValue(whole) > 0 then Some(Dec(DigitsValue(whole), 0)) else None
  {
    DigitsExclude(whole, ',');
    ReplaceCommaAbsent(whole);
    ParseFloatDigits(whole);
  }

  /** A day typed as an integer, whatever non-digit text follows it, is accepted exactly when it lies in 1..31. */
  lemma DayOfRendered(d: int, rest: string)
    requires rest == [] || !IsDigit(rest[0])
    ensures DayOf(Some(IntToString(d) + rest)) == if 1 <= d <= 31 then Some(d) else None
  {
    ParseIntRender(d, rest);
  }

  /** Text with no digit in it, and a press with no text after `:`, are refused by both gates. */
  lemma GatesRefuseDigitless(input: Option<string>)
    requires !HasDigit(JsString(input))
    ensures AmountOf(input) == None
    ensures DayOf(input) == None
  {
    assert !IsDigit("."[0]);
    ReplaceFirstDigitless(JsString(input), ",", ".");
  }

  // ---------------------------------------------------------------- button payloads

  /** A button whose payload has no `:` yields `undefined` as the answer, as category and account buttons do. */
  lemma ButtonWithoutColonGivesUndefined(chat: int, messageId: int, payload: string)
    requires ':' !in payload
    ensures StepInput(ButtonPress(chat, messageId, payload)) == None
  {
  }

  /** A payload `data:<kind>` yields the kind. */
  lemma DataButtonGivesKind(chat: int, messageId: int, kind: string)
    requires ':' !in kind
    ensures StepInput(ButtonPress(chat, messageId, "data:" + kind)) == Some(kind)
  {
    assert Join(["data", kind], ':') == "data:" + kind;
    SplitJoin(["data", kind], ':');
  }

  /** The type buttons carry their label after `data:`. */
  lemma TypeButtonsCarryLabel()
    ensures forall b :: b in TypeKeyboard[0] ==> b.data == "data:" + b.text && ':' !in b.text
  {
  }

  /** A conversation started with a flow name that is not one of the three is inert: every event is ignored. */
  lemma UnknownFlowIsInert(store: Store, chat: int, flow: string, data: Draft, ev: Event, catalog: Catalog, writeOk: bool)
    requires flow != AddTransaction && flow != AddRecurring && flow != EditTransaction
    requires ev.chat == chat
    ensures var started := Start(store, chat, flow, data);
      HandleResponse(started, ev, catalog, writeOk) == Reaction(started, [])
  {
  }

  // ---------------------------------------------------------------- sessions

  /**
   * An expense entered through the buttons: the amount typed with a comma is
   * read with a decimal point, the category and account buttons carry no `:`
   * and so record `undefined`, `-` copies that category, and the confirm press
   * changes nothing and sends nothing.
   */
  lemma ExpenseAnswers(chat: int, catalog: Catalog, whole: string, frac: string, category: string, account: string)
    requires AllDigits(whole) && AllDigits(frac) && frac != [] && DigitsValue(whole + frac) > 0
    requires ':' !in category && ':' !in account
    ensures var s0 := State(AddTransaction, AwaitingValue, EmptyDraft.(tipo := Some("Despesa")));
      var s1 := TransactionStep(s0, chat, 1, StepInput(Message(chat, 1, Some(whole + "," + frac))), catalog).next.value;
      var s2 := TransactionStep(s1, chat, 2, StepInput(ButtonPress(chat, 2, category)), catalog).next.value;
      var s3 := TransactionStep(s2, chat, 3, StepInput(ButtonPress(chat, 3, account)), catalog).next.value;
      var s4 := TransactionStep(s3, chat, 4, StepInput(Message(chat, 4, Some("-"))), catalog).next.value;
      && s4 == State(AddTransaction, AwaitingConfirmation,
                     EmptyDraft.(tipo := Some("Despesa"), valor := Some(Dec(DigitsValue(whole + frac), |frac|))))
      && TransactionStep(s4, chat, 5, StepInput(ButtonPress(chat, 5, "confirm")), catalog) == Move(Some(s4), [])
  {
    AmountWithComma(whole, frac);
    ButtonWithoutColonGivesUndefined(chat, 2, category);
    ButtonWithoutColonGivesUndefined(chat, 3, account);
  }

  /** The recurring flow's first three answers: a description, a whole amount and a `data:` type button. */
  lemma RecurringOpeningAnswers(chat: int, catalog: Catalog, description: string, whole: string, kind: string)
    requires AllDigits(whole) && DigitsValue(whole) > 0
    requires ':' !in kind
    ensures var d1 := EmptyDraft.(descricao := Some(description));
      var d2 := d1.(valor := Some(Dec(DigitsValue(whole), 0)));
      && RecurringStep(State(AddRecurring, AwaitingDescription, EmptyDraft), chat, 1, StepInput(Message(chat, 1, Some(description))), catalog, true).next
           == Some(State(AddRecurring, AwaitingValue, d1))
      && RecurringStep(State(AddRecurring, AwaitingValue, d1), chat, 2, StepInput(Message(chat, 2, Some(whole))), catalog, true).next
           == Some(State(AddRecurring, AwaitingType, d2))
      && RecurringStep(State(AddRecurring, AwaitingType, d2), chat, 3, StepInput(ButtonPress(chat, 3, "data:" + kind)), catalog, true).next
           == Some(State(AddRecurring, AwaitingCategory, d2.(tipo := Some(kind))))
  {
    var d1 := EmptyDraft.(descricao := Some(description));
    var d2 := d1.(valor := Some(Dec(DigitsValue(whole), 0)));
    DescriptionAnswer(State(AddRecurring, AwaitingDescription, EmptyDraft), chat, 1, description, catalog);
    WholeAmountAnswer(State(AddRecurring, AwaitingValue, d1), chat, 2, whole, catalog);
    TypeAnswer(State(AddRecurring, AwaitingType, d2), chat, 3, kind, catalog);
  }

  lemma DescriptionAnswer(s: State, chat: int, messageId: int, text: string, catalog: Catalog)
    requires s.step == AwaitingDescription
    ensures RecurringStep(s, chat, messageId, StepInput(Message(chat, messageId, Some(text))), catalog, true).next
         == Some(s.(step := AwaitingValue, data := s.data.(descricao := Some(text))))
  {
    RecurringAnswerAdvances(s, chat, messageId, Some(text), catalog);
  }

  lemma WholeAmountAnswer(s: State, chat: int, messageId: int, whole: string, catalog: Catalog)
    requires s.step == AwaitingValue
    requires AllDigits(whole) && DigitsValue(whole) > 0
    ensures RecurringStep(s, chat, messageId, StepInput(Message(chat, messageId, Some(whole))), catalog, true).next
         == Some(s.(step := AwaitingType, data := s.data.(valor := Some(Dec(DigitsValue(whole), 0)))))
  {
    AmountWhole(whole);
    RecurringAnswerAdvances(s, chat, messageId, Some(whole), catalog);
  }

  lemma TypeAnswer(s: State, chat: int, messageId: int, kind: string, catalog: Catalog)
    requires s.step == AwaitingType
    requires ':' !in kind
    ensures RecurringStep(s, chat, messageId, StepInput(ButtonPress(chat, messageId, "data:" + kind)), catalog, true).next
         == Some(s.(step := AwaitingCategory, data := s.data.(tipo := Some(kind))))
  {
    DataButtonGivesKind(chat, messageId, kind);
    RecurringAnswerAdvances(s, chat, messageId, Some(kind), catalog);
  }

  /** One answer given in the recurring flow before the day, through the gates the step applies. */
  lemma RecurringAnswerAdvances(s: State, chat: int, messageId: int, input: Option<string>, catalog: Catalog)
    requires s.step != AwaitingDay
    ensures var m := RecurringAnswer(s, chat, messageId, input, AmountOf(input), DayOf(input), catalog, true);
      m.next.Some? && (m.next.value == s || Advance(RecurringSucc(s.step), s, m.next.value))
  {
    var amount, day := AmountOf(input), DayOf(input);
    if s.step == AwaitingValue {
      RecurringValueAdvances(s, chat, messageId, input, amount, day, catalog, true);
    } else {
      RecurringButtonsAdvance(s, chat, messageId, input, amount, day, catalog, true);
    }
  }

  /**
   * The recurring flow's last three answers: the category and account buttons
   * carry no `:` and so record `undefined`, then a valid day saves the entry
   * once, carrying the day, and ends the conversation.
   */
  lemma RecurringClosingAnswers(chat: int, catalog: Catalog, d: Draft, category: string, account: string, day: int)
    requires ':' !in category && ':' !in account
    requires 1 <= day <= 31
    ensures var s3 := State(AddRecurring, AwaitingCategory, d);
      var s4 := RecurringStep(s3, chat, 4, StepInput(ButtonPress(chat, 4, category)), catalog, true).next.value;
      var s5 := RecurringStep(s4, chat, 5, StepInput(ButtonPress(chat, 5, account)), catalog, true).next.value;
      RecurringStep(s5, chat, 6, StepInput(Message(chat, 6, Some(IntToString(day)))), catalog, true)
        == Move(None, [AddRecurringEntry(d.(categoria := None, conta := None, diaDoMes := Some(day))), Send(chat, RecurringSaved, Plain)])
  {
    ButtonWithoutColonGivesUndefined(chat, 4, category);
    ButtonWithoutColonGivesUndefined(chat, 5, account);
    assert IntToString(day) + "" == IntToString(day);
    DayOfRendered(day, "");
  }
}

=== FILE: effects.dfy ===
/**
 * What the bot does to the outside world, as data: messages with their inline
 * keyboards, keyboard removal, callback acknowledgement, and calls into the
 * spreadsheet layer and into the conversation module.
 */
module Effects {
  import opened Wrappers
  import opened Numbers
  import opened Records

  /** An inline button: its label and its `callback_data` payload. */
  datatype Button = Button(text: string, data: string)

  /** An `inline_keyboard`: rows of buttons. */
  type Keyboard = seq<seq<Button>>

  /** The `reply_markup` of a message. */
  datatype Markup = Plain | Inline(keyboard: Keyboard) | ForceReply

  /** The messages the bot sends; the wording itself is presentation and is not modelled. */
  datatype Reply =
    // the transaction flow
    | InvalidAmount
    | ChooseCategory
    | CategoryChosen(categoria: Option<string>)
    | AccountChosen(conta: Option<string>)
    | ConfirmDraft(draft: Draft)
    // the recurring flow
    | DescriptionRecorded
    | ChooseType
    | ChooseRecurringCategory
    | ChooseRecurringAccount
    | AskDay
    | InvalidDay
    | RecurringSaved
    // the edit flow
    | FieldUpdated(fieldName: Option<string>, value: Option<string>)
    // the router
    | Help
    | AskExpenseAmount
    | AskIncomeAmount
    | QuickSaved(lanc: Lanc)
    | NotRecognised

  datatype Effect =
    | Send(chat: int, reply: Reply, markup: Markup)
    /** `editMessageReplyMarkup({inline_keyboard: []}, ...)`: the buttons of an earlier message are removed. */
    | StripKeyboard(chat: int, message: int)
    /** `answerCallbackQuery(id)`. */
    | AnswerCallback(id: string)
    /** `sheets.addRecurringEntry(entry)`. */
    | AddRecurringEntry(entry: Draft)
    /** `sheets.updateRow(rowNumber, column, value)`. */
    | UpdateRow(rowNumber: Option<int>, column: Option<string>, value: Option<string>)
    /** `sheets.writeToSheet(lanc)`. */
    | WriteToSheet(lanc: Lanc)
    /** `sheets.getResumo()` sent back to the chat. */
    | SendSummary(chat: int)
    /** `sheets.getUltimos(count)` sent back to the chat. */
    | SendLatest(chat: int, count: Dec)
    /** `conversation.start(chatId, flow, ...)`. */
    | StartFlow(chat: int, flow: string)
    /** `conversation.handleResponse(...)`: the event is handed to the active conversation. */
    | Forward(chat: int)

  /** The calls that change the spreadsheet. */
  predicate IsLedgerWrite(e: Effect)
  {
    e.AddRecurringEntry? || e.UpdateRow? || e.WriteToSheet?
  }
}

=== FILE: handlers.dfy ===
/**
 * The routing decisions of `handlers.js`. A text message either goes to the
 * active conversation or is read as a command and its arguments; a button press
 * is always acknowledged first, then either goes to the active conversation or
 * is read by its leading `:`-token as one of the four main-menu actions.
 *
 * Whether the chat has an active conversation is the abstract flag `hasState`.
 * `parseLegacyTransaction`, whose code is not part of this model, is its result
 * `legacy`, passed in.
 */
module Handlers {
  import opened Wrappers
  import opened Text
  import opened Numbers
  import opened Records
  import opened Effects
  import Ui
  import Conversation

  // ---------------------------------------------------------------- commands and arguments

  /** `match ? match[1].split(' ')[0] : text.split(' ')[0]`, with `text` already `msg.text || ''`. */
  function Command(text: string, matched: Option<string>): (c: string)
    ensures ' ' !in c
    ensures matched.None? ==> c <= text
    ensures matched.Some? ==> c <= matched.value
  {
    var parts := Split(if matched.Some? then matched.value else text, ' ');
    assert parts[0] <= Join(parts, ' ');
    parts[0]
  }

  /** `match ? match[1].split(' ').slice(1) : []`. */
  function Args(matched: Option<string>): (args: seq<string>)
    ensures matched.None? ==> args == []
    ensures forall i :: 0 <= i < |args| ==> ' ' !in args[i]
  {
    match matched
    case None => []
    case Some(m) => Split(m, ' ')[1..]
  }

  /** The command and its arguments, joined back with spaces, are the matched text. */
  lemma CommandArgsRejoin(text: string, m: string)
    ensures Join([Command(text, Some(m))] + Args(Some(m)), ' ') == m
  {
    var parts := Split(m, ' ');
    assert [parts[0]] + parts[1..] == parts;
  }

  /** Only the text before the first space is the command. */
  lemma CommandIsFirstWord(word: string, rest: string, matched: Option<string>)
    requires ' ' !in word
    requires matched.None? || matched.value == word + " " + rest
    ensures Command(word + " " + rest, matched) == word
  {
    SplitHead(word, ' ', rest);
  }

  // ---------------------------------------------------------------- text messages

  /** An effect that answers the chat: a message, the summary or the latest entries. */
  predicate Answers(e: Effect, chat: int)
  {
    match e
    case Send(c, _, _) => c == chat
    case SendSummary(c) => c == chat
    case SendLatest(c, _) => c == chat
    case _ => false
  }

  /**
   * `handleMessage`: an active conversation captures the message; otherwise the
   * command chooses the help menu, one of the two amount prompts, the summary,
   * the latest entries, or, for anything else, the quick parse of the text,
   * which is written to the sheet when it yields a transaction.
   */
  function HandleMessage(hasState: bool, chat: int, text: Option<string>, matched: Option<string>, legacy: Option<Lanc>): (r: seq<Effect>)
    ensures hasState ==> r == [Forward(chat)]
    // otherwise the chat always gets exactly one answer, as the last effect
    ensures !hasState ==> 1 <= |r| <= 2 && Answers(r[|r| - 1], chat) && (|r| == 2 ==> !Answers(r[0], chat))
    // only the quick parse writes, and only the transaction it yields
    ensures forall e :: e in r && IsLedgerWrite(e) ==> legacy.Some? && e == WriteToSheet(legacy.value)
  {
    if hasState then [Forward(chat)]
    else
      var command := Command(text.GetOr(""), matched);
      var args := Args(matched);
      if command == "start" || command == "ajuda" then
        [Send(chat, Help, Inline(Ui.MainMenuKeyboard()))]
      else if command == "gasto" then
        [StartFlow(chat, "Despesa"), Send(chat, AskExpenseAmount, ForceReply)]
      else if command == "receita" then
        [StartFlow(chat, "Receita"), Send(chat, AskIncomeAmount, ForceReply)]
      else if command == "resumo" then
        [SendSummary(chat)]
      else if command == "ultimos" then
        [SendLatest(chat, CountOr5(if |args| > 0 then Some(args[0]) else None))]
      else
        match legacy
        case Some(lanc) => [WriteToSheet(lanc), Send(chat, QuickSaved(lanc), Plain)]
        case None => [Send(chat, NotRecognised, Inline(Ui.MainMenuKeyboard()))]
  }

  /**
   * Each command with a case of its own gets its own answer, whatever the quick
   * parse would have yielded: the help text with the main menu, a flow start with
   * its amount prompt as a forced reply, or the summary.
   */
  lemma KnownCommandRoutes(chat: int, text: Option<string>, matched: Option<string>, legacy: Option<Lanc>)
    ensures var command := Command(text.GetOr(""), matched);
      && (command in {"start", "ajuda"} ==>
            HandleMessage(false, chat, text, matched, legacy) == [Send(chat, Help, Inline(Ui.MainMenuKeyboard()))])
      && (command == "gasto" ==>
            HandleMessage(false, chat, text, matched, legacy) == [StartFlow(chat, "Despesa"), Send(chat, AskExpenseAmount, ForceReply)])
      && (command == "receita" ==>
            HandleMessage(false, chat, text, matched, legacy) == [StartFlow(chat, "Receita"), Send(chat, AskIncomeAmount, ForceReply)])
      && (command == "resumo" ==>
            HandleMessage(false, chat, text, matched, legacy) == [SendSummary(chat)])
  {
  }

  /** `/ultimos n` asks for the last n entries when n is positive, and for 5 when n is 0. */
  lemma LatestCount(chat: int, text: Option<string>, n: nat, legacy: Option<Lanc>)
    ensures HandleMessage(false, chat, text, Some("ultimos " + NatToString(n)), legacy)
         == [SendLatest(chat, if n == 0 then Dec(5, 0) else Dec(n, 0))]
  {
    var digits := NatToString(n);
    var m := "ultimos " + digits;
    DigitsExclude(digits, ' ');
    assert m == "ultimos" + [' '] + digits;
    SplitCons("ultimos", ' ', digits);
    SplitAbsent(digits, ' ');
    LatestRoute(chat, text, m, legacy);
    CountOr5OfNumber(n);
  }

  /** `/ultimos` alone asks for 5. */
  lemma LatestCountDefault(chat: int, text: Option<string>, legacy: Option<Lanc>)
    ensures HandleMessage(false, chat, text, Some("ultimos"), legacy) == [SendLatest(chat, Dec(5, 0))]
  {
    var m := "ultimos";
    SplitAbsent(m, ' ');
    assert Split(m, ' ')[1..] == [];
    LatestRoute(chat, text, m, legacy);
    assert CountOr5(None) == Dec(5, 0);
  }

  /** A matched `ultimos` command asks for the count its first argument gives. */
  lemma LatestRoute(chat: int, text: Option<string>, m: string, legacy: Option<Lanc>)
    requires Split(m, ' ')[0] == "ultimos"
    ensures var args := Split(m, ' ')[1..];
      HandleMessage(false, chat, text, Some(m), legacy) == [SendLatest(chat, CountOr5(if |args| > 0 then Some(args[0]) else None))]
  {
  }

  /** The commands `handleMessage`'s `switch` has a case for. */
  const KnownCommands: set<string> := {"start", "ajuda", "gasto", "receita", "resumo", "ultimos"}

  /**
   * Any command without a case, matched or typed, falls back on the quick parse:
   * what it yields is written and confirmed, and without a result the menu comes
   * back.
   */
  lemma UnknownTextGetsMenu(chat: int, text: Option<string>, matched: Option<string>, legacy: Option<Lanc>)
    requires Command(text.GetOr(""), matched) !in KnownCommands
    ensures legacy.None? ==>
      HandleMessage(false, chat, text, matched, legacy) == [Send(chat, NotRecognised, Inline(Ui.MainMenuKeyboard()))]
    ensures legacy.Some? ==>
      HandleMessage(false, chat, text, matched, legacy) == [WriteToSheet(legacy.value), Send(chat, QuickSaved(legacy.value), Plain)]
  {
  }

  /** A command with a case never looks at the quick parse. */
  lemma KnownCommandIgnoresQuickParse(chat: int, text: Option<string>, matched: Option<string>, legacy: Option<Lanc>)
    requires Command(text.GetOr(""), matched) in KnownCommands
    ensures HandleMessage(false, chat, text, matched, legacy) == HandleMessage(false, chat, text, matched, None)
    ensures forall e :: e in HandleMessage(false, chat, text, matched, legacy) ==> !IsLedgerWrite(e)
  {
  }

  /** Without a matched command, a typed first word without a case gets the menu back when the quick parse fails. */
  lemma UnknownWordGetsMenu(chat: int, word: string, rest: string)
    requires ' ' !in word
    requires word !in KnownCommands
    ensures HandleMessage(false, chat, Some(word + " " + rest), None, None)
         == [Send(chat, NotRecognised, Inline(Ui.MainMenuKeyboard()))]
  {
    CommandIsFirstWord(word, rest, None);
    UnknownTextGetsMenu(chat, Some(word + " " + rest), None, None);
  }

  // ---------------------------------------------------------------- button presses

  /** The main-menu action a leading token selects; any other token selects nothing. */
  function MenuAction(chat: int, token: string): (r: seq<Effect>)
    ensures forall e :: e in r ==> !IsLedgerWrite(e)
    ensures r != [] <==> token in {"start_gasto", "start_receita", "show_resumo", "show_ultimos"}
    // each token's own action; unlike the `/gasto` and `/receita` commands, the prompts ask for no forced reply
    ensures token == "start_gasto" ==> r == [StartFlow(chat, "Despesa"), Send(chat, AskExpenseAmount, Plain)]
    ensures token == "start_receita" ==> r == [StartFlow(chat, "Receita"), Send(chat, AskIncomeAmount, Plain)]
    ensures token == "show_resumo" ==> r == [SendSummary(chat)]
    ensures token == "show_ultimos" ==> r == [SendLatest(chat, Dec(5, 0))]
  {
    if token == "start_gasto" then [StartFlow(chat, "Despesa"), Send(chat, AskExpenseAmount, Plain)]
    else if token == "start_receita" then [StartFlow(chat, "Receita"), Send(chat, AskIncomeAmount, Plain)]
    else if token == "show_resumo" then [SendSummary(chat)]
    else if token == "show_ultimos" then [SendLatest(chat, Dec(5, 0))]
    else []
  }

  /**
   * `handleCallbackQuery`: the press is acknowledged before anything else; an
   * active conversation then receives the whole press, and otherwise only the
   * payload's leading `:`-token is read.
   */
  function HandleCallback(hasState: bool, chat: int, id: string, payload: string): (r: seq<Effect>)
    ensures |r| >= 1 && r[0] == AnswerCallback(id)
    ensures forall k :: 1 <= k < |r| ==> !r[k].AnswerCallback?
    ensures hasState ==> r == [AnswerCallback(id), Forward(chat)]
    ensures !hasState ==> r[1..] == MenuAction(chat, Split(payload, ':')[0])
    ensures forall e :: e in r ==> !IsLedgerWrite(e)
  {
    if hasState then [AnswerCallback(id), Forward(chat)]
    else [AnswerCallback(id)] + MenuAction(chat, Split(payload, ':')[0])
  }

  /** Whatever follows the leading token after a `:` is ignored. */
  lemma CallbackReadsLeadingToken(chat: int, id: string, token: string, rest: string)
    requires ':' !in token
    ensures HandleCallback(false, chat, id, token + ":" + rest) == HandleCallback(false, chat, id, token)
  {
    SplitHead(token, ':', rest);
    SplitAbsent(token, ':');
  }

  /** Every main-menu button selects an action. */
  lemma MainMenuButtonsAreRouted(chat: int, id: string)
    ensures forall p :: p in Ui.Payloads(Ui.MainMenuKeyboard()) ==> |HandleCallback(false, chat, id, p)| >= 2
  {
    var ps := Ui.Payloads(Ui.MainMenuKeyboard());
    forall p | p in ps
      ensures |HandleCallback(false, chat, id, p)| >= 2
    {
      assert ':' !in p;
      SplitAbsent(p, ':');
    }
  }

  /**
   * The menu starts the conversation under the flow name `Despesa` or `Receita`,
   * which the conversation's dispatcher does not know: every later event for the
   * chat is ignored until another flow is started.
   */
  lemma MenuStartedConversationIsInert(store: Conversation.Store, chat: int, id: string, payload: string, data: Draft,
                                       ev: Conversation.Event, catalog: Catalog, writeOk: bool)
    requires ev.chat == chat
    ensures forall e :: e in HandleCallback(false, chat, id, payload) && e.StartFlow? ==>
      var started := Conversation.Start(store, chat, e.flow, data);
      Conversation.HandleResponse(started, ev, catalog, writeOk) == Conversation.Reaction(started, [])
  {
    forall e | e in HandleCallback(false, chat, id, payload) && e.StartFlow?
      ensures var started := Conversation.Start(store, chat, e.flow, data);
        Conversation.HandleResponse(started, ev, catalog, writeOk) == Conversation.Reaction(started, [])
    {
      assert e.flow == "Despesa" || e.flow == "Receita";
      Conversation.UnknownFlowIsInert(store, chat, e.flow, data, ev, catalog, writeOk);
    }
  }
}

=== FILE: numbers.dfy ===
/**
 * JavaScript's number readers over exact decimals: `parseFloat` (longest numeric
 * prefix), `parseInt(s, 10)` (longest integer prefix) and `Number(s)` (the whole
 * trimmed string). A `NaN` result is `None`.
 */
module Numbers {
  import opened Wrappers
  import opened Text

  /** The exact decimal `mant / 10^scale`. */
  datatype Dec = Dec(mant: int, scale: nat)

  function Value(d: Dec): real
  {
    d.mant as real / Pow10(d.scale) as real
  }

  lemma ValueSign(d: Dec)
    ensures Value(d) > 0.0 <==> d.mant > 0
    ensures Value(d) == 0.0 <==> d.mant == 0
  {
    var p := Pow10(d.scale) as real;
    assert Value(d) * p == d.mant as real;
  }

  /** A scanned numeric literal: sign, integer digits, fraction digits, and what follows it. */
  datatype Numeral = Numeral(negative: bool, whole: string, frac: string, rest: string)

  /** A digit in a suffix is a digit in the whole. */
  lemma HasDigitSuffix(s: string, u: string)
    requires |u| <= |s| && u == s[|s| - |u|..]
    ensures HasDigit(u) ==> HasDigit(s)
  {
    if HasDigit(u) {
      var k :| 0 <= k < |u| && IsDigit(u[k]);
      assert s[|s| - |u| + k] == u[k];
    }
  }

  /**
   * The longest prefix of `s` (after leading whitespace) of the shape
   * `[+-] digits* [. digits*]`, which is what `parseFloat` reads when there is
   * no exponent.
   */
  function ScanNumeral(s: string): (n: Numeral)
    ensures AllDigits(n.whole) && AllDigits(n.frac)
    ensures |n.whole| + |n.frac| > 0 ==> HasDigit(s)
  {
    var t := TrimStart(s);
    HasDigitSuffix(s, t);
    if |t| > 0 && (t[0] == '-' || t[0] == '+') then
      HasDigitSuffix(t, t[1..]);
      ScanUnsigned(t[0] == '-', t[1..])
    else
      ScanUnsigned(false, t)
  }

  /** The literal after its sign: integer digits, then `.` and fraction digits when a `.` follows. */
  function ScanUnsigned(negative: bool, u: string): (n: Numeral)
    ensures n.negative == negative
    ensures AllDigits(n.whole) && AllDigits(n.frac)
    ensures |n.whole| + |n.frac| > 0 ==> HasDigit(u)
  {
    var w := LeadingDigits(u);
    var after := u[|w|..];
    assert |w| > 0 ==> IsDigit(u[0]);
    if |after| > 0 && after[0] == '.' then
      var f := LeadingDigits(after[1..]);
      assert |f| > 0 ==> u[|w| + 1] == f[0];
      Numeral(negative, w, f, after[1 + |f|..])
    else
      Numeral(negative, w, [], after)
  }

  function Sign(negative: bool): int
  {
    if negative then -1 else 1
  }

  /** The value of a scanned literal; `NaN` when it has no digit at all. */
  function NumeralValue(n: Numeral): Option<Dec>
    requires AllDigits(n.whole) && AllDigits(n.frac)
  {
    if |n.whole| + |n.frac| == 0 then None
    else
      DigitsValueAppend(n.whole, n.frac);
      Some(Dec(Sign(n.negative) * DigitsValue(n.whole + n.frac), |n.frac|))
  }

  /** `parseFloat(s)`: a result needs a digit in `s`. */
  function ParseFloat(s: string): (r: Option<Dec>)
    ensures r.Some? ==> HasDigit(s)
  {
    NumeralValue(ScanNumeral(s))
  }

  /** `parseInt(s, 10)`: only the integer digits count, so `"2.5"` reads as 2 and `"15abc"` as 15. */
  function ParseInt(s: string): (r: Option<int>)
    ensures r.Some? ==> HasDigit(s)
  {
    var n := ScanNumeral(s);
    if n.whole == [] then None else Some(Sign(n.negative) * DigitsValue(n.whole))
  }

  /** `Number(x)` of a string-or-undefined: the whole trimmed string must be the literal; `''` is 0. */
  function JsNumber(o: Option<string>): (r: Option<Dec>)
    ensures o.None? ==> r.None?
  {
    match o
    case None => None
    case Some(s) =>
      var t := Trim(s);
      if t == [] then Some(Dec(0, 0))
      else
        var n := ScanNumeral(t);
        if n.rest == [] then NumeralValue(n) else None
  }

  /** `Number(x) || 5`: the parsed count unless it is `NaN` or zero. */
  function CountOr5(arg: Option<string>): (r: Dec)
    ensures r.mant != 0
  {
    match JsNumber(arg)
    case Some(d) => if d.mant == 0 then Dec(5, 0) else d
    case None => Dec(5, 0)
  }

  // ---------------------------------------------------------------- rendering and round trips

  /** A decimal as it is written: an optional `-`, the integer digits, and `.` plus fraction digits when there are any. */
  function Render(negative: bool, whole: string, frac: string): string
  {
    (if negative then "-" else "") + whole + (if frac == [] then "" else "." + frac)
  }

  lemma ScanUnsignedAfterWhole(negative: bool, whole: string, tail: string)
    requires AllDigits(whole) && (tail == [] || !IsDigit(tail[0]))
    ensures ScanUnsigned(negative, whole + tail).whole == whole
    ensures tail == [] || tail[0] != '.' ==>
      ScanUnsigned(negative, whole + tail) == Numeral(negative, whole, [], tail)
    ensures |tail| > 0 && tail[0] == '.' ==>
      var f := LeadingDigits(tail[1..]);
      ScanUnsigned(negative, whole + tail) == Numeral(negative, whole, f, tail[1 + |f|..])
  {
    LeadingDigitsOfDigitsThen(whole, tail);
    assert (whole + tail)[|whole|..] == tail;
  }

  lemma ScanUnsignedFraction(negative: bool, whole: string, frac: string, rest: string)
    requires AllDigits(whole) && AllDigits(frac)
    requires rest == [] || !IsDigit(rest[0])
    ensures ScanUnsigned(negative, whole + ("." + frac + rest)) == Numeral(negative, whole, frac, rest)
  {
    var tail := "." + frac + rest;
    assert tail[1..] == frac + rest;
    LeadingDigitsOfDigitsThen(frac, rest);
    var f := LeadingDigits(tail[1..]);
    assert f == frac;
    assert tail[1 + |f|..] == rest;
    ScanUnsignedAfterWhole(negative, whole, tail);
  }

  lemma ScanRendered(negative: bool, whole: string, frac: string, rest: string)
    requires AllDigits(whole) && AllDigits(frac) && |whole| + |frac| > 0
    requires rest == [] || !IsDigit(rest[0])
    ensures var n := ScanNumeral(Render(negative, whole, frac) + rest);
      n.negative == negative && n.whole == whole
    ensures frac != [] || rest == [] || rest[0] != '.' ==>
      ScanNumeral(Render(negative, whole, frac) + rest) == Numeral(negative, whole, frac, rest)
  {
    var u := if frac == [] then whole + rest else whole + ("." + frac + rest);
    assert u[0] == if whole != [] then whole[0] else '.';
    if negative {
      assert Render(negative, whole, frac) + rest == ['-'] + u;
      ScanNegative(u);
    } else {
      assert Render(negative, whole, frac) + rest == u;
      ScanUnsignedStart(u);
    }
    if frac == [] {
      ScanUnsignedAfterWhole(negative, whole, rest);
    } else {
      ScanUnsignedFraction(negative, whole, frac, rest);
    }
  }

  /** Text that opens with a digit or a point is read without a sign. */
  lemma ScanUnsignedStart(u: string)
    requires u != [] && (IsDigit(u[0]) || u[0] == '.')
    ensures ScanNumeral(u) == ScanUnsigned(false, u)
  {
    assert !IsSpace(u[0]);
    assert TrimStart(u) == u;
  }

  /** A leading `-` is the sign. */
  lemma ScanNegative(u: string)
    requires u != [] && (IsDigit(u[0]) || u[0] == '.')
    ensures ScanNumeral(['-'] + u) == ScanUnsigned(true, u)
  {
    var s := ['-'] + u;
    assert !IsSpace(s[0]);
    assert TrimStart(s) == s;
    assert s[1..] == u;
  }

  /** `parseFloat` reads back a rendered decimal, whatever non-numeric text follows it. */
  lemma ParseFloatRender(negative: bool, whole: string, frac: string, rest: string)
    requires AllDigits(whole) && AllDigits(frac) && |whole| + |frac| > 0
    requires rest == [] || (!IsDigit(rest[0]) && rest[0] != '.')
    ensures ParseFloat(Render(negative, whole, frac) + rest)
         == Some(Dec(Sign(negative) * DigitsValue(whole + frac), |frac|))
  {
    ScanRendered(negative, whole, frac, rest);
  }

  /** `parseFloat` reads digits followed by a bare point as the whole number. */
  lemma ParseFloatTrailingPoint(whole: string)
    requires AllDigits(whole) && whole != []
    ensures ParseFloat(whole + ".") == Some(Dec(DigitsValue(whole), 0))
  {
    var t := whole + ".";
    assert t[0] == whole[0];
    ScanUnsignedStart(t);
    ScanUnsignedTrailingPoint(whole);
    assert whole + [] == whole;
  }

  lemma ScanUnsignedTrailingPoint(whole: string)
    requires AllDigits(whole)
    ensures ScanUnsigned(false, whole + ".") == Numeral(false, whole, [], [])
  {
    ScanUnsignedAfterWhole(false, whole, ".");
    assert "."[1..] == [];
  }

  /** `parseInt` reads back a rendered integer, whatever non-digit text follows it. */
  lemma ParseIntRender(i: int, rest: string)
    requires rest == [] || !IsDigit(rest[0])
    ensures ParseInt(IntToString(i) + rest) == Some(i)
  {
    var whole := if i < 0 then NatToString(-i) else NatToString(i);
    assert IntToString(i) == Render(i < 0, whole, []);
    ScanRendered(i < 0, whole, [], rest);
  }

  /** `Number` reads back a rendered natural number. */
  lemma JsNumberRender(n: nat)
    ensures JsNumber(Some(NatToString(n))) == Some(Dec(n, 0))
  {
    JsNumberDigits(NatToString(n));
  }

  /** `Number` reads a run of digits as the whole number they spell. */
  lemma JsNumberDigits(s: string)
    requires AllDigits(s) && s != []
    ensures JsNumber(Some(s)) == Some(Dec(DigitsValue(s), 0))
  {
    TrimDigits(s);
    ScanDigits(s);
    JsNumberOfWhole(s);
  }

  /** A run of digits scans as that whole number, with nothing left over. */
  lemma ScanDigits(s: string)
    requires AllDigits(s) && s != []
    ensures ScanNumeral(s) == Numeral(false, s, [], [])
  {
    ScanUnsignedStart(s);
    assert s + [] == s;
    ScanUnsignedAfterWhole(false, s, []);
  }

  lemma JsNumberOfWhole(s: string)
    requires AllDigits(s) && s != [] && Trim(s) == s
    requires ScanNumeral(s) == Numeral(false, s, [], [])
    ensures JsNumber(Some(s)) == Some(Dec(DigitsValue(s), 0))
  {
    var n := Numeral(false, s, [], []);
    assert n.whole + n.frac == s;
    assert Sign(n.negative) * DigitsValue(s) == DigitsValue(s);
    assert NumeralValue(n) == Some(Dec(DigitsValue(s), 0));
  }

  /** An unsigned decimal is rendered without a sign, with a point only when there is a fraction. */
  lemma RenderUnsigned(whole: string, frac: string)
    ensures Render(false, whole, frac) + "" == if frac == [] then whole else whole + "." + frac
  {
    var none: string := [];
    assert (if false then "-" else "") == none;
    assert none + whole == whole;
    if frac == [] {
      assert whole + none + none == whole;
    } else {
      assert whole + ("." + frac) + none == whole + "." + frac;
    }
  }

  /** `parseFloat` reads a run of digits as the whole number they spell. */
  lemma ParseFloatDigits(whole: string)
    requires AllDigits(whole) && whole != []
    ensures ParseFloat(whole) == Some(Dec(DigitsValue(whole), 0))
  {
    RenderUnsigned(whole, []);
    ParseFloatRender(false, whole, [], "");
    assert whole + [] == whole;
  }

  /** A count argument written as a positive number is that number; `0` falls back to 5. */
  lemma CountOr5OfNumber(n: nat)
    ensures CountOr5(Some(NatToString(n))) == if n == 0 then Dec(5, 0) else Dec(n, 0)
  {
    JsNumberRender(n);
  }

  /** No argument, or an argument that is not a number, falls back to 5. */
  lemma CountOr5Fallback(arg: Option<string>)
    requires arg.None? || !HasDigit(arg.value)
    ensures CountOr5(arg) == Dec(5, 0)
  {
    if arg.Some? {
      var s := arg.value;
      var t := Trim(s);
      var k := |s| - |TrimStart(s)|;
      forall i | 0 <= i < |t|
        ensures !IsDigit(t[i])
      {
        assert t[i] == s[k + i];
      }
    }
  }

  // ---------------------------------------------------------------- the comma as decimal point

  /** Text without a comma is left alone by `.replace(',', '.')`. */
  lemma ReplaceCommaAbsent(s: string)
    requires ',' !in s
    ensures ReplaceFirst(s, ",", ".") == s
  {
    ReplaceCharAbsent(s, ',', ".");
  }

  /** The first comma, preceded by no other, becomes the decimal point. */
  lemma ReplaceFirstComma(before: string, after: string)
    requires ',' !in before
    ensures ReplaceFirst(before + "," + after, ",", ".") == before + "." + after
  {
    assert before + "," + after == before + [','] + after;
    ReplaceCharFirst(before, ',', after, ".");
  }

  /** Digits, a point and possibly more digits. */
  lemma PointReads(whole: string, frac: string)
    requires AllDigits(whole) && whole != [] && AllDigits(frac)
    ensures ParseFloat(whole + "." + frac) == Some(Dec(DigitsValue(whole + frac), |frac|))
  {
    var t := whole + "." + frac;
    if frac == [] {
      assert ParseFloat(t) == Some(Dec(DigitsValue(whole + frac), |frac|)) by {
        assert t == whole + ".";
        ParseFloatTrailingPoint(whole);
        assert whole + frac == whole;
      }
    } else {
      assert ParseFloat(t) == Some(Dec(DigitsValue(whole + frac), |frac|)) by {
        RenderUnsigned(whole, frac);
        ParseFloatRender(false, whole, frac, "");
      }
    }
  }
}

=== FILE: parser.dfy ===
/**
 * The legacy free-text front end of `parser.js`: a message such as
 * `gastei 45 com mercado` is normalised, its first number is read, its kind is
 * decided by keywords, and its category and account are the first list entries
 * whose normalised name occurs in it; a message starting with `/` is a command.
 *
 * `removeAccents`, the date `moment()` formats, and the category and account
 * lists are parameters; the sheet helpers a command calls are its result.
 */
module Parser {
  import opened Wrappers
  import opened Text
  import opened Numbers
  import opened Records
  import Sheets

  // ---------------------------------------------------------------- normalisation

  /**
   * `removeAccents(text.toLowerCase().trim())`. It agrees with the sheet
   * layer's `normalize` on every non-empty text; on `''` it still calls
   * `removeAccents`, where the sheet layer answers `''` directly.
   */
  function Normalize(text: string, removeAccents: string -> string): (r: string)
    ensures text != [] ==> r == Sheets.Normalize(Some(text), removeAccents)
    ensures text == [] ==> r == removeAccents([])
  {
    removeAccents(Trim(Lower(text)))
  }

  /** With no accents to remove, a normalised text normalises to itself. */
  lemma NormalizeIdempotent(text: string)
    ensures var plain := (t: string) => t;
      Normalize(Normalize(text, plain), plain) == Normalize(text, plain)
  {
    Sheets.NormalizedInputIsStable(text);
  }

  // ---------------------------------------------------------------- the first number

  /**
   * The text `/(\d+[.,]?\d*)/` matches: from the first digit, all the digits,
   * then one `.` or `,` if one follows, then the digits after it.
   */
  function NumberMatch(s: string): (r: Option<string>)
    ensures r.None? <==> !HasDigit(s)
    // the match opens with the first digit of the text
    ensures r.Some? ==> var i := FirstDigit(s).value;
      && r.value != [] && IsDigit(r.value[0]) && !HasDigit(s[..i])
      && i + |r.value| <= |s| && s[i..i + |r.value|] == r.value
  {
    match FirstDigit(s)
    case None => None
    case Some(i) =>
      var m := NumberAt(s[i..]);
      assert s[i..][..|m|] == s[i..i + |m|];
      Some(m)
  }

  /**
   * The longest prefix of `t` of the shape `\d*[.,]?\d*` with the separator only
   * after the leading digits: all the digits that open `t`, then one `.` or `,`
   * and the digits after it, when one follows.
   */
  function NumberAt(t: string): (r: string)
    ensures r <= t && LeadingDigits(t) <= r
    ensures var w := |LeadingDigits(t)|;
      |r| > w ==> (t[w] == '.' || t[w] == ',') && AllDigits(r[w + 1..])
    // nothing the pattern could take follows the match
    ensures |r| < |t| ==> !IsDigit(t[|r|])
    ensures |r| == |LeadingDigits(t)| && |r| < |t| ==> t[|r|] != '.' && t[|r|] != ','
  {
    var whole := LeadingDigits(t);
    var after := t[|whole|..];
    if |after| > 0 && (after[0] == '.' || after[0] == ',') then
      var frac := LeadingDigits(after[1..]);
      var r := whole + [after[0]] + frac;
      assert t == whole + [after[0]] + after[1..];
      assert r[|whole| + 1..] == frac;
      assert |r| < |t| ==> t[|r|] == after[1..][|frac|];
      r
    else
      whole
  }

  /**
   * `parseValue`: `parseFloat` of the match with its comma read as a point. There
   * is a value exactly when the text has a digit, and it is never negative.
   */
  function ParseValue(s: string): (r: Option<Dec>)
    ensures r.None? <==> !HasDigit(s)
    ensures r.Some? ==> r.value.mant >= 0
  {
    match FirstDigit(s)
    case None => None
    case Some(i) =>
      NumberAtReads(s[i..]);
      ParseFloat(ReplaceFirst(NumberAt(s[i..]), ",", "."))
  }

  /** A match that starts at a digit always reads as a number that is not negative. */
  lemma NumberAtReads(t: string)
    requires t != [] && IsDigit(t[0])
    ensures var r := ParseFloat(ReplaceFirst(NumberAt(t), ",", ".")); r.Some? && r.value.mant >= 0
  {
    var whole := LeadingDigits(t);
    var after := t[|whole|..];
    var frac := if |after| > 0 && (after[0] == '.' || after[0] == ',') then LeadingDigits(after[1..]) else [];
    MatchReads(whole, after, frac, NumberAt(t));
  }

  /** Each shape of the match reads as its digits over the fraction's length. */
  lemma MatchReads(whole: string, after: string, frac: string, m: string)
    requires AllDigits(whole) && whole != []
    requires frac == (if |after| > 0 && (after[0] == '.' || after[0] == ',') then LeadingDigits(after[1..]) else [])
    requires m == if |after| > 0 && (after[0] == '.' || after[0] == ',') then whole + [after[0]] + frac else whole
    ensures ParseFloat(ReplaceFirst(m, ",", ".")) == Some(Dec(DigitsValue(whole + frac), |frac|))
  {
    if |after| > 0 && (after[0] == '.' || after[0] == ',') {
      PointedReads(whole, after[0], frac);
    } else {
      DigitsExclude(whole, ',');
      ReplaceCommaAbsent(whole);
      assert whole + [] == whole;
      ParseFloatDigits(whole);
    }
  }

  /** The match with its comma read as a point. */
  lemma PointNormalised(whole: string, sep: char, frac: string)
    requires AllDigits(whole) && AllDigits(frac)
    requires sep == '.' || sep == ','
    ensures ReplaceFirst(whole + [sep] + frac, ",", ".") == whole + "." + frac
  {
    DigitsExclude(whole, ',');
    if sep == ',' {
      assert whole + [sep] + frac == whole + "," + frac;
      ReplaceFirstComma(whole, frac);
    } else {
      DigitsExclude(frac, ',');
      assert whole + [sep] + frac == whole + "." + frac;
      ReplaceCommaAbsent(whole + "." + frac);
    }
  }

  /** Digits, a `.` or `,`, and possibly more digits. */
  lemma PointedReads(whole: string, sep: char, frac: string)
    requires AllDigits(whole) && whole != [] && AllDigits(frac)
    requires sep == '.' || sep == ','
    ensures ParseFloat(ReplaceFirst(whole + [sep] + frac, ",", ".")) == Some(Dec(DigitsValue(whole + frac), |frac|))
  {
    PointNormalised(whole, sep, frac);
    PointReads(whole, frac);
  }

  // ---------------------------------------------------------------- reading the first number of a text

  /**
   * Text, then digits, a point or comma and more digits: the value is that
   * number, with the comma read as the decimal point, whatever follows it.
   */
  lemma ParseValueFirstNumber(pre: string, whole: string, sep: char, frac: string, rest: string)
    requires !HasDigit(pre) && AllDigits(whole) && whole != [] && AllDigits(frac)
    requires sep == '.' || sep == ','
    requires rest == [] || !IsDigit(rest[0])
    ensures ParseValue(pre + whole + [sep] + frac + rest) == Some(Dec(DigitsValue(whole + frac), |frac|))
  {
    var s := pre + whole + [sep] + frac + rest;
    MatchOfPointed(pre, whole, sep, frac, rest);
    ValueOfMatch(s);
    PointedReads(whole, sep, frac);
  }

  /** The match for text, digits, a point or comma, and more digits. */
  lemma MatchOfPointed(pre: string, whole: string, sep: char, frac: string, rest: string)
    requires !HasDigit(pre) && AllDigits(whole) && whole != [] && AllDigits(frac)
    requires sep == '.' || sep == ','
    requires rest == [] || !IsDigit(rest[0])
    ensures NumberMatch(pre + whole + [sep] + frac + rest) == Some(whole + [sep] + frac)
  {
    var tail := whole + ([sep] + frac + rest);
    assert pre + whole + [sep] + frac + rest == pre + tail;
    MatchSkipsPrefix(pre, tail);
    MatchOfPointedDigits(whole, sep, frac, rest);
  }

  /** Text without digits before the number does not change the match. */
  lemma MatchSkipsPrefix(pre: string, tail: string)
    requires !HasDigit(pre) && tail != [] && IsDigit(tail[0])
    ensures NumberMatch(pre + tail) == NumberMatch(tail)
  {
    FirstDigitAfter(pre, tail);
    assert (pre + tail)[|pre|..] == tail;
    assert tail[0..] == tail;
  }

  lemma MatchOfPointedDigits(whole: string, sep: char, frac: string, rest: string)
    requires AllDigits(whole) && whole != [] && AllDigits(frac)
    requires sep == '.' || sep == ','
    requires rest == [] || !IsDigit(rest[0])
    ensures NumberMatch(whole + ([sep] + frac + rest)) == Some(whole + [sep] + frac)
  {
    var after := [sep] + frac + rest;
    var tail := whole + after;
    assert tail[0] == whole[0];
    assert tail[0..] == tail;
    LeadingDigitsOfDigitsThen(whole, after);
    assert tail[|whole|..] == after;
    assert after[1..] == frac + rest;
    LeadingDigitsOfDigitsThen(frac, rest);
  }

  /** The match for text, then digits not followed by a point or comma. */
  lemma MatchOfWhole(pre: string, whole: string, rest: string)
    requires !HasDigit(pre) && AllDigits(whole) && whole != []
    requires rest == [] || (!IsDigit(rest[0]) && rest[0] != '.' && rest[0] != ',')
    ensures NumberMatch(pre + whole + rest) == Some(whole)
  {
    assert pre + whole + rest == pre + (whole + rest);
    assert (whole + rest)[0] == whole[0];
    MatchSkipsPrefix(pre, whole + rest);
    MatchOfWholeDigits(whole, rest);
  }

  lemma MatchOfWholeDigits(whole: string, rest: string)
    requires AllDigits(whole) && whole != []
    requires rest == [] || (!IsDigit(rest[0]) && rest[0] != '.' && rest[0] != ',')
    ensures NumberMatch(whole + rest) == Some(whole)
  {
    var tail := whole + rest;
    assert tail[0] == whole[0];
    assert tail[0..] == tail;
    LeadingDigitsOfDigitsThen(whole, rest);
    assert tail[|whole|..] == rest;
  }

  /** The value is `parseFloat` of the match with its comma read as a point. */
  lemma ValueOfMatch(s: string)
    requires HasDigit(s)
    ensures NumberMatch(s).Some?
    ensures ParseValue(s) == ParseFloat(ReplaceFirst(NumberMatch(s).value, ",", "."))
  {
  }

  /** Text, then digits not followed by a point or comma: the value is that whole number, whatever follows it. */
  lemma ParseValueFirstWhole(pre: string, whole: string, rest: string)
    requires !HasDigit(pre) && AllDigits(whole) && whole != []
    requires rest == [] || (!IsDigit(rest[0]) && rest[0] != '.' && rest[0] != ',')
    ensures ParseValue(pre + whole + rest) == Some(Dec(DigitsValue(whole), 0))
  {
    var s := pre + whole + rest;
    MatchOfWhole(pre, whole, rest);
    ValueOfMatch(s);
    MatchReads(whole, rest, [], whole);
    assert whole + [] == whole;
  }

  // ---------------------------------------------------------------- keywords and lists

  /** `/(recebi|entrou|ganhei)/.test(text)`. */
  predicate MentionsIncome(text: string)
  {
    Contains(text, "recebi") || Contains(text, "entrou") || Contains(text, "ganhei")
  }

  /** `/(gastei|paguei|gasto)/.test(text)`. */
  predicate MentionsExpense(text: string)
  {
    Contains(text, "gastei") || Contains(text, "paguei") || Contains(text, "gasto")
  }

  /** Entry `i` is the first of `items` whose normalised name occurs in `text`. */
  predicate FirstMention(items: seq<Item>, text: string, i: int)
  {
    0 <= i < |items| && Contains(text, items[i].norm)
    && forall j :: 0 <= j < i ==> !Contains(text, items[j].norm)
  }

  /** No entry of `items` has its normalised name in `text`. */
  predicate Unmentioned(items: seq<Item>, text: string)
  {
    forall j :: 0 <= j < |items| ==> !Contains(text, items[j].norm)
  }

  /** `items.find(c => text.includes(c.norm))`, as a position. */
  function Find(items: seq<Item>, text: string): (r: Option<nat>)
    ensures r.None? <==> Unmentioned(items, text)
    ensures r.Some? ==> FirstMention(items, text, r.value)
  {
    if items == [] then None
    else if Contains(text, items[0].norm) then Some(0)
    else
      match Find(items[1..], text)
      case None =>
        assert forall j :: 1 <= j < |items| ==> items[j] == items[1..][j - 1];
        None
      case Some(i) =>
        assert forall j :: 1 <= j <= i ==> items[j] == items[1..][j - 1];
        Some(i + 1)
  }

  /** There is at most one first mention. */
  lemma FirstMentionUnique(items: seq<Item>, text: string, i: int, k: int)
    requires FirstMention(items, text, i) && FirstMention(items, text, k)
    ensures i == k
  {
  }

  /** `(items.find(...) || { original: fallback }).original`. */
  function Pick(items: seq<Item>, text: string, fallback: string): (r: string)
    ensures Unmentioned(items, text) ==> r == fallback
    ensures forall i :: FirstMention(items, text, i) ==> r == items[i].original
  {
    match Find(items, text)
    case None => fallback
    case Some(k) =>
      forall i | FirstMention(items, text, i)
        ensures items[k].original == items[i].original
      {
        FirstMentionUnique(items, text, i, k);
      }
      items[k].original
  }

  // ---------------------------------------------------------------- the transaction

  /**
   * `parseTransaction`: a text with a non-zero first number and an income or
   * expense keyword is a transaction of that amount, an income whenever an
   * income keyword occurs, filed under the first category and the first
   * account it names, or `Outros` and `Não Informado`.
   */
  function ParseTransaction(text: string, categorias: seq<Item>, contas: seq<Item>, date: string): (r: Option<Lanc>)
    ensures !HasDigit(text) ==> r.None?
    ensures !MentionsIncome(text) && !MentionsExpense(text) ==> r.None?
    ensures r.Some? ==> ParseValue(text) == Some(r.value.valor) && r.value.valor.mant > 0
    ensures HasDigit(text) && ParseValue(text).value.mant > 0 && (MentionsIncome(text) || MentionsExpense(text)) ==> r.Some?
    ensures r.Some? ==> (r.value.tipo == "Receita" <==> MentionsIncome(text))
    ensures r.Some? ==> (r.value.tipo == "Despesa" <==> !MentionsIncome(text))
    ensures r.Some? && Unmentioned(categorias, text) ==> r.value.categoria == "Outros"
    ensures forall i :: r.Some? && FirstMention(categorias, text, i) ==> r.value.categoria == categorias[i].original
    ensures r.Some? && Unmentioned(contas, text) ==> r.value.conta == "N\U{00E3}o Informado"
    ensures forall i :: r.Some? && FirstMention(contas, text, i) ==> r.value.conta == contas[i].original
    ensures r.Some? ==> r.value.data == date && r.value.descricao == text && r.value.obs == Some("")
  {
    var valor := ParseValue(text);
    if valor.None? || valor.value.mant == 0 then None
    else if !MentionsIncome(text) && !MentionsExpense(text) then None
    else
      Some(Lanc(
        data := date,
        descricao := text,
        categoria := Pick(categorias, text, "Outros"),
        valor := valor.value,
        tipo := if MentionsIncome(text) then "Receita" else "Despesa",
        conta := Pick(contas, text, "N\U{00E3}o Informado"),
        obs := Some("")))
  }

  /** A first number of zero is no transaction, whatever the keywords. */
  lemma ZeroIsNoTransaction(pre: string, rest: string, categorias: seq<Item>, contas: seq<Item>, date: string)
    requires !HasDigit(pre)
    requires rest == [] || (!IsDigit(rest[0]) && rest[0] != '.' && rest[0] != ',')
    ensures ParseTransaction(pre + "0" + rest, categorias, contas, date).None?
  {
    ParseValueFirstWhole(pre, "0", rest);
  }

  // ---------------------------------------------------------------- commands

  /** What a command asks the sheet layer for, or the help menu, or the error reply. */
  datatype CommandResult =
    | Summary                          // sheets.getResumo()
    | Latest(count: Dec)               // sheets.getUltimos(count)
    | AddCategory(name: string)        // sheets.addCategoria(name)
    | RemoveCategory(name: string)     // sheets.remCategoria(name)
    | AddAccount(name: string)         // sheets.addConta(name)
    | RemoveAccount(name: string)      // sheets.remConta(name)
    | Expenses(args: seq<string>)      // sheets.handleGastos(args)
    | Incomes(args: seq<string>)       // sheets.handleReceitas(args)
    | Menu
    | Unknown

  /** The commands `handleCommand` knows. */
  const CommandWords: set<string> :=
    {"/resumo", "/ultimos", "/addcategoria", "/remcategoria", "/addconta", "/remconta",
     "/gastos", "/receitas", "/ajuda", "/start"}

  /** `args.join(' ')`: the empty list joins to `''`. */
  function JoinArgs(args: seq<string>): string
  {
    if args == [] then "" else Join(args, ' ')
  }

  /** `name` is what follows `word` and one space in `text`, or `''` when nothing does. */
  predicate NamedAfter(text: string, word: string, name: string)
  {
    (text == word && name == "") || text == word + " " + name
  }

  /** The command word, then the arguments joined back with spaces, is the text. */
  lemma CommandLineRejoin(text: string)
    ensures var parts := Split(text, ' ');
      if |parts| == 1 then text == parts[0] else text == parts[0] + " " + JoinArgs(parts[1..])
  {
  }

  /**
   * `handleCommand`: the first space-separated word chooses the command; the
   * names given to the category and account commands are the rest of the
   * text, and `/ultimos` reads its count as `Number(args[0]) || 5`.
   */
  function HandleCommand(text: string): (r: CommandResult)
    ensures r.Unknown? <==> Split(text, ' ')[0] !in CommandWords
    ensures r.Menu? <==> Split(text, ' ')[0] in {"/ajuda", "/start"}
    ensures r.Latest? ==> r.count.mant != 0
    ensures r.AddCategory? ==> NamedAfter(text, "/addcategoria", r.name)
    ensures r.RemoveCategory? ==> NamedAfter(text, "/remcategoria", r.name)
    ensures r.AddAccount? ==> NamedAfter(text, "/addconta", r.name)
    ensures r.RemoveAccount? ==> NamedAfter(text, "/remconta", r.name)
    ensures r.Expenses? ==> Join(["/gastos"] + r.args, ' ') == text
    ensures r.Incomes? ==> Join(["/receitas"] + r.args, ' ') == text
  {
    var parts := Split(text, ' ');
    var r := CommandOf(parts[0], parts[1..]);
    CommandLineRejoin(text);
    assert [parts[0]] + parts[1..] == parts;
    r
  }

  /** The `switch` of `handleCommand` on the command word `cmd`, with the words after it as `args`. */
  function CommandOf(cmd: string, args: seq<string>): (r: CommandResult)
    ensures r.Unknown? <==> cmd !in CommandWords
    ensures r.Menu? <==> cmd in {"/ajuda", "/start"}
    ensures r.Summary? <==> cmd == "/resumo"
    ensures r.Latest? <==> cmd == "/ultimos"
    ensures r.Latest? ==> r.count.mant != 0
    ensures r.AddCategory? <==> cmd == "/addcategoria"
    ensures r.RemoveCategory? <==> cmd == "/remcategoria"
    ensures r.AddAccount? <==> cmd == "/addconta"
    ensures r.RemoveAccount? <==> cmd == "/remconta"
    ensures (r.AddCategory? || r.RemoveCategory? || r.AddAccount? || r.RemoveAccount?) ==> r.name == JoinArgs(args)
    ensures r.Expenses? <==> cmd == "/gastos"
    ensures r.Incomes? <==> cmd == "/receitas"
    ensures r.Expenses? || r.Incomes? ==> r.args == args
  {
    if cmd == "/resumo" then Summary
    else if cmd == "/ultimos" then Latest(CountOr5(if |args| > 0 then Some(args[0]) else None))
    else if cmd == "/addcategoria" then AddCategory(JoinArgs(args))
    else if cmd == "/remcategoria" then RemoveCategory(JoinArgs(args))
    else if cmd == "/addconta" then AddAccount(JoinArgs(args))
    else if cmd == "/remconta" then RemoveAccount(JoinArgs(args))
    else if cmd == "/gastos" then Expenses(args)
    else if cmd == "/receitas" then Incomes(args)
    else if cmd == "/ajuda" || cmd == "/start" then Menu
    else Unknown
  }

  /** A command word, a space and any text: the word is the command and the text its arguments. */
  lemma CommandThenText(word: string, rest: string)
    requires ' ' !in word
    ensures var parts := Split(word + " " + rest, ' ');
      parts[0] == word && JoinArgs(parts[1..]) == rest && parts[1..] == Split(rest, ' ')
  {
    SplitCons(word, ' ', rest);
    assert word + [' '] + rest == word + " " + rest;
  }

  /** The category and account commands take the whole rest of the text as the name, spaces included. */
  lemma NameCommandTakesRest(word: string, name: string)
    requires word in {"/addcategoria", "/remcategoria", "/addconta", "/remconta"}
    ensures var r := HandleCommand(word + " " + name);
      && (r.AddCategory? || r.RemoveCategory? || r.AddAccount? || r.RemoveAccount?)
      && r.name == name
      && (r.AddCategory? <==> word == "/addcategoria")
      && (r.RemoveCategory? <==> word == "/remcategoria")
      && (r.AddAccount? <==> word == "/addconta")
  {
    CommandThenText(word, name);
  }

  /** `/ultimos n` asks for the last n entries when n is positive, and for 5 when n is 0. */
  lemma LatestCommand(n: nat)
    ensures HandleCommand("/ultimos " + NatToString(n)) == Latest(if n == 0 then Dec(5, 0) else Dec(n, 0))
  {
    var digits := NatToString(n);
    var text := "/ultimos " + digits;
    DigitsExclude(digits, ' ');
    CommandThenText("/ultimos", digits);
    SplitAbsent(digits, ' ');
    LatestRoute(text);
    CountOr5OfNumber(n);
  }

  /** `/ultimos` asks for the count its first argument gives. */
  lemma LatestRoute(text: string)
    requires Split(text, ' ')[0] == "/ultimos"
    ensures var args := Split(text, ' ')[1..];
      HandleCommand(text) == Latest(CountOr5(if |args| > 0 then Some(args[0]) else None))
  {
  }

  // ---------------------------------------------------------------- messages

  /** What `handleMessage` does with a message. */
  datatype Outcome =
    | Silent                     // no text: nothing is returned
    | Ran(command: CommandResult)
    | Recorded(lanc: Lanc)       // sheets.writeToSheet(lanc), then the confirmation
    | ShowMenu

  /**
   * `handleMessage`: a message without text is ignored; otherwise its
   * normalised text is a command when it starts with `/`, and is never also
   * parsed; other text is written to the sheet when it parses as a
   * transaction, and gets the help menu when it does not.
   */
  function HandleMessage(textRaw: Option<string>, removeAccents: string -> string,
                         categorias: seq<Item>, contas: seq<Item>, date: string): (r: Outcome)
    ensures r.Silent? <==> !Truthy(textRaw)
    ensures r.Ran? <==> Truthy(textRaw) && StartsWith(Normalize(textRaw.value, removeAccents), "/")
    ensures r.Ran? ==> r.command == HandleCommand(Normalize(textRaw.value, removeAccents))
    ensures r.Recorded? ==> r.lanc.descricao == Normalize(textRaw.value, removeAccents) && r.lanc.valor.mant > 0
    ensures r.Recorded? ==> ParseTransaction(Normalize(textRaw.value, removeAccents), categorias, contas, date) == Some(r.lanc)
    ensures r.ShowMenu? <==> (Truthy(textRaw) && !StartsWith(Normalize(textRaw.value, removeAccents), "/")
                              && ParseTransaction(Normalize(textRaw.value, removeAccents), categorias, contas, date).None?)
  {
    if !Truthy(textRaw) then Silent
    else
      var text := Normalize(textRaw.value, removeAccents);
      if StartsWith(text, "/") then Ran(HandleCommand(text))
      else
        match ParseTransaction(text, categorias, contas, date)
        case Some(lanc) => Recorded(lanc)
        case None => ShowMenu
  }
}

=== FILE: records.dfy ===
/**
 * The JavaScript objects the bot passes between its files, as immutable records.
 * A field the source leaves `undefined` is `None`.
 */
module Records {
  import opened Wrappers
  import opened Numbers

  /** A category or account: the text in the sheet and its normalised form used for matching. */
  datatype Item = Item(original: string, norm: string)

  /** What `listCategorias` returns: expense categories (column A) and income categories (column B). */
  datatype Categories = Categories(despesas: seq<Item>, receitas: seq<Item>)

  /** The lists the keyboards are built from: `listCategorias()` and `listContas()`. */
  datatype Catalog = Catalog(categories: Categories, accounts: seq<Item>)

  /**
   * A conversation's `data` object. The transaction and recurring flows fill in
   * the first six fields; the edit flow is started with the last three.
   */
  datatype Draft = Draft(
    tipo: Option<string>,
    valor: Option<Dec>,
    categoria: Option<string>,
    conta: Option<string>,
    descricao: Option<string>,
    diaDoMes: Option<int>,
    rowNumber: Option<int>,
    column: Option<string>,
    fieldName: Option<string>)

  /** `{}`: the default `initialData`. */
  const EmptyDraft: Draft := Draft(None, None, None, None, None, None, None, None, None)

  /** A transaction (`lanc`) as the free-text parser builds it and `writeToSheet` takes it. */
  datatype Lanc = Lanc(
    data: string,
    descricao: string,
    categoria: string,
    valor: Dec,
    tipo: string,
    conta: string,
    obs: Option<string>)
}

=== FILE: sheets.dfy ===
/**
 * The row layouts of `sheets.js`: what `writeToSheet` and `addRecurringEntry`
 * append, how `getAllEntries`, `getAllRecurringEntries`, `getBudgets`,
 * `listCategorias` and `listContas` read rows back, and which cell or row span
 * `updateRow`, `deleteRow` and `deleteRecurringRow` address.
 *
 * The spreadsheet itself is not modelled. A read is the list of rows the sheet
 * returns, each a list of cell texts; an appended row is a list of typed cells,
 * and the text it reads back as is `Shown`, with the display of an amount left
 * as a parameter. The date, the new id and `removeAccents` are parameters.
 */
module Sheets {
  import opened Wrappers
  import opened Text
  import opened Numbers
  import opened Records

  /** A row as the sheet returns it: the texts of its cells. */
  type Row = seq<string>

  /** `row[k]`, or `undefined` past the end of the row. */
  function At(row: Row, k: nat): Option<string>
  {
    if k < |row| then Some(row[k]) else None
  }

  /** `rows.shift()` when there are rows: the header is dropped. */
  function Body(rows: seq<Row>): seq<Row>
  {
    if |rows| > 0 then rows[1..] else rows
  }

  // ---------------------------------------------------------------- normalize

  /** `normalize`: falsy input is `''`; anything else is trimmed and lower-cased, then stripped of accents. */
  function Normalize(text: Option<string>, removeAccents: string -> string): (r: string)
    ensures !Truthy(text) ==> r == ""
  {
    if !Truthy(text) then "" else removeAccents(Trim(Lower(text.value)))
  }

  /** Text without upper-case letters is its own lower case. */
  lemma LowerUnchanged(s: string)
    requires forall i :: 0 <= i < |s| ==> !IsUpper(s[i])
    ensures Lower(s) == s
  {
  }

  /** The text handed to `removeAccents` is already trimmed and lower-cased. */
  lemma NormalizedInputIsStable(s: string)
    ensures var t := Trim(Lower(s));
      Trim(Lower(t)) == t
  {
    var low := Lower(s);
    TrimmedLowerHasNoUpper(low);
    LowerUnchanged(Trim(low));
    TrimIdempotent(low);
  }

  /** Trimming text without upper-case letters leaves none. */
  lemma TrimmedLowerHasNoUpper(low: string)
    requires forall i :: 0 <= i < |low| ==> !IsUpper(low[i])
    ensures forall i :: 0 <= i < |Trim(low)| ==> !IsUpper(Trim(low)[i])
  {
    var t := Trim(low);
    var k := |low| - |TrimStart(low)|;
    forall i | 0 <= i < |t|
      ensures !IsUpper(t[i])
    {
      assert t[i] == low[k + i];
    }
  }

  /** With no accents to remove, a normalised text normalises to itself. */
  lemma NormalizeIdempotent(text: Option<string>)
    ensures var plain := (t: string) => t;
      Normalize(Some(Normalize(text, plain)), plain) == Normalize(text, plain)
  {
    if Truthy(text) {
      NormalizedInputIsStable(text.value);
    }
  }

  // ---------------------------------------------------------------- written cells

  /** A cell as it is appended: text, a number, or nothing (`undefined` is written as an empty cell). */
  datatype Cell = Str(text: string) | Decimal(amount: Dec) | Integer(number: int) | Blank

  /** The text a written cell reads back as; an amount reads as `amountText`, whatever the sheet's format makes of it. */
  function Shown(c: Cell, amountText: string): string
  {
    match c
    case Str(s) => s
    case Decimal(_) => amountText
    case Integer(n) => IntToString(n)
    case Blank => ""
  }

  function ShownRow(cells: seq<Cell>, amountText: string): Row
  {
    seq(|cells|, i requires 0 <= i < |cells| => Shown(cells[i], amountText))
  }

  /** The sheet returns a row without its trailing empty cells. */
  function DropTrailingBlanks(row: Row): (r: Row)
    ensures r <= row
    ensures r == [] || r[|r| - 1] != ""
    ensures forall k :: |r| <= k < |row| ==> row[k] == ""
    decreases |row|
  {
    if row != [] && row[|row| - 1] == "" then DropTrailingBlanks(row[..|row| - 1]) else row
  }

  /** The row a written row reads back as. */
  function SheetRow(cells: seq<Cell>, amountText: string): Row
  {
    DropTrailingBlanks(ShownRow(cells, amountText))
  }

  /** Dropping the trailing empty cells changes no cell's text: a dropped cell reads `undefined`, which stood for `''`. */
  lemma DroppedCells(row: Row, k: nat)
    ensures At(DropTrailingBlanks(row), k).GetOr("") == At(row, k).GetOr("")
    ensures k < |row| && row[k] != "" ==> At(DropTrailingBlanks(row), k) == Some(row[k])
  {
  }

  /** A row whose last cell is not empty comes back whole. */
  lemma NothingDropped(row: Row)
    requires row != [] && row[|row| - 1] != ""
    ensures DropTrailingBlanks(row) == row
  {
  }

  function StrOr(o: Option<string>): Cell
  {
    match o
    case Some(s) => Str(s)
    case None => Blank
  }

  // ---------------------------------------------------------------- amounts

  /** `.replace('R$', '').replace('.', '').replace(',', '.')`: each pattern only where it first occurs. */
  function Cleaned(s: string): string
  {
    ReplaceFirst(ReplaceFirst(ReplaceFirst(s, "R$", ""), ".", ""), ",", ".")
  }

  /** `parseFloat` of the cleaned text; `None` is `NaN`. */
  function CleanNumber(s: string): Option<Dec>
  {
    ParseFloat(Cleaned(s))
  }

  /** `x || 0` for a parsed number: `NaN` and zero both become 0. */
  function OrZero(o: Option<Dec>): Dec
  {
    match o
    case Some(d) => if d.mant == 0 then Dec(0, 0) else d
    case None => Dec(0, 0)
  }

  /**
   * The amount of an entry row: `parseFloat(String(cell || '0')...) || 0`. An
   * empty or missing cell reads as `'0'`, which is 0 (`ZeroTextIsZero`).
   */
  function EntryAmount(cell: Option<string>): (r: Dec)
    ensures !Truthy(cell) ==> r == Dec(0, 0)
    ensures r.mant != 0 ==> Truthy(cell) && CleanNumber(cell.value) == Some(r)
    // a cell that reads as a non-zero number gives that number; `NaN` and zero give exactly 0
    ensures Truthy(cell) && CleanNumber(cell.value).Some? && CleanNumber(cell.value).value.mant != 0 ==>
      r == CleanNumber(cell.value).value
    ensures r.mant == 0 ==> r == Dec(0, 0)
  {
    if Truthy(cell) then OrZero(CleanNumber(cell.value)) else Dec(0, 0)
  }

  /**
   * The amount of a recurring row: `parseFloat(String(cell)...) || 0`. A
   * missing cell reads as `'undefined'`, which is 0 (`UndefinedTextIsZero`).
   */
  function RecurringAmount(cell: Option<string>): (r: Dec)
    ensures cell.None? ==> r == Dec(0, 0)
    ensures r.mant != 0 ==> cell.Some? && CleanNumber(cell.value) == Some(r)
    ensures cell.Some? && CleanNumber(cell.value).Some? && CleanNumber(cell.value).value.mant != 0 ==>
      r == CleanNumber(cell.value).value
    ensures r.mant == 0 ==> r == Dec(0, 0)
  {
    match cell
    case Some(s) => OrZero(CleanNumber(s))
    case None => Dec(0, 0)
  }

  /** Text without `R$`, `.` or `,` is not changed by the clean-up. */
  lemma CleanedPlain(s: string)
    requires '$' !in s && '.' !in s && ',' !in s
    ensures Cleaned(s) == s
  {
    forall j
      ensures !OccursAt(s, "R$", j)
    {
      if 0 <= j && j + 2 <= |s| {
        assert s[j..j + 2][1] == s[j + 1];
      }
    }
    ReplaceFirstAbsent(s, "R$", "");
    ReplaceCharAbsent(s, '.', "");
    ReplaceCharAbsent(s, ',', ".");
  }

  /** `'0'`, the stand-in for an empty amount cell, reads as 0. */
  lemma ZeroTextIsZero()
    ensures OrZero(CleanNumber("0")) == Dec(0, 0)
  {
    var z := "0";
    CleanedPlain(z);
    ParseFloatDigits(z);
  }

  /** Text without digits reads as `NaN`, which is 0. */
  lemma DigitlessIsZero(s: string)
    requires '$' !in s && '.' !in s && ',' !in s && !HasDigit(s)
    ensures OrZero(CleanNumber(s)) == Dec(0, 0)
  {
    CleanedPlain(s);
  }

  /** `'undefined'`, the text of a missing amount cell, reads as 0. */
  lemma UndefinedTextIsZero()
    ensures OrZero(CleanNumber("undefined")) == Dec(0, 0)
  {
    UndefinedHasNoDigit();
    DigitlessIsZero("undefined");
  }

  /** The text of `undefined` has no digit, so no number can be read from it. */
  lemma UndefinedHasNoDigit()
    ensures !HasDigit(JsString(None))
  {
    var u := JsString(None);
    forall k | 0 <= k < |u|
      ensures !IsDigit(u[k])
    {
    }
  }

  /** An amount in the Brazilian currency format, `R$1.234,56`, reads back as the number it shows. */
  lemma BrazilianAmount(thousands: string, units: string, cents: string)
    requires AllDigits(thousands) && thousands != [] && AllDigits(units) && AllDigits(cents)
    ensures CleanNumber("R$" + thousands + "." + units + "," + cents)
         == Some(Dec(DigitsValue(thousands + units + cents), |cents|))
  {
    var whole := thousands + units;
    BrazilianCleaned(thousands, units, cents);
    DigitsValueAppend(thousands, units);
    PointReads(whole, cents);
    assert whole + cents == thousands + units + cents;
  }

  /** The clean-up of `R$1.234,56` gives `1234.56`. */
  lemma BrazilianCleaned(thousands: string, units: string, cents: string)
    requires AllDigits(thousands) && AllDigits(units)
    ensures Cleaned("R$" + thousands + "." + units + "," + cents) == (thousands + units) + "." + cents
  {
    var tail := units + "," + cents;
    var x := thousands + "." + tail;
    calc {
      Cleaned("R$" + thousands + "." + units + "," + cents);
    == { assert "R$" + thousands + "." + units + "," + cents == "R$" + x; }
      ReplaceFirst(ReplaceFirst(ReplaceFirst("R$" + x, "R$", ""), ".", ""), ",", ".");
    == { StripCurrency(x); }
      ReplaceFirst(ReplaceFirst(x, ".", ""), ",", ".");
    == { DigitsExclude(thousands, '.'); DropFirstPoint(thousands, tail); }
      ReplaceFirst(thousands + tail, ",", ".");
    == { assert thousands + tail == (thousands + units) + "," + cents; }
      ReplaceFirst((thousands + units) + "," + cents, ",", ".");
    == { DigitsValueAppend(thousands, units); DigitsExclude(thousands + units, ','); ReplaceFirstComma(thousands + units, cents); }
      (thousands + units) + "." + cents;
    }
  }

  /** `.replace('R$', '')` on text that starts with `R$`. */
  lemma StripCurrency(x: string)
    ensures ReplaceFirst("R$" + x, "R$", "") == x
  {
    assert "R$" + x == [] + "R$" + x;
    ReplaceFirstAt([], "R$", x, "");
    assert [] + "" + x == x;
  }

  /** `.replace('.', '')` where the first point follows `before`. */
  lemma DropFirstPoint(before: string, after: string)
    requires '.' !in before
    ensures ReplaceFirst(before + "." + after, ".", "") == before + after
  {
    assert before + "." + after == before + ['.'] + after;
    ReplaceCharFirst(before, '.', after, "");
    assert before + "" + after == before + after;
  }

  /**
   * A Brazilian amount in an amount cell of either sheet, as `R$1.234,56`, is decoded as the
   * number shown, and a zero amount as 0.
   */
  lemma BrazilianDecodedAmount(thousands: string, units: string, cents: string)
    requires AllDigits(thousands) && thousands != [] && AllDigits(units) && AllDigits(cents)
    ensures var v := DigitsValue(thousands + units + cents);
      EntryAmount(Some("R$" + thousands + "." + units + "," + cents)) == if v == 0 then Dec(0, 0) else Dec(v, |cents|)
    ensures var v := DigitsValue(thousands + units + cents);
      RecurringAmount(Some("R$" + thousands + "." + units + "," + cents)) == if v == 0 then Dec(0, 0) else Dec(v, |cents|)
  {
    BrazilianAmount(thousands, units, cents);
  }

  /** An amount shown as `R$` and digits with a decimal comma, without thousands points, reads back too. */
  lemma PlainBrazilianAmount(whole: string, cents: string)
    requires AllDigits(whole) && whole != [] && AllDigits(cents)
    ensures CleanNumber("R$" + whole + "," + cents) == Some(Dec(DigitsValue(whole + cents), |cents|))
  {
    var x := whole + "," + cents;
    calc {
      Cleaned("R$" + whole + "," + cents);
    == { assert "R$" + whole + "," + cents == "R$" + x; }
      ReplaceFirst(ReplaceFirst(ReplaceFirst("R$" + x, "R$", ""), ".", ""), ",", ".");
    == { StripCurrency(x); }
      ReplaceFirst(ReplaceFirst(x, ".", ""), ",", ".");
    == { DigitsExclude(whole, '.'); DigitsExclude(cents, '.'); assert '.' !in x; ReplaceCharAbsent(x, '.', ""); }
      ReplaceFirst(x, ",", ".");
    == { DigitsExclude(whole, ','); ReplaceFirstComma(whole, cents); }
      whole + "." + cents;
    }
    PointReads(whole, cents);
  }

  // ---------------------------------------------------------------- transactions

  /** What `writeToSheet` returns: the transaction it was given, plus the id of its new row. */
  datatype Stored = Stored(lanc: Lanc, id: string)

  /** The row `writeToSheet` appends and the value it returns. */
  datatype Append = Append(row: seq<Cell>, stored: Stored)

  /**
   * `writeToSheet`: the row is date, description, category, amount, type,
   * account, note (`''` when it has none) and the new id; the value returned
   * is the transaction with that same id.
   */
  function WriteToSheet(lanc: Lanc, date: string, newId: string): (r: Append)
    ensures |r.row| == 8 && r.stored.lanc == lanc && r.stored.id == newId
    ensures r.row[7] == Str(r.stored.id)
    ensures r.row[3] == Decimal(lanc.valor)
  {
    Append([Str(date), Str(lanc.descricao), Str(lanc.categoria), Decimal(lanc.valor), Str(lanc.tipo),
            Str(lanc.conta), Str(if Truthy(lanc.obs) then lanc.obs.value else ""), Str(newId)],
           Stored(lanc, newId))
  }

  /** A transaction as `getAllEntries` reads it; a missing cell is `undefined`. */
  datatype Entry = Entry(
    data: Option<string>,
    descricao: Option<string>,
    categoria: Option<string>,
    valor: Dec,
    tipo: Option<string>,
    conta: Option<string>,
    obs: Option<string>,
    id: Option<string>,
    rowNumber: int)

  /** One row of `getAllEntries`; `DecodedEntry` says what each field is. */
  function DecodeEntry(row: Row, rowNumber: int): Entry
  {
    Entry(At(row, 0), At(row, 1), At(row, 2), EntryAmount(At(row, 3)), At(row, 4), At(row, 5), At(row, 6),
          At(row, 7), rowNumber)
  }

  /**
   * Cell k of the row is field k, `undefined` past the end of the row, and the
   * amount is 0 unless the fourth cell is non-empty and reads as a non-zero
   * number.
   */
  lemma DecodedEntry(row: Row, rowNumber: int)
    ensures var e := DecodeEntry(row, rowNumber);
      && e.rowNumber == rowNumber
      && (e.data.Some? <==> |row| > 0)
      && (e.id.Some? <==> |row| > 7)
      && (e.id.Some? ==> e.id.value == row[7] && e.data == Some(row[0]) && e.obs == Some(row[6]))
      && e.descricao == At(row, 1) && e.categoria == At(row, 2) && e.tipo == At(row, 4) && e.conta == At(row, 5)
      && (e.valor.mant != 0 ==> |row| > 3 && row[3] != "" && CleanNumber(row[3]) == Some(e.valor))
      && (|row| > 3 && row[3] != "" && CleanNumber(row[3]).Some? && CleanNumber(row[3]).value.mant != 0 ==>
            e.valor == CleanNumber(row[3]).value)
      && (e.valor.mant == 0 ==> e.valor == Dec(0, 0))
      && (|row| <= 3 ==> e.valor == Dec(0, 0))
  {
  }

  /**
   * `getAllEntries`: the header is dropped when there are rows, every other row
   * is decoded, and the entry from the sheet's 1-based row r carries
   * `rowNumber` r.
   */
  function GetAllEntries(rows: seq<Row>): (es: seq<Entry>)
    ensures |es| == if rows == [] then 0 else |rows| - 1
    ensures forall i :: 0 <= i < |es| ==> es[i].rowNumber == i + 2
    ensures forall i :: 0 <= i < |es| ==> 1 <= es[i].rowNumber - 1 < |rows| && es[i] == DecodeEntry(rows[es[i].rowNumber - 1], es[i].rowNumber)
  {
    var body := Body(rows);
    seq(|body|, i requires 0 <= i < |body| => DecodeEntry(body[i], i + 2))
  }

  /**
   * A written row reads back column for column: the text fields, the note and
   * the id come back as they were written. The id, a uuid, is never empty, so
   * no trailing cell of the row is dropped.
   */
  lemma EntryRoundTrip(lanc: Lanc, date: string, newId: string, amountText: string, rowNumber: int)
    requires newId != ""
    ensures var a := WriteToSheet(lanc, date, newId);
      var e := DecodeEntry(SheetRow(a.row, amountText), rowNumber);
      && e.data == Some(date)
      && e.descricao == Some(lanc.descricao)
      && e.categoria == Some(lanc.categoria)
      && e.valor == EntryAmount(Some(amountText))
      && e.tipo == Some(lanc.tipo)
      && e.conta == Some(lanc.conta)
      && e.obs == Some(if Truthy(lanc.obs) then lanc.obs.value else "")
      && e.id == Some(a.stored.id)
      && e.rowNumber == rowNumber
  {
    var a := WriteToSheet(lanc, date, newId);
    NothingDropped(ShownRow(a.row, amountText));
  }

  /** A row appended below a header reads back as the last entry, with the sheet's row number, and the earlier entries stay as they were. */
  lemma AppendedEntryIsLast(rows: seq<Row>, lanc: Lanc, date: string, newId: string, amountText: string)
    requires |rows| >= 1 && newId != ""
    ensures var a := WriteToSheet(lanc, date, newId);
      var es := GetAllEntries(rows + [SheetRow(a.row, amountText)]);
      && |es| == |rows|
      && es[..|rows| - 1] == GetAllEntries(rows)
      && es[|rows| - 1].id == Some(newId)
      && es[|rows| - 1].descricao == Some(lanc.descricao)
      && es[|rows| - 1].rowNumber == |rows| + 1
  {
    var a := WriteToSheet(lanc, date, newId);
    var all := rows + [SheetRow(a.row, amountText)];
    var es := GetAllEntries(all);
    assert all[|rows|] == SheetRow(a.row, amountText);
    EntryRoundTrip(lanc, date, newId, amountText, |rows| + 1);
    var old_ := GetAllEntries(rows);
    forall i | 0 <= i < |rows| - 1
      ensures es[i] == old_[i]
    {
      assert all[i + 1] == rows[i + 1];
    }
  }

  // ---------------------------------------------------------------- recurring entries

  /** `addRecurringEntry`: description, amount, type, category, account and day of the month. */
  function AddRecurringEntry(entry: Draft): (row: seq<Cell>)
    ensures |row| == 6
    ensures entry.valor.Some? ==> row[1] == Decimal(entry.valor.value)
    ensures entry.diaDoMes.Some? ==> row[5] == Integer(entry.diaDoMes.value)
  {
    [StrOr(entry.descricao),
     match entry.valor case Some(d) => Decimal(d) case None => Blank,
     StrOr(entry.tipo),
     StrOr(entry.categoria),
     StrOr(entry.conta),
     match entry.diaDoMes case Some(n) => Integer(n) case None => Blank]
  }

  /** A recurring entry as `getAllRecurringEntries` reads it; `diaDoMes` is `None` for `NaN`. */
  datatype RecurringEntry = RecurringEntry(
    descricao: Option<string>,
    valor: Dec,
    tipo: Option<string>,
    categoria: Option<string>,
    conta: Option<string>,
    diaDoMes: Option<int>,
    rowNumber: int)

  /** One row of `getAllRecurringEntries`; `DecodedRecurring` says what each field is. */
  function DecodeRecurring(row: Row, rowNumber: int): RecurringEntry
  {
    RecurringEntry(At(row, 0), RecurringAmount(At(row, 1)), At(row, 2), At(row, 3), At(row, 4),
                   ParseInt(JsString(At(row, 5))), rowNumber)
  }

  /**
   * The text fields are cells 0, 2, 3 and 4, `undefined` past the end of the
   * row; the amount is 0 unless the second cell reads as a non-zero number, and
   * the day of the month is `NaN` unless the sixth cell holds a digit (a missing
   * cell reads as the text `'undefined'`).
   */
  lemma DecodedRecurring(row: Row, rowNumber: int)
    ensures var e := DecodeRecurring(row, rowNumber);
      && e.rowNumber == rowNumber
      && e.descricao == At(row, 0) && e.tipo == At(row, 2) && e.categoria == At(row, 3) && e.conta == At(row, 4)
      && (e.valor.mant != 0 ==> |row| > 1 && CleanNumber(row[1]) == Some(e.valor))
      && (|row| > 1 && CleanNumber(row[1]).Some? && CleanNumber(row[1]).value.mant != 0 ==>
            e.valor == CleanNumber(row[1]).value)
      && (e.valor.mant == 0 ==> e.valor == Dec(0, 0))
      && (e.diaDoMes.Some? ==> |row| > 5 && HasDigit(row[5]))
  {
    UndefinedHasNoDigit();
  }

  /** `getAllRecurringEntries`: as for transactions, the entry from the sheet's 1-based row r carries `rowNumber` r. */
  function GetAllRecurringEntries(rows: seq<Row>): (es: seq<RecurringEntry>)
    ensures |es| == if rows == [] then 0 else |rows| - 1
    ensures forall i :: 0 <= i < |es| ==> es[i].rowNumber == i + 2
    ensures forall i :: 0 <= i < |es| ==> 1 <= es[i].rowNumber - 1 < |rows| && es[i] == DecodeRecurring(rows[es[i].rowNumber - 1], es[i].rowNumber)
  {
    var body := Body(rows);
    seq(|body|, i requires 0 <= i < |body| => DecodeRecurring(body[i], i + 2))
  }

  /**
   * A written recurring row reads back column for column. An `undefined` text
   * field was written as an empty cell, which reads back as `''` or, when no
   * later cell of the row is filled, as `undefined`; the day of the month comes
   * back exactly, `undefined` included. A row written with its day, the last
   * cell, comes back whole, `undefined` texts as `''`.
   */
  lemma RecurringRoundTrip(entry: Draft, amountText: string, rowNumber: int)
    ensures var e := DecodeRecurring(SheetRow(AddRecurringEntry(entry), amountText), rowNumber);
      && e.descricao.GetOr("") == entry.descricao.GetOr("")
      && e.tipo.GetOr("") == entry.tipo.GetOr("")
      && e.categoria.GetOr("") == entry.categoria.GetOr("")
      && e.conta.GetOr("") == entry.conta.GetOr("")
      && e.diaDoMes == entry.diaDoMes
      && (entry.valor.Some? ==> e.valor == RecurringAmount(Some(amountText)))
      && e.rowNumber == rowNumber
    ensures var e := DecodeRecurring(SheetRow(AddRecurringEntry(entry), amountText), rowNumber);
      entry.diaDoMes.Some? ==>
        && e.descricao == Some(entry.descricao.GetOr(""))
        && e.tipo == Some(entry.tipo.GetOr(""))
        && e.categoria == Some(entry.categoria.GetOr(""))
        && e.conta == Some(entry.conta.GetOr(""))
  {
    var shown := ShownRow(AddRecurringEntry(entry), amountText);
    var row := DropTrailingBlanks(shown);
    RecurringShown(entry, amountText);
    RecurringTextsReadBack(entry, shown, row, rowNumber);
    RecurringDayReadsBack(entry.diaDoMes, shown, row, amountText);
    if entry.valor.Some? {
      RecurringAmountReadsBack(shown, row, amountText);
    }
    if entry.diaDoMes.Some? {
      NothingDropped(shown);
    }
  }

  /** The texts of the six cells `addRecurringEntry` writes. */
  lemma RecurringShown(entry: Draft, amountText: string)
    ensures var shown := ShownRow(AddRecurringEntry(entry), amountText);
      && |shown| == 6
      && shown[0] == entry.descricao.GetOr("")
      && (entry.valor.Some? ==> shown[1] == amountText)
      && shown[2] == entry.tipo.GetOr("")
      && shown[3] == entry.categoria.GetOr("")
      && shown[4] == entry.conta.GetOr("")
      && shown[5] == Shown(match entry.diaDoMes case Some(n) => Integer(n) case None => Blank, amountText)
      && (entry.diaDoMes.Some? ==> shown[5] == IntToString(entry.diaDoMes.value) && shown[5] != "")
  {
    StrOrShown(entry.descricao, amountText);
    StrOrShown(entry.tipo, amountText);
    StrOrShown(entry.categoria, amountText);
    StrOrShown(entry.conta, amountText);
  }

  /** The four text cells read back as written, up to dropped trailing cells. */
  lemma RecurringTextsReadBack(entry: Draft, shown: Row, row: Row, rowNumber: int)
    requires |shown| == 6 && row == DropTrailingBlanks(shown)
    requires shown[0] == entry.descricao.GetOr("") && shown[2] == entry.tipo.GetOr("")
    requires shown[3] == entry.categoria.GetOr("") && shown[4] == entry.conta.GetOr("")
    ensures var e := DecodeRecurring(row, rowNumber);
      && e.descricao.GetOr("") == entry.descricao.GetOr("")
      && e.tipo.GetOr("") == entry.tipo.GetOr("")
      && e.categoria.GetOr("") == entry.categoria.GetOr("")
      && e.conta.GetOr("") == entry.conta.GetOr("")
      && e.rowNumber == rowNumber
      && (row == shown ==>
        && e.descricao == Some(entry.descricao.GetOr(""))
        && e.tipo == Some(entry.tipo.GetOr(""))
        && e.categoria == Some(entry.categoria.GetOr(""))
        && e.conta == Some(entry.conta.GetOr("")))
  {
    DroppedCells(shown, 0);
    DroppedCells(shown, 2);
    DroppedCells(shown, 3);
    DroppedCells(shown, 4);
  }

  /** The day cell reads back as the day written, whether or not trailing cells were dropped. */
  lemma RecurringDayReadsBack(day: Option<int>, shown: Row, row: Row, amountText: string)
    requires |shown| == 6
    requires shown[5] == Shown(match day case Some(n) => Integer(n) case None => Blank, amountText)
    requires row == DropTrailingBlanks(shown)
    ensures ParseInt(JsString(At(row, 5))) == day
    ensures forall rowNumber: int {:trigger DecodeRecurring(row, rowNumber)} :: DecodeRecurring(row, rowNumber).diaDoMes == day
  {
    DayCellReadsBack(day, amountText);
    if |row| <= 5 {
      assert shown[5] == "";
      UndefinedHasNoDigit();
    } else {
      assert row[5] == shown[5];
    }
  }

  /** The amount cell reads back as its displayed text, or, when it was dropped as empty, as 0 like that empty text. */
  lemma RecurringAmountReadsBack(shown: Row, row: Row, amountText: string)
    requires |shown| == 6 && shown[1] == amountText
    requires row == DropTrailingBlanks(shown)
    ensures RecurringAmount(At(row, 1)) == RecurringAmount(Some(amountText))
    ensures forall rowNumber: int {:trigger DecodeRecurring(row, rowNumber)} :: DecodeRecurring(row, rowNumber).valor == RecurringAmount(Some(amountText))
  {
    if |row| <= 1 {
      assert amountText == "";
      DigitlessIsZero("");
    } else {
      assert row[1] == shown[1];
    }
  }

  /** An optional text reads back as itself, `undefined` as `''`. */
  lemma StrOrShown(o: Option<string>, amountText: string)
    ensures Shown(StrOr(o), amountText) == o.GetOr("")
  {
  }

  /** The day of the month reads back as it was written, `undefined` included. */
  lemma DayCellReadsBack(day: Option<int>, amountText: string)
    ensures var c := match day case Some(n) => Integer(n) case None => Blank;
      ParseInt(JsString(Some(Shown(c, amountText)))) == day
  {
    match day
    case Some(n) =>
      assert IntToString(n) + "" == IntToString(n);
      ParseIntRender(n, "");
    case None =>
      assert !HasDigit("");
  }

  // ---------------------------------------------------------------- budgets

  /** A budget row counts when both its category and its amount cell are non-empty. */
  predicate BudgetRow(row: Row)
  {
    Truthy(At(row, 0)) && Truthy(At(row, 1))
  }

  /** Row `i` is the last counting row for its category. */
  predicate LastFor(rows: seq<Row>, i: int)
    requires 0 <= i < |rows| && BudgetRow(rows[i])
  {
    forall j :: i < j < |rows| && BudgetRow(rows[j]) ==> rows[j][0] != rows[i][0]
  }

  /** The `forEach` of `getBudgets`: each counting row sets its category's amount text. */
  function BudgetTexts(rows: seq<Row>): map<string, string>
    decreases |rows|
  {
    if rows == [] then map[]
    else
      var m := BudgetTexts(rows[..|rows| - 1]);
      var last := rows[|rows| - 1];
      if BudgetRow(last) then m[last[0] := last[1]] else m
  }

  /** Each category's budget is its amount text read as a number; `None` is `NaN`. */
  function Budgets(rows: seq<Row>): map<string, Option<Dec>>
  {
    MapValues(BudgetTexts(rows), CleanNumber)
  }

  /** Every value of a map passed through `f`. */
  function MapValues<V>(m: map<string, string>, f: string -> V): map<string, V>
  {
    map k | k in m :: f(m[k])
  }

  /**
   * `getBudgets`: below the header, the categories with a budget are exactly
   * those of the counting rows, and each one's budget is read from the last
   * counting row for it.
   */
  function GetBudgets(rows: seq<Row>): (r: map<string, Option<Dec>>)
    ensures forall k :: k in r <==> Counted(Body(rows), k)
    ensures forall i :: 0 <= i < |Body(rows)| && BudgetRow(Body(rows)[i]) && LastFor(Body(rows), i) ==>
      Body(rows)[i][0] in r && r[Body(rows)[i][0]] == CleanNumber(Body(rows)[i][1])
  {
    BudgetKeys(Body(rows));
    BudgetsFromLastRows(Body(rows));
    Budgets(Body(rows))
  }

  /** `BudgetFromLastRow` for every last counting row. */
  lemma BudgetsFromLastRows(rows: seq<Row>)
    ensures forall i :: 0 <= i < |rows| && BudgetRow(rows[i]) && LastFor(rows, i) ==>
      rows[i][0] in Budgets(rows) && Budgets(rows)[rows[i][0]] == CleanNumber(rows[i][1])
  {
    forall i | 0 <= i < |rows| && BudgetRow(rows[i]) && LastFor(rows, i)
      ensures rows[i][0] in Budgets(rows) && Budgets(rows)[rows[i][0]] == CleanNumber(rows[i][1])
    {
      BudgetFromLastRow(rows, i);
    }
  }

  /** Some counting row names category `k`. */
  predicate Counted(rows: seq<Row>, k: string)
  {
    exists i :: 0 <= i < |rows| && BudgetRow(rows[i]) && rows[i][0] == k
  }

  /** The categories with a budget are exactly those of the counting rows. */
  lemma BudgetKeys(rows: seq<Row>)
    ensures forall k :: k in Budgets(rows) <==> exists i :: 0 <= i < |rows| && BudgetRow(rows[i]) && rows[i][0] == k
  {
    BudgetTextKeys(rows);
    forall k
      ensures k in Budgets(rows) <==> Counted(rows, k)
    {
    }
  }

  lemma {:induction false} BudgetTextKeys(rows: seq<Row>)
    ensures forall k :: k in BudgetTexts(rows) <==> Counted(rows, k)
    decreases |rows|
  {
    if rows != [] {
      var init := rows[..|rows| - 1];
      BudgetTextKeys(init);
      forall k
        ensures k in BudgetTexts(rows) <==> Counted(rows, k)
      {
        if Counted(init, k) {
          var i :| 0 <= i < |init| && BudgetRow(init[i]) && init[i][0] == k;
          assert rows[i] == init[i];
        }
        if Counted(rows, k) {
          var i :| 0 <= i < |rows| && BudgetRow(rows[i]) && rows[i][0] == k;
          if i < |init| {
            assert init[i] == rows[i];
          }
        }
      }
    }
  }

  /** Each category's budget is read from the last counting row for it. */
  lemma BudgetFromLastRow(rows: seq<Row>, i: int)
    requires 0 <= i < |rows| && BudgetRow(rows[i]) && LastFor(rows, i)
    ensures rows[i][0] in Budgets(rows) && Budgets(rows)[rows[i][0]] == CleanNumber(rows[i][1])
  {
    BudgetTextFromLastRow(rows, i);
  }

  lemma {:induction false} BudgetTextFromLastRow(rows: seq<Row>, i: int)
    requires 0 <= i < |rows| && BudgetRow(rows[i]) && LastFor(rows, i)
    ensures rows[i][0] in BudgetTexts(rows) && BudgetTexts(rows)[rows[i][0]] == rows[i][1]
    decreases |rows|
  {
    var init := rows[..|rows| - 1];
    if i < |rows| - 1 {
      assert init[i] == rows[i];
      assert LastFor(init, i) by {
        forall j | i < j < |init| && BudgetRow(init[j])
          ensures init[j][0] != init[i][0]
        {
          assert init[j] == rows[j];
        }
      }
      BudgetTextFromLastRow(init, i);
    }
  }

  /** A later counting row for the same category overwrites the earlier budget, and only that one. */
  lemma LaterBudgetWins(rows: seq<Row>, row: Row)
    requires BudgetRow(row)
    ensures Budgets(rows + [row]) == Budgets(rows)[row[0] := CleanNumber(row[1])]
  {
    assert (rows + [row])[..|rows|] == rows;
    var t := BudgetTexts(rows);
    MapValuesUpdate(t, BudgetTexts(rows + [row]), row[0], row[1], CleanNumber);
  }

  /** Setting one key's value, then mapping, is mapping, then setting that key's image. */
  lemma MapValuesUpdate<V>(m: map<string, string>, m': map<string, string>, k: string, v: string, f: string -> V)
    requires m' == m[k := v]
    ensures MapValues(m', f) == MapValues(m, f)[k := f(v)]
  {
    var a, b := MapValues(m', f), MapValues(m, f)[k := f(v)];
    assert a.Keys == b.Keys;
    forall x | x in a
      ensures a[x] == b[x]
    {
      if x != k {
        assert m'[x] == m[x];
      }
    }
  }

  // ---------------------------------------------------------------- categories and accounts

  /** The non-empty cells, in order, each with its normalised form. */
  function Items(cells: seq<string>, removeAccents: string -> string): (r: seq<Item>)
    ensures |r| <= |cells|
    ensures forall j :: 0 <= j < |r| ==> r[j].original != "" && r[j].norm == Normalize(Some(r[j].original), removeAccents)
  {
    if cells == [] then []
    else
      var rest := Items(cells[1..], removeAccents);
      if cells[0] != "" then [Item(cells[0], Normalize(Some(cells[0]), removeAccents))] + rest else rest
  }

  /** The texts of a list of items. */
  function Originals(items: seq<Item>): (r: seq<string>)
    ensures |r| == |items|
    ensures forall j :: 0 <= j < |items| ==> r[j] == items[j].original
  {
    seq(|items|, j requires 0 <= j < |items| => items[j].original)
  }

  /** The items are the non-empty cells, no more and no fewer. */
  lemma ItemsAreNonEmptyCells(cells: seq<string>, removeAccents: string -> string)
    ensures forall c :: c in Originals(Items(cells, removeAccents)) <==> c in cells && c != ""
  {
    ItemsKeepNonEmpty(cells, removeAccents);
    NonEmptyMembers(cells);
  }

  /** The non-empty cells, in order. */
  function NonEmpty(cells: seq<string>): (r: seq<string>)
  {
    if cells == [] then [] else (if cells[0] != "" then [cells[0]] else []) + NonEmpty(cells[1..])
  }

  lemma {:induction false} ItemsKeepNonEmpty(cells: seq<string>, removeAccents: string -> string)
    ensures Originals(Items(cells, removeAccents)) == NonEmpty(cells)
    decreases |cells|
  {
    if cells != [] {
      ItemsKeepNonEmpty(cells[1..], removeAccents);
      var rest := Items(cells[1..], removeAccents);
      if cells[0] != "" {
        var item := Item(cells[0], Normalize(Some(cells[0]), removeAccents));
        assert Items(cells, removeAccents) == [item] + rest;
        OriginalsCons(item, rest);
      } else {
        assert Items(cells, removeAccents) == rest;
      }
    }
  }

  /** The texts of an item, then more items. */
  lemma OriginalsCons(item: Item, rest: seq<Item>)
    ensures Originals([item] + rest) == [item.original] + Originals(rest)
  {
    var a, b := Originals([item] + rest), [item.original] + Originals(rest);
    forall j | 0 <= j < |a|
      ensures a[j] == b[j]
    {
      if j > 0 {
        assert ([item] + rest)[j] == rest[j - 1];
      }
    }
  }

  lemma {:induction false} NonEmptyMembers(cells: seq<string>)
    ensures forall c :: c in NonEmpty(cells) <==> c in cells && c != ""
    decreases |cells|
  {
    if cells != [] {
      NonEmptyMembers(cells[1..]);
      forall c
        ensures c in NonEmpty(cells) <==> c in cells && c != ""
      {
        assert c in cells <==> c == cells[0] || c in cells[1..];
      }
    }
  }

  /** The items of two runs of cells are the items of the first, then those of the second: order is kept. */
  lemma {:induction false} ItemsAppend(a: seq<string>, b: seq<string>, removeAccents: string -> string)
    ensures Items(a + b, removeAccents) == Items(a, removeAccents) + Items(b, removeAccents)
    decreases |a|
  {
    if a != [] {
      assert (a + b)[0] == a[0];
      assert (a + b)[1..] == a[1..] + b;
      ItemsAppend(a[1..], b, removeAccents);
    } else {
      assert a + b == b;
    }
  }

  /** Cell `k` of each row. */
  function CellsOf(rows: seq<Row>, k: nat): (cells: seq<Option<string>>)
    ensures |cells| == |rows|
  {
    seq(|rows|, i requires 0 <= i < |rows| => At(rows[i], k))
  }

  /** Cell `k` of each row, `''` where the row has none. */
  function Column(rows: seq<Row>, k: nat): (cells: seq<string>)
    ensures |cells| == |rows|
  {
    seq(|rows|, i requires 0 <= i < |rows| => At(rows[i], k).GetOr(""))
  }

  /** A non-empty text is in the column exactly when some row has it in that cell. */
  lemma ColumnCells(rows: seq<Row>, k: nat)
    ensures forall c :: c != "" ==> (c in Column(rows, k) <==> Some(c) in CellsOf(rows, k))
  {
    var col, cells := Column(rows, k), CellsOf(rows, k);
    forall c | c != ""
      ensures c in col <==> Some(c) in cells
    {
      if c in col {
        var i :| 0 <= i < |col| && col[i] == c;
        assert cells[i] == Some(c);
      }
      if Some(c) in cells {
        var i :| 0 <= i < |cells| && cells[i] == Some(c);
        assert col[i] == c;
      }
    }
  }

  /**
   * `listCategorias`: below the header, the non-empty cells of column A are
   * the expense categories and those of column B the income categories.
   */
  function ListCategorias(rows: seq<Row>, removeAccents: string -> string): (r: Categories)
    ensures forall c :: c in Originals(r.despesas) <==> c != "" && Some(c) in CellsOf(Body(rows), 0)
    ensures forall c :: c in Originals(r.receitas) <==> c != "" && Some(c) in CellsOf(Body(rows), 1)
  {
    var body := Body(rows);
    ItemsAreNonEmptyCells(Column(body, 0), removeAccents);
    ItemsAreNonEmptyCells(Column(body, 1), removeAccents);
    ColumnCells(body, 0);
    ColumnCells(body, 1);
    Categories(Items(Column(body, 0), removeAccents), Items(Column(body, 1), removeAccents))
  }

  /** A row added at the bottom adds its non-empty cells at the end of each list: sheet order is kept. */
  lemma CategoriesKeepOrder(rows: seq<Row>, row: Row, removeAccents: string -> string)
    requires |rows| >= 1
    ensures ListCategorias(rows + [row], removeAccents).despesas
         == ListCategorias(rows, removeAccents).despesas + Items([At(row, 0).GetOr("")], removeAccents)
    ensures ListCategorias(rows + [row], removeAccents).receitas
         == ListCategorias(rows, removeAccents).receitas + Items([At(row, 1).GetOr("")], removeAccents)
  {
    var body := Body(rows);
    assert Body(rows + [row]) == body + [row];
    assert Column(body + [row], 0) == Column(body, 0) + [At(row, 0).GetOr("")];
    assert Column(body + [row], 1) == Column(body, 1) + [At(row, 1).GetOr("")];
    ItemsAppend(Column(body, 0), [At(row, 0).GetOr("")], removeAccents);
    ItemsAppend(Column(body, 1), [At(row, 1).GetOr("")], removeAccents);
  }

  /** `rows.flat()`: the cells of all rows, row after row. */
  function Flat(rows: seq<Row>): seq<string>
  {
    if rows == [] then [] else rows[0] + Flat(rows[1..])
  }

  /** A cell is in the flattened rows exactly when it is in one of them. */
  lemma {:induction false} FlatCells(rows: seq<Row>)
    ensures forall c :: c in Flat(rows) <==> exists i :: 0 <= i < |rows| && c in rows[i]
    decreases |rows|
  {
    if rows != [] {
      FlatCells(rows[1..]);
      forall c
        ensures c in Flat(rows) <==> exists i :: 0 <= i < |rows| && c in rows[i]
      {
        if c in Flat(rows[1..]) {
          var i :| 0 <= i < |rows[1..]| && c in rows[1..][i];
          assert rows[i + 1] == rows[1..][i];
        }
        if exists i :: 0 <= i < |rows| && c in rows[i] {
          var i :| 0 <= i < |rows| && c in rows[i];
          if i > 0 {
            assert rows[1..][i - 1] == rows[i];
          }
        }
      }
    }
  }

  /** `listContas`: below the header, every non-empty cell of column C. */
  function ListContas(rows: seq<Row>, removeAccents: string -> string): (r: seq<Item>)
    ensures forall c :: c in Originals(r) <==> c != "" && exists i :: 0 <= i < |Body(rows)| && c in Body(rows)[i]
  {
    ItemsAreNonEmptyCells(Flat(Body(rows)), removeAccents);
    FlatCells(Body(rows));
    Items(Flat(Body(rows)), removeAccents)
  }

  // ---------------------------------------------------------------- ranges

  /** The name of the transactions sheet. */
  const EntriesSheet: string := "Lan\U{00E7}amentos"

  /**
   * `updateRow`'s range `Lançamentos!${columnLetter}${rowNumber}`: always on the
   * transactions sheet, the column's letters followed by the row's digits, and
   * `undefined` written out for a missing part.
   */
  function UpdateRange(rowNumber: Option<int>, column: Option<string>): (r: string)
    ensures EntriesSheet + "!" <= r
    ensures rowNumber.Some? && column.Some? ==> r == EntriesSheet + "!" + column.value + IntToString(rowNumber.value)
    ensures column.None? ==> EntriesSheet + "!undefined" <= r
    ensures rowNumber.None? ==> |r| >= 9 && r[|r| - 9..] == "undefined"
  {
    var p := EntriesSheet + "!";
    var c := JsString(column);
    var n := match rowNumber case Some(x) => IntToString(x) case None => "undefined";
    ConcatParts(p, c, n);
    assert column.None? ==> p + c == EntriesSheet + "!undefined";
    p + c + n
  }

  /** Where the three parts of a concatenation sit in it. */
  lemma ConcatParts(p: string, c: string, n: string)
    ensures p <= p + c + n && p + c <= p + c + n
    ensures |p + c + n| >= |n| && (p + c + n)[|p + c + n| - |n|..] == n
  {
  }

  /** A column name: letters, no digits. */
  predicate ColumnName(c: string)
  {
    c != [] && !HasDigit(c)
  }

  /** Different cells have different ranges: the column and the row can be read back from the range. */
  lemma UpdateRangeInjective(r1: int, c1: string, r2: int, c2: string)
    requires ColumnName(c1) && ColumnName(c2) && r1 >= 1 && r2 >= 1
    requires UpdateRange(Some(r1), Some(c1)) == UpdateRange(Some(r2), Some(c2))
    ensures r1 == r2 && c1 == c2
  {
    var p := EntriesSheet + "!";
    var d1, d2 := IntToString(r1), IntToString(r2);
    assert p + c1 + d1 == p + (c1 + d1) && p + c2 + d2 == p + (c2 + d2);
    CancelPrefix(p, c1 + d1, c2 + d2);
    SplitAtFirstDigit(c1, d1, c2, d2);
  }

  /** Texts that agree after a common prefix are equal. */
  lemma CancelPrefix(p: string, a: string, b: string)
    requires p + a == p + b
    ensures a == b
  {
    assert a == (p + a)[|p|..];
    assert b == (p + b)[|p|..];
  }

  /** The 0-based, end-exclusive span of rows a `deleteDimension` request removes. */
  datatype Span = Span(start: int, end: int)

  /** `deleteRow` and `deleteRecurringRow`: the 1-based row r is the span [r - 1, r). */
  function DeleteSpan(rowNumber: int): (s: Span)
    ensures s.end - s.start == 1
    ensures s.end == rowNumber
  {
    Span(rowNumber - 1, rowNumber)
  }

  /** What is left of the rows once a span is removed. */
  function Remove(rows: seq<Row>, s: Span): seq<Row>
    requires 0 <= s.start <= s.end <= |rows|
  {
    rows[..s.start] + rows[s.end..]
  }

  /**
   * Deleting an entry's row removes exactly the row it was read from: the
   * entries read afterwards are the others, in order, those below it moved up
   * by one row.
   */
  lemma DeleteEntryRow(rows: seq<Row>, i: int)
    requires 0 <= i < |GetAllEntries(rows)|
    ensures var s := DeleteSpan(GetAllEntries(rows)[i].rowNumber);
      && 0 <= s.start < s.end <= |rows|
      && var before := GetAllEntries(rows);
         var after := GetAllEntries(Remove(rows, s));
         && |after| == |before| - 1
         && (forall j :: 0 <= j < i ==> after[j] == before[j])
         && (forall j :: i <= j < |after| ==> after[j] == before[j + 1].(rowNumber := before[j + 1].rowNumber - 1))
  {
    var s := DeleteSpan(GetAllEntries(rows)[i].rowNumber);
    assert s == Span(i + 1, i + 2);
    RemoveShifts(rows, i);
    EntriesShifted(rows, Remove(rows, s), i);
  }

  /** The entries of rows that lost the row below body row i. */
  lemma EntriesShifted(rows: seq<Row>, rest: seq<Row>, i: int)
    requires 0 <= i && i + 2 <= |rows| && |rest| == |rows| - 1
    requires forall j :: 0 <= j <= i ==> rest[j] == rows[j]
    requires forall j :: i + 1 <= j < |rest| ==> rest[j] == rows[j + 1]
    ensures var before := GetAllEntries(rows);
      var after := GetAllEntries(rest);
      && |after| == |before| - 1
      && (forall j :: 0 <= j < i ==> after[j] == before[j])
      && (forall j :: i <= j < |after| ==> after[j] == before[j + 1].(rowNumber := before[j + 1].rowNumber - 1))
  {
    forall j | 0 <= j < i
      ensures GetAllEntries(rest)[j] == GetAllEntries(rows)[j]
    {
      EntryAt(rest, j, rows[j + 1], j + 2);
      EntryAt(rows, j, rows[j + 1], j + 2);
    }
    forall j | i <= j < |rest| - 1
      ensures var before := GetAllEntries(rows);
        GetAllEntries(rest)[j] == before[j + 1].(rowNumber := before[j + 1].rowNumber - 1)
    {
      EntryMovedUp(rows, rest, j);
    }
  }

  /** The entry of a row that moved up one row is the one it was, numbered one less. */
  lemma EntryMovedUp(rows: seq<Row>, rest: seq<Row>, j: int)
    requires 0 <= j && j + 3 <= |rows| && |rest| == |rows| - 1 && rest[j + 1] == rows[j + 2]
    ensures var before := GetAllEntries(rows);
      GetAllEntries(rest)[j] == before[j + 1].(rowNumber := before[j + 1].rowNumber - 1)
  {
    EntryAt(rest, j, rows[j + 2], j + 2);
    EntryAt(rows, j + 1, rows[j + 2], j + 3);
  }

  /** The entry read from body row j. */
  lemma EntryAt(rows: seq<Row>, j: int, row: Row, n: int)
    requires 0 <= j && j + 2 <= |rows| && rows[j + 1] == row && n == j + 2
    ensures j < |GetAllEntries(rows)| && GetAllEntries(rows)[j] == DecodeEntry(row, n)
  {
  }

  /** Removing the sheet row below the header's i-th body row shifts the later rows up by one. */
  lemma RemoveShifts(rows: seq<Row>, i: int)
    requires 0 <= i && i + 2 <= |rows|
    ensures var rest := Remove(rows, Span(i + 1, i + 2));
      && |rest| == |rows| - 1
      && (forall j :: 0 <= j <= i ==> rest[j] == rows[j])
      && (forall j :: i + 1 <= j < |rest| ==> rest[j] == rows[j + 1])
  {
  }

  /** The same for a recurring entry's row. */
  lemma DeleteRecurringRow(rows: seq<Row>, i: int)
    requires 0 <= i < |GetAllRecurringEntries(rows)|
    ensures var s := DeleteSpan(GetAllRecurringEntries(rows)[i].rowNumber);
      && 0 <= s.start < s.end <= |rows|
      && var before := GetAllRecurringEntries(rows);
         var after := GetAllRecurringEntries(Remove(rows, s));
         && |after| == |before| - 1
         && (forall j :: 0 <= j < i ==> after[j] == before[j])
         && (forall j :: i <= j < |after| ==> after[j] == before[j + 1].(rowNumber := before[j + 1].rowNumber - 1))
  {
    var s := DeleteSpan(GetAllRecurringEntries(rows)[i].rowNumber);
    assert s == Span(i + 1, i + 2);
    RemoveShifts(rows, i);
    RecurringShifted(rows, Remove(rows, s), i);
  }

  /** The recurring entries of rows that lost the row below body row i. */
  lemma RecurringShifted(rows: seq<Row>, rest: seq<Row>, i: int)
    requires 0 <= i && i + 2 <= |rows| && |rest| == |rows| - 1
    requires forall j :: 0 <= j <= i ==> rest[j] == rows[j]
    requires forall j :: i + 1 <= j < |rest| ==> rest[j] == rows[j + 1]
    ensures var before := GetAllRecurringEntries(rows);
      var after := GetAllRecurringEntries(rest);
      && |after| == |before| - 1
      && (forall j :: 0 <= j < i ==> after[j] == before[j])
      && (forall j :: i <= j < |after| ==> after[j] == before[j + 1].(rowNumber := before[j + 1].rowNumber - 1))
  {
    forall j | 0 <= j < i
      ensures GetAllRecurringEntries(rest)[j] == GetAllRecurringEntries(rows)[j]
    {
      RecurringAt(rest, j, rows[j + 1], j + 2);
      RecurringAt(rows, j, rows[j + 1], j + 2);
    }
    forall j | i <= j < |rest| - 1
      ensures var before := GetAllRecurringEntries(rows);
        GetAllRecurringEntries(rest)[j] == before[j + 1].(rowNumber := before[j + 1].rowNumber - 1)
    {
      RecurringMovedUp(rows, rest, j);
    }
  }

  /** The entry of a row that moved up one row is the one it was, numbered one less. */
  lemma RecurringMovedUp(rows: seq<Row>, rest: seq<Row>, j: int)
    requires 0 <= j && j + 3 <= |rows| && |rest| == |rows| - 1 && rest[j + 1] == rows[j + 2]
    ensures var before := GetAllRecurringEntries(rows);
      GetAllRecurringEntries(rest)[j] == before[j + 1].(rowNumber := before[j + 1].rowNumber - 1)
  {
    RecurringAt(rest, j, rows[j + 2], j + 2);
    RecurringAt(rows, j + 1, rows[j + 2], j + 3);
    Renumbered(rows[j + 2], j + 3, j + 2);
  }

  /** The entry read from body row j. */
  lemma RecurringAt(rows: seq<Row>, j: int, row: Row, n: int)
    requires 0 <= j && j + 2 <= |rows| && rows[j + 1] == row && n == j + 2
    ensures j < |GetAllRecurringEntries(rows)| && GetAllRecurringEntries(rows)[j] == DecodeRecurring(row, n)
  {
  }

  lemma Renumbered(row: Row, n: int, m: int)
    ensures DecodeRecurring(row, n).(rowNumber := m) == DecodeRecurring(row, m)
  {
  }
}

=== FILE: text.dfy ===
/**
 * The JavaScript string operations the bot relies on, over `string` (= `seq<char>`):
 * `trim`, `toLowerCase`, `split` on one character, `includes`, `replace` with a
 * string pattern (first occurrence only), and the decimal rendering of integers
 * that template literals perform.
 */
module Text {
  import opened Wrappers

  /** JavaScript's WhiteSpace and LineTerminator characters: what `trim`, `parseFloat` and `parseInt` skip. */
  predicate IsSpace(c: char)
  {
    || c == '\t' || c == '\n' || c == '\U{000B}' || c == '\U{000C}' || c == '\r' || c == ' '
    || c == '\U{00A0}' || c == '\U{1680}' || ('\U{2000}' <= c <= '\U{200A}')
    || c == '\U{2028}' || c == '\U{2029}' || c == '\U{202F}' || c == '\U{205F}'
    || c == '\U{3000}' || c == '\U{FEFF}'
  }

  /** The ASCII digits: `\d` in a regular expression without the `u` flag. */
  predicate IsDigit(c: char)
  {
    '0' <= c <= '9'
  }

  function DigitVal(c: char): (n: nat)
    requires IsDigit(c)
    ensures n < 10
  {
    (c as int) - ('0' as int)
  }

  function DigitChar(n: nat): (c: char)
    requires n < 10
    ensures IsDigit(c) && DigitVal(c) == n
  {
    (('0' as int) + n) as char
  }

  predicate AllDigits(s: string)
  {
    forall i :: 0 <= i < |s| ==> IsDigit(s[i])
  }

  /** Digits contain no character that is not a digit. */
  lemma DigitsExclude(s: string, c: char)
    requires AllDigits(s) && !IsDigit(c)
    ensures c !in s
  {
    forall k | 0 <= k < |s|
      ensures s[k] != c
    {
      assert IsDigit(s[k]);
    }
  }

  predicate HasDigit(s: string)
  {
    exists i :: 0 <= i < |s| && IsDigit(s[i])
  }

  /** JavaScript truthiness of a string-or-undefined: `undefined` and `''` are falsy. */
  predicate Truthy(o: Option<string>)
  {
    o.Some? && o.value != ""
  }

  /** `String(x)` of a string-or-undefined. */
  function JsString(o: Option<string>): string
  {
    match o
    case Some(s) => s
    case None => "undefined"
  }

  // ---------------------------------------------------------------- trim

  /** How many whitespace characters open `s`. */
  function LeadingSpaces(s: string): (n: nat)
    ensures n <= |s|
  {
    if |s| > 0 && IsSpace(s[0]) then 1 + LeadingSpaces(s[1..]) else 0
  }

  /** The characters `LeadingSpaces` counts are whitespace, and the next one is not. */
  lemma {:induction false} LeadingSpacesSpan(s: string)
    ensures var n := LeadingSpaces(s);
      && (forall i :: 0 <= i < n ==> IsSpace(s[i]))
      && (n == |s| || !IsSpace(s[n]))
  {
    if |s| > 0 && IsSpace(s[0]) {
      LeadingSpacesSpan(s[1..]);
      forall i | 1 <= i < LeadingSpaces(s)
        ensures IsSpace(s[i])
      {
        assert s[i] == s[1..][i - 1];
      }
    }
  }

  /** How many whitespace characters close `s`. */
  function TrailingSpaces(s: string): (n: nat)
    ensures n <= |s|
  {
    if |s| > 0 && IsSpace(s[|s| - 1]) then 1 + TrailingSpaces(s[..|s| - 1]) else 0
  }

  /** The characters `TrailingSpaces` counts are whitespace, and the one before them is not. */
  lemma {:induction false} TrailingSpacesSpan(s: string)
    ensures var n := TrailingSpaces(s);
      && (forall i :: |s| - n <= i < |s| ==> IsSpace(s[i]))
      && (n == |s| || !IsSpace(s[|s| - n - 1]))
  {
    if |s| > 0 && IsSpace(s[|s| - 1]) {
      var init := s[..|s| - 1];
      TrailingSpacesSpan(init);
      forall i | |s| - TrailingSpaces(s) <= i < |s| - 1
        ensures IsSpace(s[i])
      {
        assert s[i] == init[i];
      }
    }
  }

  function TrimStart(s: string): (r: string)
    ensures |r| <= |s| && r == s[|s| - |r|..]
    ensures forall i :: 0 <= i < |s| - |r| ==> IsSpace(s[i])
    ensures r == [] || !IsSpace(r[0])
  {
    LeadingSpacesSpan(s);
    s[LeadingSpaces(s)..]
  }

  function TrimEnd(s: string): (r: string)
    ensures |r| <= |s| && r == s[..|r|]
    ensures forall i :: |r| <= i < |s| ==> IsSpace(s[i])
    ensures r == [] || !IsSpace(r[|r| - 1])
  {
    TrailingSpacesSpan(s);
    s[..|s| - TrailingSpaces(s)]
  }

  /** `s.trim()`: the infix of `s` left once whitespace is dropped from both ends. */
  function Trim(s: string): (r: string)
    ensures var k := |s| - |TrimStart(s)|;
      && k + |r| <= |s| && s[k..k + |r|] == r
      && (forall i :: 0 <= i < k ==> IsSpace(s[i]))
      && (forall i :: k + |r| <= i < |s| ==> IsSpace(s[i]))
    ensures r == [] || (!IsSpace(r[0]) && !IsSpace(r[|r| - 1]))
  {
    TrimSpan(s);
    TrimEnd(TrimStart(s))
  }

  /** The two halves of `Trim` compose: what `TrimEnd` keeps of `TrimStart`'s result is an infix of the input. */
  lemma TrimSpan(s: string)
    ensures var t := TrimStart(s); var r := TrimEnd(t); var k := |s| - |t|;
      && k + |r| <= |s| && s[k..k + |r|] == r
      && (forall i :: k + |r| <= i < |s| ==> IsSpace(s[i]))
      && (r == [] || r[0] == t[0])
  {
    var t := TrimStart(s);
    InfixOfInfix(s, t, TrimEnd(t));
  }

  /** A prefix of a suffix is an infix; what lies beyond the prefix in the suffix lies beyond the infix. */
  lemma InfixOfInfix(s: string, t: string, r: string)
    requires |t| <= |s| && t == s[|s| - |t|..]
    requires |r| <= |t| && r == t[..|r|]
    requires forall i :: |r| <= i < |t| ==> IsSpace(t[i])
    ensures var k := |s| - |t|;
      && k + |r| <= |s| && s[k..k + |r|] == r
      && (forall i :: k + |r| <= i < |s| ==> IsSpace(s[i]))
      && (r == [] || r[0] == t[0])
  {
    var k := |s| - |t|;
    forall j | 0 <= j < |r|
      ensures r[j] == s[k + j]
    {
      assert r[j] == t[j];
    }
    assert s[k..k + |r|] == r;
    forall i | k + |r| <= i < |s|
      ensures IsSpace(s[i])
    {
      assert s[i] == t[i - k];
    }
  }

  lemma TrimIdempotent(s: string)
    ensures Trim(Trim(s)) == Trim(s)
  {
    var r := Trim(s);
    assert TrimStart(r) == r;
    assert TrimEnd(r) == r;
  }

  /** Text that neither starts nor ends with whitespace is its own trim. */
  lemma TrimUnspaced(s: string)
    requires s == [] || (!IsSpace(s[0]) && !IsSpace(s[|s| - 1]))
    ensures Trim(s) == s
  {
    assert TrimStart(s) == s;
    assert TrimEnd(s) == s;
  }

  lemma TrimDigits(s: string)
    requires AllDigits(s)
    ensures Trim(s) == s
  {
    TrimUnspaced(s);
  }

  // ---------------------------------------------------------------- toLowerCase

  /** Upper-case letters of ASCII and Latin-1, whose lower-case form is 32 code points higher. */
  predicate IsUpper(c: char)
  {
    ('A' <= c <= 'Z') || ('\U{00C0}' <= c <= '\U{00DE}' && c != '\U{00D7}')
  }

  function LowerChar(c: char): (d: char)
    ensures !IsUpper(d)
    ensures IsSpace(d) <==> IsSpace(c)
    ensures !IsUpper(c) ==> d == c
  {
    if IsUpper(c) then ((c as int) + 32) as char else c
  }

  /** `s.toLowerCase()` on ASCII and Latin-1 letters. */
  function Lower(s: string): (r: string)
    ensures |r| == |s|
    ensures forall i :: 0 <= i < |s| ==> r[i] == LowerChar(s[i])
    ensures forall i :: 0 <= i < |r| ==> !IsUpper(r[i])
  {
    seq(|s|, i requires 0 <= i < |s| => LowerChar(s[i]))
  }

  lemma LowerIdempotent(s: string)
    ensures Lower(Lower(s)) == Lower(s)
  {
  }

  // ---------------------------------------------------------------- digits

  /** The longest prefix of `s` made of digits. */
  function LeadingDigits(s: string): (d: string)
    ensures AllDigits(d) && d <= s
    ensures |d| < |s| ==> !IsDigit(s[|d|])
  {
    if |s| > 0 && IsDigit(s[0]) then [s[0]] + LeadingDigits(s[1..]) else []
  }

  lemma LeadingDigitsOfDigitsThen(d: string, rest: string)
    requires AllDigits(d)
    requires rest == [] || !IsDigit(rest[0])
    ensures LeadingDigits(d + rest) == d
  {
    var s := d + rest;
    var l := LeadingDigits(s);
    assert forall j :: 0 <= j < |d| ==> s[j] == d[j];
    assert |rest| > 0 ==> s[|d|] == rest[0];
    assert forall j :: 0 <= j < |l| ==> l[j] == s[j];
    assert l == s[..|l|];
  }

  function Pow10(n: nat): (r: nat)
    ensures r >= 1
  {
    if n == 0 then 1 else 10 * Pow10(n - 1)
  }

  /** The number a string of decimal digits denotes (most significant first). */
  function DigitsValue(s: string): nat
    requires AllDigits(s)
  {
    if s == [] then 0 else DigitsValue(s[..|s| - 1]) * 10 + DigitVal(s[|s| - 1])
  }

  /** Appending a digit shifts the value one place and adds the digit. */
  lemma DigitsValueSnoc(s: string, c: char)
    requires AllDigits(s) && IsDigit(c)
    ensures AllDigits(s + [c])
    ensures DigitsValue(s + [c]) == DigitsValue(s) * 10 + DigitVal(c)
  {
    assert (s + [c])[..|s|] == s;
  }

  lemma ShiftAdd(x: int, p: int, y: int, d: int)
    ensures (x * p + y) * 10 + d == x * (p * 10) + (y * 10 + d)
  {
  }

  lemma {:induction false} DigitsValueAppend(a: string, b: string)
    requires AllDigits(a) && AllDigits(b)
    ensures AllDigits(a + b)
    ensures DigitsValue(a + b) == DigitsValue(a) * Pow10(|b|) + DigitsValue(b)
    decreases |b|
  {
    if b == [] {
      assert a + b == a;
    } else {
      var b' := b[..|b| - 1];
      var c := b[|b| - 1];
      assert b == b' + [c];
      assert a + b == (a + b') + [c];
      DigitsValueAppend(a, b');
      DigitsValueSnoc(a + b', c);
      DigitsValueSnoc(b', c);
      ShiftAdd(DigitsValue(a), Pow10(|b'|), DigitsValue(b'), DigitVal(c));
      assert Pow10(|b|) == Pow10(|b'|) * 10;
    }
  }

  /** The decimal rendering of a natural number, as `String(n)` gives it. */
  function NatToString(n: nat): (s: string)
    ensures |s| >= 1 && AllDigits(s)
    ensures DigitsValue(s) == n
  {
    if n < 10 then
      [DigitChar(n)]
    else
      var p := NatToString(n / 10);
      var s := p + [DigitChar(n % 10)];
      assert s[..|s| - 1] == p;
      s
  }

  /** The decimal rendering of an integer, with a leading `-` when negative. */
  function IntToString(i: int): (s: string)
    ensures |s| >= 1
    ensures i >= 0 ==> AllDigits(s) && DigitsValue(s) == i
    ensures i < 0 ==> s[0] == '-' && AllDigits(s[1..]) && DigitsValue(s[1..]) == -i
  {
    if i < 0 then
      var s := "-" + NatToString(-i);
      assert s[1..] == NatToString(-i);
      s
    else
      NatToString(i)
  }

  // ---------------------------------------------------------------- the first digit

  /** Where the first ASCII digit of `s` is. */
  function FirstDigit(s: string): (r: Option<nat>)
    ensures r.None? <==> !HasDigit(s)
    ensures r.Some? ==> r.value < |s| && IsDigit(s[r.value]) && !HasDigit(s[..r.value])
  {
    if s == [] then None
    else if IsDigit(s[0]) then
      assert s[..0] == [];
      Some(0)
    else
      match FirstDigit(s[1..])
      case None =>
        assert forall i :: 1 <= i < |s| ==> s[i] == s[1..][i - 1];
        None
      case Some(i) =>
        assert s[..i + 1] == [s[0]] + s[1..][..i];
        Some(i + 1)
  }

  /** After a digit-free prefix, the first digit is the one that ends it. */
  lemma {:induction false} FirstDigitAfter(pre: string, tail: string)
    requires !HasDigit(pre) && tail != [] && IsDigit(tail[0])
    ensures FirstDigit(pre + tail) == Some(|pre|)
    decreases |pre|
  {
    if pre == [] {
      assert pre + tail == tail;
    } else {
      assert !IsDigit(pre[0]);
      assert !HasDigit(pre[1..]) by {
        forall k | 0 <= k < |pre[1..]|
          ensures !IsDigit(pre[1..][k])
        {
          assert pre[1..][k] == pre[k + 1];
        }
      }
      FirstDigitAfter(pre[1..], tail);
      assert (pre + tail)[1..] == pre[1..] + tail;
    }
  }

  // ---------------------------------------------------------------- split on one character

  /** The pieces joined back with `sep` between them: the inverse of `Split`. */
  function Join(parts: seq<string>, sep: char): string
    requires |parts| >= 1
  {
    if |parts| == 1 then parts[0] else parts[0] + [sep] + Join(parts[1..], sep)
  }

  function CharIndex(s: string, c: char): (i: nat)
    requires c in s
    ensures i < |s| && s[i] == c && c !in s[..i]
  {
    if s[0] == c then 0 else assert s == [s[0]] + s[1..]; 1 + CharIndex(s[1..], c)
  }

  /** `s.split(sep)` for a one-character separator: never empty, and joining the pieces gives back `s`. */
  function Split(s: string, sep: char): (parts: seq<string>)
    ensures |parts| >= 1
    ensures Join(parts, sep) == s
    ensures forall i :: 0 <= i < |parts| ==> sep !in parts[i]
    decreases |s|
  {
    if sep !in s then
      [s]
    else
      var i := CharIndex(s, sep);
      var rest := Split(s[i + 1..], sep);
      var parts := [s[..i]] + rest;
      assert parts[1..] == rest;
      assert s == s[..i] + [sep] + s[i + 1..];
      parts
  }

  lemma CharIndexAfterPrefix(a: string, c: char, b: string)
    requires c !in a
    ensures c in a + [c] + b
    ensures CharIndex(a + [c] + b, c) == |a|
  {
    var s := a + [c] + b;
    assert s[|a|] == c;
    var i := CharIndex(s, c);
    assert forall j :: 0 <= j < |a| ==> s[j] == a[j];
    assert forall k :: |a| < k <= |s| ==> s[..k][|a|] == c;
  }

  /** Splitting a join of separator-free pieces recovers the pieces. */
  lemma {:induction false} SplitJoin(parts: seq<string>, sep: char)
    requires |parts| >= 1
    requires forall i :: 0 <= i < |parts| ==> sep !in parts[i]
    ensures Split(Join(parts, sep), sep) == parts
    decreases |parts|
  {
    if |parts| > 1 {
      var rest := parts[1..];
      assert Join(parts, sep) == parts[0] + [sep] + Join(rest, sep);
      assert sep !in parts[0];
      SplitCons(parts[0], sep, Join(rest, sep));
      assert forall i :: 0 <= i < |rest| ==> rest[i] == parts[i + 1];
      SplitJoin(rest, sep);
      assert parts == [parts[0]] + rest;
    }
  }

  /** The first piece of a split is the text before the first separator. */
  lemma SplitHead(a: string, sep: char, b: string)
    requires sep !in a
    ensures Split(a + [sep] + b, sep)[0] == a
  {
    var s := a + [sep] + b;
    CharIndexAfterPrefix(a, sep, b);
    assert s[..|a|] == a;
  }

  /** Splitting at the first separator: the text before it, then the pieces of the rest. */
  lemma SplitCons(a: string, sep: char, b: string)
    requires sep !in a
    ensures Split(a + [sep] + b, sep) == [a] + Split(b, sep)
  {
    var s := a + [sep] + b;
    CharIndexAfterPrefix(a, sep, b);
    assert s[..|a|] == a;
    assert s[|a| + 1..] == b;
  }

  /** The first piece of a split opens the text and ends at the first separator, or at the end. */
  lemma SplitFirstPiece(s: string, sep: char)
    ensures var p := Split(s, sep)[0];
      |p| <= |s| && s[..|p|] == p && (|Split(s, sep)| == 1 <==> |p| == |s|)
      && (|p| < |s| ==> s[|p|] == sep)
  {
    if sep in s {
      var i := CharIndex(s, sep);
      assert Split(s, sep)[0] == s[..i];
    }
  }

  /** Text splits into more than one piece exactly when the separator occurs in it. */
  lemma SplitMany(s: string, sep: char)
    ensures |Split(s, sep)| > 1 <==> sep in s
  {
  }

  /** Text without the separator splits into itself alone. */
  lemma SplitAbsent(s: string, sep: char)
    requires sep !in s
    ensures Split(s, sep) == [s]
  {
  }

  /** The piece at `k` of `s.split(sep)`, or `undefined` past the end. */
  function Piece(s: string, sep: char, k: nat): Option<string>
  {
    var parts := Split(s, sep);
    if k < |parts| then Some(parts[k]) else None
  }

  /**
   * `s.split(sep)[1]` is there exactly when `sep` occurs, and is then the first
   * piece of the text after the first `sep`.
   */
  lemma SecondPiece(s: string, sep: char)
    ensures Piece(s, sep, 1).Some? <==> sep in s
    ensures sep in s ==> Piece(s, sep, 1) == Some(Split(s[CharIndex(s, sep) + 1..], sep)[0])
  {
    SplitMany(s, sep);
    if sep in s {
      var i := CharIndex(s, sep);
      assert Split(s, sep) == [s[..i]] + Split(s[i + 1..], sep);
    }
  }

  // ---------------------------------------------------------------- substrings

  predicate OccursAt(s: string, p: string, j: int)
  {
    0 <= j && j + |p| <= |s| && s[j..j + |p|] == p
  }

  lemma OccursShift(s: string, p: string, k: int)
    requires |s| > 0 && 0 <= k
    ensures OccursAt(s[1..], p, k) <==> OccursAt(s, p, k + 1)
  {
    if 0 <= k && k + |p| <= |s| - 1 {
      assert s[1..][k..k + |p|] == s[k + 1..k + 1 + |p|];
    }
  }

  lemma OccursShiftAll(s: string, p: string)
    requires |s| > 0
    ensures forall j :: 1 <= j ==> (OccursAt(s, p, j) <==> OccursAt(s[1..], p, j - 1))
  {
    forall j | 1 <= j
      ensures OccursAt(s, p, j) <==> OccursAt(s[1..], p, j - 1)
    {
      OccursShift(s, p, j - 1);
    }
  }

  /** The first position where `p` occurs in `s` (`s.indexOf(p)`), or `None` for -1. */
  function IndexOf(s: string, p: string): (r: Option<nat>)
    ensures r.Some? ==> OccursAt(s, p, r.value)
    ensures r.Some? ==> forall j :: 0 <= j < r.value ==> !OccursAt(s, p, j)
    ensures r.None? ==> forall j :: !OccursAt(s, p, j)
    decreases |s|
  {
    if |p| > |s| then
      None
    else if s[..|p|] == p then
      Some(0)
    else
      assert !OccursAt(s, p, 0);
      OccursShiftAll(s, p);
      match IndexOf(s[1..], p)
      case None => None
      case Some(k) => Some(k + 1)
  }

  /** `s.includes(p)`. */
  predicate Contains(s: string, p: string)
  {
    IndexOf(s, p).Some?
  }

  lemma ContainsAt(s: string, p: string, j: int)
    requires OccursAt(s, p, j)
    ensures Contains(s, p)
  {
  }

  /** `s.replace(pat, rep)` with a string pattern: only the first occurrence is replaced. */
  function ReplaceFirst(s: string, pat: string, rep: string): string
  {
    match IndexOf(s, pat)
    case None => s
    case Some(i) => s[..i] + rep + s[i + |pat|..]
  }

  /** Digit-free text followed by text that opens with a digit splits back into the two at its first digit. */
  lemma SplitAtFirstDigit(a1: string, d1: string, a2: string, d2: string)
    requires !HasDigit(a1) && d1 != [] && IsDigit(d1[0])
    requires !HasDigit(a2) && d2 != [] && IsDigit(d2[0])
    requires a1 + d1 == a2 + d2
    ensures a1 == a2 && d1 == d2
  {
    FirstDigitAfter(a1, d1);
    FirstDigitAfter(a2, d2);
    assert (a1 + d1)[..|a1|] == a1;
    assert (a2 + d2)[..|a2|] == a2;
    assert (a1 + d1)[|a1|..] == d1;
    assert (a2 + d2)[|a2|..] == d2;
  }

  /** Replacing with digit-free text cannot bring a digit into digit-free text. */
  lemma ReplaceFirstDigitless(s: string, pat: string, rep: string)
    requires !HasDigit(s) && !HasDigit(rep)
    ensures !HasDigit(ReplaceFirst(s, pat, rep))
  {
    match IndexOf(s, pat) {
      case None =>
      case Some(i) =>
        var r := s[..i] + rep + s[i + |pat|..];
        forall k | 0 <= k < |r|
          ensures !IsDigit(r[k])
        {
          if k < i {
            assert r[k] == s[k];
          } else if k < i + |rep| {
            assert r[k] == rep[k - i];
          } else {
            assert r[k] == s[k - |rep| + |pat|];
          }
        }
    }
  }

  /** Where the first occurrence is known, the replacement happens exactly there and nowhere else. */
  lemma ReplaceFirstAt(before: string, pat: string, after: string, rep: string)
    requires forall j :: 0 <= j < |before| ==> !OccursAt(before + pat + after, pat, j)
    ensures ReplaceFirst(before + pat + after, pat, rep) == before + rep + after
  {
    var s := before + pat + after;
    assert OccursAt(s, pat, |before|);
    var i := IndexOf(s, pat).value;
    assert i == |before|;
    assert s[..i] == before;
    assert s[i + |pat|..] == after;
  }

  lemma ReplaceFirstAbsent(s: string, pat: string, rep: string)
    requires forall j :: !OccursAt(s, pat, j)
    ensures ReplaceFirst(s, pat, rep) == s
  {
  }

  /** A one-character pattern that does not occur is not replaced. */
  lemma ReplaceCharAbsent(s: string, c: char, rep: string)
    requires c !in s
    ensures ReplaceFirst(s, [c], rep) == s
  {
    forall j
      ensures !OccursAt(s, [c], j)
    {
      if 0 <= j && j + 1 <= |s| {
        assert s[j..j + 1][0] == s[j];
      }
    }
    ReplaceFirstAbsent(s, [c], rep);
  }

  /** A one-character pattern is replaced where it first occurs. */
  lemma ReplaceCharFirst(before: string, c: char, after: string, rep: string)
    requires c !in before
    ensures ReplaceFirst(before + [c] + after, [c], rep) == before + rep + after
  {
    var s := before + [c] + after;
    forall j | 0 <= j < |before|
      ensures !OccursAt(s, [c], j)
    {
      assert s[j..j + 1][0] == before[j];
    }
    ReplaceFirstAt(before, [c], after, rep);
  }

  predicate StartsWith(s: string, p: string)
  {
    |p| <= |s| && s[..|p|] == p
  }
}

=== FILE: ui.dfy ===
/**
 * The inline keyboards of `ui.js`: one button per category or account laid out
 * two to a row, and the fixed skip, confirmation and main-menu keyboards.
 */
module Ui {
  import opened Wrappers
  import opened Records
  import opened Effects

  /** One button per item; the label and the payload are both the item's original text. */
  function Buttons(items: seq<Item>): (bs: seq<Button>)
    ensures |bs| == |items|
    ensures forall i :: 0 <= i < |items| ==> bs[i].text == items[i].original && bs[i].data == items[i].original
  {
    seq(|items|, i requires 0 <= i < |items| => Button(items[i].original, items[i].original))
  }

  /** The buttons of a keyboard, row after row. */
  function Flatten(rows: Keyboard): seq<Button>
  {
    if rows == [] then [] else rows[0] + Flatten(rows[1..])
  }

  /** The payloads of a keyboard, row after row. */
  function Payloads(rows: Keyboard): seq<string>
  {
    var bs := Flatten(rows);
    seq(|bs|, i requires 0 <= i < |bs| => bs[i].data)
  }

  function Min(a: int, b: int): int
  {
    if a <= b then a else b
  }

  /**
   * `for (i = 0; i < n; i += 2) rows.push(keyboard.slice(i, i + 2))`: row `i`
   * is the slice starting at `2i`, every row but the last holds two buttons, and
   * reading the rows in order gives back the buttons.
   */
  function Rows(bs: seq<Button>): (rows: Keyboard)
    ensures |rows| == (|bs| + 1) / 2
    ensures forall i :: 0 <= i < |rows| ==> rows[i] == bs[2 * i..Min(2 * i + 2, |bs|)]
    ensures forall i :: 0 <= i < |rows| ==> 1 <= |rows[i]| <= 2
    ensures forall i :: 0 <= i < |rows| - 1 ==> |rows[i]| == 2
    ensures Flatten(rows) == bs
    decreases |bs|
  {
    if bs == [] then
      []
    else if |bs| <= 2 then
      assert [bs][1..] == [];
      [bs]
    else
      var tail := Rows(bs[2..]);
      RowsCons(bs, tail);
      [bs[..2]] + tail
  }

  /** Putting the first pair in front of the rows of the rest gives the rows of the whole. */
  lemma RowsCons(bs: seq<Button>, tail: Keyboard)
    requires |bs| > 2
    requires |tail| == (|bs| - 1) / 2
    requires forall i :: 0 <= i < |tail| ==> tail[i] == bs[2..][2 * i..Min(2 * i + 2, |bs| - 2)]
    requires Flatten(tail) == bs[2..]
    ensures var rows := [bs[..2]] + tail;
      && (forall i :: 0 <= i < |rows| ==> rows[i] == bs[2 * i..Min(2 * i + 2, |bs|)])
      && (forall i :: 0 <= i < |rows| ==> 1 <= |rows[i]| <= 2)
      && (forall i :: 0 <= i < |rows| - 1 ==> |rows[i]| == 2)
      && Flatten(rows) == bs
  {
    var rows := [bs[..2]] + tail;
    forall i | 0 <= i < |rows|
      ensures rows[i] == bs[2 * i..Min(2 * i + 2, |bs|)]
      ensures 1 <= |rows[i]| <= 2
      ensures i < |rows| - 1 ==> |rows[i]| == 2
    {
      if i > 0 {
        assert rows[i] == tail[i - 1];
        PairAfterFirst(bs, i);
      }
    }
    assert rows[1..] == tail;
    assert Flatten(rows) == bs[..2] + Flatten(tail);
    assert bs == bs[..2] + bs[2..];
  }

  /** The pair starting at `2i` is, past the first pair, the pair starting at `2(i - 1)`. */
  lemma PairAfterFirst(bs: seq<Button>, i: int)
    requires 1 <= i && 2 * i < |bs|
    ensures bs[2..][2 * (i - 1)..Min(2 * (i - 1) + 2, |bs| - 2)] == bs[2 * i..Min(2 * i + 2, |bs|)]
  {
    var m := Min(2 * i + 2, |bs|);
    assert Min(2 * (i - 1) + 2, |bs| - 2) == m - 2;
    var a := bs[2..][2 * (i - 1)..m - 2];
    var b := bs[2 * i..m];
    assert |a| == |b|;
    forall j | 0 <= j < |a|
      ensures a[j] == b[j]
    {
      assert a[j] == bs[2 * i + j];
    }
  }

  /** `getCategoriesKeyboard(type)`: the expense list exactly when the type is `'Despesa'`, otherwise the income list. */
  function CategoriesKeyboard(kind: Option<string>, categories: Categories): (k: Keyboard)
    ensures kind == Some("Despesa") ==> Flatten(k) == Buttons(categories.despesas)
    ensures kind != Some("Despesa") ==> Flatten(k) == Buttons(categories.receitas)
    ensures |k| == (|Flatten(k)| + 1) / 2
    ensures forall i :: 0 <= i < |k| ==> 1 <= |k[i]| <= 2
    ensures forall i :: 0 <= i < |k| - 1 ==> |k[i]| == 2
    ensures k == Rows(Flatten(k))
  {
    var list := if kind == Some("Despesa") then categories.despesas else categories.receitas;
    Rows(Buttons(list))
  }

  /** `getAccountsKeyboard()`. */
  function AccountsKeyboard(accounts: seq<Item>): (k: Keyboard)
    ensures Flatten(k) == Buttons(accounts)
    ensures |k| == (|accounts| + 1) / 2
    ensures forall i :: 0 <= i < |k| ==> 1 <= |k[i]| <= 2
    ensures forall i :: 0 <= i < |k| - 1 ==> |k[i]| == 2
    ensures k == Rows(Flatten(k))
  {
    Rows(Buttons(accounts))
  }

  /** `getSkipKeyboard(step)`: one button whose payload is `skip_` followed by the step. */
  function SkipKeyboard(step: string): (k: Keyboard)
    ensures Payloads(k) == ["skip_" + step]
  {
    var k := [[Button("Pular", "skip_" + step)]];
    assert k[1..] == [];
    assert Flatten(k) == k[0];
    assert |Payloads(k)| == 1 && Payloads(k)[0] == "skip_" + step;
    k
  }

  /** `getConfirmationKeyboard()`: a confirm and a cancel button on one row. */
  function ConfirmationKeyboard(): (k: Keyboard)
    ensures |k| == 1 && Payloads(k) == ["confirm", "cancel"]
  {
    [[Button("\U{2705} Confirmar", "confirm"), Button("\U{274C} Cancelar", "cancel")]]
  }

  /** `getMainMenuKeyboard()`: new expense, new income, summary and latest entries, two to a row. */
  function MainMenuKeyboard(): (k: Keyboard)
    ensures |k| == 2 && Payloads(k) == ["start_gasto", "start_receita", "show_resumo", "show_ultimos"]
    ensures forall i :: 0 <= i < |k| ==> |k[i]| == 2
  {
    [ [Button("\U{1F4B8} Novo Gasto", "start_gasto"), Button("\U{1F4B0} Nova Receita", "start_receita")],
      [Button("\U{1F4CA} Ver Resumo", "show_resumo"), Button("\U{1F9FE} Ver \U{00DA}ltimos 5", "show_ultimos")] ]
  }

  /** The skip payload gives back the step it was built for. */
  lemma SkipPayloadNamesStep(step: string)
    ensures var p := Payloads(SkipKeyboard(step))[0];
      |p| >= 5 && p[..5] == "skip_" && p[5..] == step
  {
  }
}

=== FILE: wrappers.dfy ===
/** Optional values: JavaScript's `undefined`/`null`/`NaN` results are `None`. */
module Wrappers {

  datatype Option<+T> = None | Some(value: T) {

    /** The wrapped value, or `default` when there is none (JavaScript's `x || default` on a non-falsy x). */
    function GetOr(default: T): T
    {
      match this
      case Some(v) => v
      case None => default
    }
  }
}
